=== FILE: README.md ===
# ChatterBox server core in Dafny

A model of the request-handling core of the ChatterBox chat server, a C
program in which clients register a nickname, connect, exchange texts and
files, and fetch their message history. The model follows the C code's
structure, one module per source file:

- `Wrappers` (wrappers.dfy): the `Option` type for results that may be NULL.
- `Bytes` (bytes.dfy): `unsigned int` conversion, little-endian integers, C
  strings in fixed character fields, and `strndup`.
- `Messages` (messages.dfy, message.h): the message header and data part,
  the 33-byte nickname fields, and `setHeader`/`setData`.
- `History` (history.dfy, queue.c): the bounded per-user history. It is a
  circular list that starts overwriting from the head once `qmax` messages
  are stored.
- `Directory` (directory.dfy, icl_hash.c): the chained hash table of
  registered users, with `hash_pjw` on 32 bits. It covers insert, delete and
  find, the online/offline flags, per-user histories, partitions, and the
  online-user listing.
- `Broadcast` (broadcast.dfy, chatty.c `postTextAll`): the scan over every
  bucket and chain that reaches every user except the sender.
- `Config` (config.dfy, utility.c): `parseConfigurationFile` over the lines
  of the file, and `atoi`.
- `Wire` (wire.dfy, connections.c): the byte layout written by
  `sendHeader`/`sendData`/`sendRequest` and read back by
  `readHeader`/`readData`/`readMsg`. A connection is a byte sequence, and a
  closed connection is one that runs out.
- `ThreadPool` (threadpool.dfy, threadpool.c): the task ring and what
  `create`, `add`, a worker's loop, `destroy` and `free` do to it.
- `Chatty` (chatty.dfy, chatty.c): `chooseRequest` and every request
  handler.
  - Each handler is one atomic step on the directory and the statistics
    counters.
  - The step yields the list of outputs the handler produces in order:
    replies, deliveries, a written file, a closed connection, the completion
    written on the listener's pipe, undefined behaviour of the C code, or
    the server's exit.
  - A send of a message whose buffer is shorter than its length reads past
    the buffer, and counts as undefined behaviour (`Chatty.Send`).
  - The listener's admission check is modelled too.

The invariant `Chatty.Ready` holds for every handler's input and output:
- the directory is valid;
- every nickname fits a name field;
- every history is a queue that can take a push;
- every entry bound to a connection is online.

The counting invariants `Chatty.UsersCounted` (`nusers` equals the number of
registered users) and `Chatty.OnlineCounted` (`nonline` equals the number of
online users) are stated separately. `unregisterUser` and `DISCONNECT` break
`OnlineCounted`.

## Model

| member | source | states |
|---|---|---|
| Bytes.ToU32 | chatty.c:903 | converting to `unsigned int` keeps every value below 2^32 and otherwise agrees with it modulo 2^32 |
| Bytes.ToU64 | chatty.c:270 | converting to `unsigned long` gives a value below 2^64 that agrees with every value below 2^64, and adds 2^64 to a value between -2^64 and 0 |
| Bytes.FromLEOfLE | connections.c:105-135 | an integer that fits in `n` bytes is read back from its `n`-byte little-endian encoding unchanged |
| Bytes.LEOfFromLE | connections.c:61-91 | decoding any `n` bytes and encoding the value in `n` bytes gives back the same bytes |
| Bytes.CStr | message.h:80-86 | the C string in a field is a NUL-free prefix of it, and ends at a NUL when it is shorter than the field |
| Bytes.CStrOfTerminated | message.h:80-86 | a NUL-free string stored with its terminator reads back as itself, whatever follows the terminator |
| Bytes.StrNDup | chatty.c:833 | `strndup(s, n)` is a NUL-free prefix of `s` of at most `n` characters, followed by one terminator |
| Bytes.StrNDupShort | chatty.c:833-836 | the `strndup` copy is shorter than the requested length exactly when the text has a NUL before its last byte |
| Messages.CopyName | message.h:80-86 | after `strncpy` of a nickname with its terminator, the field reads back as that nickname and its bytes past the terminator are unchanged |
| Messages.SetHeader | message.h:80-86 | the header gets the operation code, and its sender field reads back as the given nickname |
| Messages.SetData | message.h:96-104 | the receiver field reads back as the given nickname; the length and the buffer are stored as given |
| Messages.Build | message.h:80-104 | a message built in fresh parts is well formed and holds the given code, sender, receiver, length and buffer |
| History.InitQueue | queue.c:55-65 | a new queue is empty, well formed, and has the requested capacity |
| History.Push | queue.c:83-127 | `push` keeps the queue well formed; below capacity it appends; at capacity the length stays `qmax`, and the new message replaces the node after the tail (the head, once the tail is the last node) and becomes the tail |
| History.Pop | queue.c:131-143 | `pop` returns the head message, and the queue keeps the rest, with the cursor at the new length |
| History.QueueLength | queue.c:145-148 | the reported length is the number of stored messages, which never exceeds the capacity |
| History.QueueLengthCountsPushes | queue.c:145-148 | a fresh queue reports the number of messages pushed onto it, capped at its capacity |
| History.PushFullRotates | queue.c:89-124 | a push into a full queue drops the oldest message and adds the new one as the newest, in arrival order |
| History.PushAllBelowCapacity | queue.c:100-124 | up to `qmax` pushes into a new queue keep every message, head first in arrival order, with the cursor after the last one |
| History.PushAllToCapacity | queue.c:83-127 | exactly `qmax` pushes fill the queue with the messages in arrival order |
| History.PushAllAppend | queue.c:83-127 | pushing `a` and then `b` gives the same queue as pushing `a + b` |
| History.FullPushAll | queue.c:89-124 | pushes into a full queue keep it full and slide its arrival-order window over the new messages |
| History.PushAllAtCapacity | queue.c:83-127 | after at least `qmax` pushes into a new queue, it holds the last `qmax` messages in arrival order |
| History.LastPushesKept | queue.c:83-127 | after any number of pushes, the queue holds the last `min(n, qmax)` messages: all of them in order below capacity, and the newest `qmax` in arrival order otherwise |
| History.SlotOrderAfterWrap | queue.c:89-124 | after a wrap-around, head-first list order is not arrival order: with capacity 2, pushing a, b, c leaves c, b |
| Directory.HashPjw | icl_hash.c:44-66 | the 32-bit hash never has its top four bits set, and the empty key hashes to 0 |
| Directory.Bucket | icl_hash.c:99-113 | the bucket index lies within the table |
| Directory.FindMatchesView | icl_hash.c:99-113 | a bucket search succeeds exactly for the registered nicknames, and finds an online entry exactly for the online ones |
| Directory.Create | icl_hash.c:74-97 | the table exists exactly when `1 <= npartitions <= nbuckets`, and then it is valid and empty |
| Directory.Insert | icl_hash.c:115-143 | a registered key gives NULL and leaves the table unchanged; a new key becomes registered and online, with its descriptor and an empty history of the given capacity; every other key's entry stays the same |
| Directory.Delete | icl_hash.c:145-171 | an unknown key gives -1 and no change; otherwise 0, and the key is removed from both the registered and the online set, with every other entry unchanged |
| Directory.GetPartition | icl_hash.c:219-223 | the partition of a key is a valid partition number |
| Directory.PartitionOfEntry | icl_hash.c:219-223 | the partition locked for a registered key is the partition of the bucket that holds its entry |
| Directory.IsRegistered | icl_hash.c:267-276 | 1 exactly for registered nicknames and 0 exactly for the others |
| Directory.IsOnline | icl_hash.c:256-265 | -1 for an unknown nickname, 1 for an online one, and 0 for a registered offline one |
| Directory.SetOnline | icl_hash.c:278-297 | -1 and no change for a negative descriptor or an unknown key; otherwise the key becomes online on that descriptor, and nothing else changes |
| Directory.AddMessage | icl_hash.c:326-338 | -1 for an unknown key; otherwise only that key's history changes, by one push of the message |
| Directory.OfflineTarget | icl_hash.c:299-324 | the entry taken offline for a descriptor exists exactly when some entry is bound to it, and the search finds it bound there |
| Directory.OfflineTargetUnique | icl_hash.c:299-324 | when exactly one user is bound to the descriptor, that user is the one taken offline |
| Directory.SetOffline | icl_hash.c:299-324 | -1 and no change for a negative or unbound descriptor; otherwise 0, and only the first entry bound to it goes offline and unbound |
| Directory.OnlineUsersMatchView | icl_hash.c:225-254 | the listing names every online user with a non-empty nickname, and no one else, each exactly once |
| Directory.UnpackPack | icl_hash.c:225-254 | reading back as many names as were listed from the buffer of name fields gives the listed names |
| Directory.PackTail | icl_hash.c:233 | the name fields after the listed ones stay zero, as `calloc` leaves them |
| Directory.GetOnlineUsers | icl_hash.c:225-254 | as written: NULL for a negative size, and a write past the buffer exactly when the online users fill or exceed its `size` fields |
| Directory.OnlineListing | icl_hash.c:225-254 | corrected: the write goes past the buffer only when there are more online users than fields; otherwise the buffer reads back as the online users, followed by zeroed fields |
| Directory.ExactFitOverruns | icl_hash.c:233-251 | one online user and a buffer of one field: the corrected listing succeeds, while the code as written stores the terminator past the buffer |
| Broadcast.RecipientsAreTheOthers | chatty.c:818-826 | the scan reaches every registered user except the sender, each exactly once, as the entry a search finds; the online ones it reaches are exactly the online users other than the sender |
| Broadcast.TouchAllSpec | chatty.c:818-840 | the scan keeps the table valid with the same registered and online users, and every entry afterwards is its earlier entry with one push, unless it is the sender's |
| Broadcast.TouchAllFrames | chatty.c:818-840 | the sender's entry and unknown keys are untouched, and every other history receives exactly one push of the text |
| Config.ParseLine | utility.c:45-73 | comments and lines starting with a blank are skipped; otherwise the key is the leading run of letters, and the value is the blank-free word after the first `=` and its leading blanks |
| Config.BufferedValue | utility.c:64-73 | as written: the value scan runs through the line's terminator into the rest of the 256-byte buffer. It runs off the buffer exactly when neither the rest of the line nor the bytes after the terminator hold a blank; otherwise it yields a prefix of the line's value. An empty value (`Key=` then a newline) is one way in, since the skip of leading blanks consumes the newline |
| Config.BufferedValueAgrees | utility.c:64-73 | when a blank (such as the newline) follows the value on its line, the scan in the buffer finds the same value as `ParseLine` |
| Config.UnterminatedLineOverruns | utility.c:64-73 | a last line without a newline, whose value runs to its end, followed by buffer bytes with no blank, sends the scan past the buffer; the intended value is the rest of the line |
| Config.LastSetting | utility.c:45-118 | a key has a setting exactly when some line sets it |
| Config.ParseConfigurationIsLastSetting | utility.c:26-120 | each of the eight fields of the parsed configuration comes from the last line naming its key (`atoi` of it for the five numbers), or keeps its default NULL or 0 when no line names it |
| Config.NoSettingsKeepsDefaults | utility.c:29-36 | a file whose lines set no key leaves every field at its default |
| Config.SetFields | utility.c:75-117 | one line sets the field its key names and no other; an unknown key changes nothing |
| Config.AtoiOfShow | utility.c:83 | `atoi` reads every integer written in decimal, with an optional minus sign, back as itself |
| Wire.SendHeader | connections.c:105-118 | a negative descriptor fails and writes nothing; otherwise 4 + 33 bytes are written |
| Wire.SendData | connections.c:120-135 | a negative descriptor fails; otherwise the receiver field and the length are written, then exactly `len` payload bytes, none when `len` is 0 |
| Wire.SendRequest | connections.c:137-148 | a request writes its header and then its data part, `74 + len` bytes in all |
| Wire.ReadN | utility.h:125-145 | a read succeeds exactly when enough bytes remain; a short read leaves the bytes that arrived over the earlier contents of the buffer |
| Wire.ReadData | connections.c:75-91 | a successful read leaves a length that fits its buffer (a fresh buffer of `len` bytes, or the earlier one when `len` is 0); at the end of the stream nothing is left unread |
| Wire.ReadHeader | connections.c:61-73 | the header read succeeds exactly when 37 bytes are available, and at the end of the stream nothing is left unread |
| Wire.RoundTrip | connections.c:61-148 | reading back what `sendRequest` wrote gives the header, the receiver, the length and the payload, and leaves what followed unread; with length 0 the reader keeps its earlier buffer |
| Wire.HeaderRoundTrip | connections.c:61-73 | reading back a sent header gives that header and leaves the following bytes unread |
| Wire.DataRoundTrip | connections.c:75-91 | reading back a sent data part gives its receiver and length, its first `len` payload bytes (or the reader's earlier buffer when `len` is 0), and the bytes after it |
| Wire.TruncatedFails | connections.c:61-103 | a stream that ends before the end of an encoded message, other than inside the length field, makes `readMsg` fail |
| Wire.TruncatedInLength | connections.c:75-91 | the length read is not checked: a stream that ends inside the length field is accepted exactly when the bytes that arrived, over the earlier length, spell 0 |
| Wire.CutBeforeLengthAccepted | connections.c:75-91 | a stream cut just before the length, read into a structure whose length was 0, is reported as a complete message |
| ThreadPool.SlotIsMod | threadpool.c:137 | the ring slot `k` places after `head` is `(head + k) % queue_size` |
| ThreadPool.Create | threadpool.c:75-124 | the pool exists exactly when `1 <= thread_count <= MAX_THREADS` and `1 <= queue_size <= MAX_QUEUE`, and then its ring is empty |
| ThreadPool.Add | threadpool.c:126-172 | NULL pool or function gives `invalid`; a full ring gives `queue_full`, checked before `shutdown`, and neither changes the pool; otherwise the task becomes the newest in the ring and the result is 0 |
| ThreadPool.WorkerStep | threadpool.c:38-73 | a worker waits exactly when the ring is empty and no shutdown is under way; it exits on an immediate shutdown, or on a graceful one once the ring is empty, giving up its `started` count; otherwise it runs a task |
| ThreadPool.Dequeue | threadpool.c:58-61 | a worker takes the oldest task, and the ring keeps the others in order |
| ThreadPool.GracefulRun | threadpool.c:38-73 | under a graceful shutdown a worker runs every queued task, oldest first, and then exits |
| ThreadPool.Destroy | threadpool.c:174-216 | NULL gives `invalid`; a shutdown already under way gives `shutdown` and no change; otherwise the shutdown is graceful when the low bit of `flags` is set and immediate otherwise |
| ThreadPool.GracefulDestroyDrains | threadpool.c:174-216 | after a graceful destroy, every task that was queued still runs, in order |
| ThreadPool.ImmediateDestroyDrops | threadpool.c:51-54 | after an immediate destroy, a worker exits at its next step and leaves every queued task unrun |
| ThreadPool.Free | threadpool.c:218-240 | -1 exactly for a NULL pool or one with started threads, and 0 otherwise |
| Chatty.UsrList | chatty.c:883-909 | `OP_OK` from "server" carrying the as-written listing of `MaxConnections` name fields, which reads back as the online users, with a length of `nonline` fields in `unsigned int`; undefined behaviour exactly when at least `MaxConnections` users are online (the listing's terminator lands past its buffer) or the length exceeds the buffer |
| Chatty.FixedUsrList | chatty.c:883-909 | the same reply over the corrected listing: undefined only when more users are online than `MaxConnections`, or the length exceeds the buffer |
| Chatty.UsrListAgrees | chatty.c:898 | the as-written and corrected replies are equal except when exactly `MaxConnections` users are online; then the as-written one is undefined and the corrected one is sent whenever its length fits |
| Chatty.UsrListReadsBack | chatty.c:883-909 | when fewer users are online than `MaxConnections` and `nonline` counts them, a client reading `len / 33` names gets every online user exactly once |
| Chatty.OnlineUsersAreOnlineKeys | icl_hash.c:241-248 | without an empty nickname, the listing holds each online user exactly once |
| Chatty.RegisterUser | chatty.c:407-449 | a known nickname counts an error and gets `OP_NICK_ALREADY`; a new one is added online with an empty history of `MaxHistMsgs`, both counters go up, nothing else changes, and the user gets the listing |
| Chatty.UnregisterUser | chatty.c:451-494 | an unknown nickname counts an error and gets `OP_NICK_UNKNOWN`; a registered one is removed, `nusers` and `nonline` both go down whether or not it was online, and the reply is `OP_OK` |
| Chatty.ConnectUser | chatty.c:496-539 | an unknown nickname counts an error and gets `OP_NICK_UNKNOWN`; a registered one becomes online on this connection, `nonline` goes up only if it was offline, and the user gets the listing |
| Chatty.PostText | chatty.c:719-790 | an unknown receiver or an over-long text counts an error with its code; otherwise the text is pushed onto the receiver's history, sent and counted delivered when the receiver is online (else counted not delivered), and the sender gets `OP_OK` |
| Chatty.PostTextAll | chatty.c:792-881 | an over-long text counts an error and gets `OP_MSG_TOOLONG`; any other text is broadcast |
| Chatty.PostTextAllPushes | chatty.c:818-840 | a broadcast keeps the same registered and online users, and pushes the text onto every history except the sender's |
| Chatty.PostTextAllReachesOthers | chatty.c:818-874 | a broadcast is sent exactly to the connections of the online users other than the sender, then `OP_OK` is sent; `ndelivered` grows by their number and `nnotdelivered` by the number of other offline users |
| Chatty.BroadcastOfCutText | chatty.c:831-860 | when the text has a NUL before its last byte, every send of the `strndup` copy reads past it; otherwise every online user other than the sender is sent the copy |
| Chatty.Basename | chatty.c:549-554 | the file name is what follows the last `/`, or the whole name when there is none |
| Chatty.Send | connections.c:120-147 | `sendRequest` delivers the message exactly when its buffer holds its length; otherwise it reads past the buffer |
| Chatty.FileNote | chatty.c:657-681 | the announcement of a posted file is a `FILE_MESSAGE` from the sender that holds the file's base name and its terminator |
| Chatty.StoreFile | chatty.c:649-711 | once `DirName/<basename>` is open for writing, an accepted file is written there, and its note is pushed onto the receiver's history; the note is sent and counted delivered when the receiver is online (else counted not delivered), and the sender gets `OP_OK` |
| Chatty.PostFile | chatty.c:598-717 | an unknown receiver gets `OP_NICK_UNKNOWN`, a length that is not positive (as an `int`) gets `OP_FAIL`, and a length whose quotient by 1024, truncated, exceeds `MaxFileSize` gets `OP_MSG_TOOLONG`, each counting an error; a file name with no terminator in the request's buffer is undefined behaviour; any other file is counted not delivered, and then the server exits when the path cannot be opened for writing (`Chatty.Creatable`), and the file is stored otherwise |
| Chatty.SlashNameExits | chatty.c:655-672 | a file name ending with `/` leaves the directory itself as the path, and the server exits |
| Chatty.ReceiveFile | chatty.c:609-715 | the file part is read first: a part cut short is undefined behaviour; a part of length 0 gets the reply `postFile` gives it (`OP_NICK_UNKNOWN` or `OP_FAIL`, counting an error), and then freeing its unset buffer is undefined behaviour; any other part goes to `postFile` |
| Chatty.GetFile | chatty.c:541-596 | a file name with no terminator in the request's buffer is undefined behaviour; a non-empty readable file `DirName/<basename>` is sent with `OP_OK` and moves one count from files not delivered to delivered; an empty one makes `fread` fail and the server exit; a file that cannot be opened gets `OP_NO_SUCH_FILE` when access is denied and `OP_FAIL` otherwise, with no count changed |
| Chatty.Replay | chatty.c:933-957 | each history message is sent in list order (a stored copy shorter than its length is read past) and moves one count from not delivered to delivered, on the file counters for a file and the text counters otherwise |
| Chatty.SendHistory | chatty.c:920-957 | `OP_OK` carrying the history length as an 8-byte integer comes first, then every history message |
| Chatty.GetPrevMsgs | chatty.c:911-961 | the directory is unchanged; a registered sender gets its history as `SendHistory` says, and an unknown sender makes the C code dereference NULL |
| Chatty.HangUp | chatty.c:331-340 | at the end of the stream the connection is closed; the user bound to it, if any, goes offline and `nonline` goes down by one, and nothing else changes |
| Chatty.Disconnect | chatty.c:358-360 | `DISCONNECT` takes the user bound to the connection offline, changes no counter and sends nothing |
| Chatty.Dispatch | chatty.c:344-396 | each operation code goes to its handler; register and connect use the header's sender, unregister uses the data's receiver; an unknown code gets `OP_FAIL` from "server" and changes nothing |
| Chatty.ChooseRequest | chatty.c:325-403 | the request is read from the connection: at the end of the stream the server hangs up; otherwise the request is dispatched, and unless the handler made the server exit, the descriptor is written on the completion pipe after the handler's output |
| Chatty.EndOfStream | chatty.c:331-340 | at the end of the stream the only output is the close: the descriptor is not handed back to the listener, `nonline` drops exactly when a user was bound to it, and an exact online count stays exact |
| Chatty.ClosedConnection | chatty.c:329-340 | a connection that closes before a request arrives is hung up |
| Chatty.DoneFollows | chatty.c:398-401 | every request read in full whose handler does not exit ends with the descriptor written on the completion pipe, and it is written only there |
| Chatty.ExitEndsRequest | chatty.c:398-401 | when a handler makes the server exit, the exit is the whole output and the descriptor never reaches the completion pipe |
| Chatty.DispatchHandled | chatty.c:344-396 | no handler writes the completion, and a handler that exits outputs nothing else |
| Chatty.CutFilePartUndefined | chatty.c:609-612 | a `POSTFILE` request whose file part ends before its receiver field is undefined behaviour and changes nothing |
| Chatty.DisconnectKeepsStats | chatty.c:358-360 | a `DISCONNECT` request changes no counter and no registration, and outputs only the completion |
| Chatty.UnknownOpFails | chatty.c:386-395 | an operation code outside the protocol gets `OP_FAIL` from "server", followed by the completion, and changes nothing |
| Chatty.UsersCountedKept | chatty.c:325-403 | every request keeps `nusers` equal to the number of registered users |
| Chatty.OnlineCountedKept | chatty.c:325-403 | every request except unregister and disconnect keeps `nonline` equal to the number of online users, and so does the end of a stream |
| Chatty.QuietCounts | chatty.c:541-961 | texts, files, listings and history requests leave the registered users, the online users, `nusers` and `nonline` unchanged |
| Chatty.UnregisterOfflineDrifts | chatty.c:462-469 | unregistering an offline user decrements `nonline` anyway, so `nonline` drops one below the number of online users |
| Chatty.DisconnectDrifts | chatty.c:358-360 | `DISCONNECT` takes a user offline without decrementing `nonline`, so it ends one above the number of online users |
| Chatty.Admit | chatty.c:268-279 | the listener hands a request to the pool exactly when `nonline < MaxConnections` compared as `unsigned long`, which for values in range is the plain comparison; otherwise it replies `OP_FAIL` from "server" |
| Chatty.WrappedCounterRefuses | chatty.c:270 | once `nonline` has gone below 0 its `unsigned long` value is near 2^64, and every request is refused |
| Chatty.UnregisterLocksOut | chatty.c:462-469 | unregistering a user while nobody is online takes `nonline` to -1, after which the listener refuses every request on every connection |
| Chatty.AdmittedRegisterOverruns | chatty.c:268-279 | with `nonline` exact at `MaxConnections - 1`, registering a new nickname is admitted and its listing is undefined behaviour |
| Chatty.ListingDefined | chatty.c:883-909 | the as-written listing is sent whenever fewer users are online than `MaxConnections` and `nonline` is between 0 and `MaxConnections` |
| Chatty.FixedListingDefined | chatty.c:883-909 | the corrected listing is sent whenever no more users are online than `MaxConnections` and `nonline` is between 0 and `MaxConnections` |
| Chatty.RegisterListingFits | chatty.c:407-449 | registering below the limit with an exact `nonline`: the corrected listing is sent, and the as-written one is undefined only when the online users fill every field |
| Chatty.ConnectListingFits | chatty.c:496-539 | the same for connecting a user |
| Chatty.AdmittedListingFits | chatty.c:268-279 | while `nonline` is exact, an admitted register, connect or user-list request leaves a state whose corrected listing is sent; the as-written handler is undefined only when exactly `MaxConnections` users are online |

## Left out

- Sockets, `select`, the listener loop, the signal thread, `main`, statistics printing, and every lock. Each handler is one atomic step, and interleavings between workers are not modelled.
- `readn`/`writen` errors (utility.h:125-180) are not modelled. `readn` turns `ECONNRESET` into a result of 1, `writen` turns `EPIPE` into 0, and other errors give -1, which `SYSCALL` turns into an exit. In the model every send to a non-negative descriptor succeeds, and a read fails only when the stream runs out.
- Fields the C code never writes (a fresh local header, a fresh `malloc` buffer) are modelled as zeros (`Messages.BlankHeader`, `Messages.BlankData`, `Wire.ReadData`). `MAKE_VALGRIND_HAPPY` builds are not modelled, so `setHeader` and `setData` leave the bytes after the name as they were.
- The operation and reply codes of ops.h are not part of this model; distinct placeholder values stand for them, and the model only compares them for equality.
- Statistics counters are unbounded integers rather than `unsigned long`, so a decrement of 0 (as `Chatty.UnregisterOfflineDrifts` allows) gives -1 and not a wrap-around. The one place where the wrap-around shows, the listener's comparison, converts the counter modulo 2^64 (`Chatty.Admit`).
- History.Pop: the C `pop` never updates `tail`, so after a wrap-around, or when the queue empties, `tail` is left on a node that is not the list's last. The model's tail is always the last slot. The server never calls `pop`.
- Config.AtoiOfShow: `atoi` of a value outside the `int` range is undefined in C; the model gives the exact integer.
- Config.ParseConfiguration: every non-skipped line must contain `=` and no NUL byte. On a line without `=`, `strchr` returns NULL and the C loop dereferences it. Lines longer than 255 characters, which `fgets` splits, are not modelled either.
- Chatty.Ready: it requires `MaxConnections >= 0`; a negative setting would make `icl_hash_get_onlineusers` return NULL on every listing. It also requires `MaxHistMsgs`, as `unsigned int`, to be at least 1. With `MaxHistMsgs=0` the server registers, connects, lists and replays empty histories, but the first `push` dereferences the NULL head of an empty queue (queue.c:89-91); that configuration is not modelled.
- Chatty.ChooseRequest: it requires that `DirName` is set, and that every request read in full has a terminator in both name fields (`Chatty.Terminated`). Without these the C code passes NULL or an unterminated string to the string functions.
- Chatty.GetFile and Chatty.PostFile: the file system is the parameter `Files` (contents and the paths whose access is denied), and a stored file is the output `WriteFile`; files stored by earlier requests are not added to `Files`. A path can be opened for writing unless it is denied or its basename is empty, `.` or `..` (`Chatty.Creatable`). Other `fopen` failures, such as a missing `DirName` directory, and a failing `fwrite` (chatty.c:673-674), which also make the server exit, are not modelled. The 64-byte `MAX_FILE_PATH` buffer and its overflow are not modelled.
- Chatty.ReceiveFile: a file part cut short is undefined behaviour as a whole. When the stream ends inside the file's bytes, the C code has set the length and allocated the buffer, and goes on to store a buffer whose unread tail is indeterminate; the model does not follow that case.
- Memory management is not modelled, including `getFile` freeing `filename` when it points into the message buffer. The one exception is `postFile` freeing a `file.buf` that `readData` never set, for a file part of length 0, which `Chatty.ReceiveFile` treats as undefined behaviour.
- Chatty.SendHistory: the history is sent in list order from the head, as the C loop does; after a wrap-around that is not arrival order (`History.SlotOrderAfterWrap`).
- Chatty.OnlineCountedKept: `unregisterUser` and `DISCONNECT` do not keep `nonline` exact (`Chatty.UnregisterOfflineDrifts`, `Chatty.DisconnectDrifts`). A counter that drifts above the online users refuses connections early. One that drifts below 0 wraps around and refuses every request (`Chatty.UnregisterLocksOut`).
- ThreadPool: the thread handles, the mutex and the condition variable, and lock failures (`threadpool_lock_failure`, `threadpool_thread_failure`) are not modelled; `Destroy` stops after waking the workers.

## Findings

| source | as written | input that shows it | evidently intended | confidence | as-written member | corrected member |
|---|---|---|---|---|---|---|
| icl_hash.c:233-251 | the terminator after the listed names is stored at offset `n * 33` of a buffer of `size * 33` bytes, which is past its end when the `n` online users fill all `size` fields | `MaxConnections=1` and one user registering: `usrList` lists 1 name in a 1-field buffer and writes byte 33 of a 33-byte buffer | no terminator when the names fill the buffer (the fields are already zeroed by `calloc`) | not executed | Directory.GetOnlineUsers, Directory.ExactFitOverruns, Chatty.UsrList, Chatty.AdmittedRegisterOverruns | Directory.OnlineListing, Chatty.FixedUsrList, Chatty.AdmittedListingFits |
| utility.c:64-73 | the value scan stops only at a blank, so on a line without a trailing newline it runs through the line's terminator into the rest of `buf` | a file whose last line is `MaxConnections=5` with no newline, with no blank in the remaining bytes of `buf`: the scan reads and writes past the 256-byte buffer | the value ends at the end of the line | not executed | Config.BufferedValue, Config.UnterminatedLineOverruns | Config.ParseLine, Config.BufferedValueAgrees |

=== FILE: broadcast.dfy ===
/**
  The scan `postTextAll` makes over the user directory (chatty.c): every
  bucket from the first, every chain from its head, skipping the sender's
  entry. The entries it reaches are the recipients; the online ones among
  them are also sent the message.
 */
module Broadcast {
  import opened Wrappers
  import opened Messages
  import History
  import Directory

  type Name = Directory.Name
  type Entry = Directory.Entry

  /** The entries of chain `c` other than the sender's, from its head. */
  function ChainRecipients(c: seq<Entry>, sender: Name): seq<Entry> {
    if c == [] then []
    else (if c[0].key != sender then [c[0]] else []) + ChainRecipients(c[1..], sender)
  }

  /** `ChainRecipients` of buckets `0 .. n - 1`, in bucket order. */
  function Recipients(bs: seq<seq<Entry>>, n: nat, sender: Name): seq<Entry>
    requires n <= |bs|
  {
    if n == 0 then [] else Recipients(bs, n - 1, sender) + ChainRecipients(bs[n - 1], sender)
  }

  /** The online entries of `es`, in order. */
  function OnlineOnes(es: seq<Entry>): seq<Entry> {
    if es == [] then []
    else (if es[0].online then [es[0]] else []) + OnlineOnes(es[1..])
  }

  /** The nicknames of `es`, in order. */
  function KeysOf(es: seq<Entry>): (r: seq<Name>)
    ensures |r| == |es| && forall i :: 0 <= i < |es| ==> r[i] == es[i].key
  {
    seq(|es|, i requires 0 <= i < |es| => es[i].key)
  }

  // ---------------------------------------------------------------------------
  // who is reached

  lemma {:induction false} ChainRecipientsMembers(c: seq<Entry>, sender: Name, e: Entry)
    ensures e in ChainRecipients(c, sender) <==> e in c && e.key != sender
  {
    if c != [] {
      ChainRecipientsMembers(c[1..], sender, e);
      assert c == [c[0]] + c[1..];
    }
  }

  lemma {:induction false} RecipientsMembers(bs: seq<seq<Entry>>, n: nat, sender: Name, e: Entry)
    requires n <= |bs|
    ensures e in Recipients(bs, n, sender) <==>
              e.key != sender && exists i, j :: 0 <= i < n && 0 <= j < |bs[i]| && bs[i][j] == e
  {
    if n > 0 {
      RecipientsMembers(bs, n - 1, sender, e);
      ChainRecipientsMembers(bs[n - 1], sender, e);
      if e in bs[n - 1] {
        var j :| 0 <= j < |bs[n - 1]| && bs[n - 1][j] == e;
      }
      if exists i, j :: 0 <= i < n && 0 <= j < |bs[i]| && bs[i][j] == e {
        var i, j :| 0 <= i < n && 0 <= j < |bs[i]| && bs[i][j] == e;
        if i == n - 1 {
          assert e in bs[n - 1];
        }
      }
    }
  }

  lemma {:induction false} OnlineOnesMembers(es: seq<Entry>, e: Entry)
    ensures e in OnlineOnes(es) <==> e in es && e.online
  {
    if es != [] {
      OnlineOnesMembers(es[1..], e);
      assert es == [es[0]] + es[1..];
    }
  }

  // ---------------------------------------------------------------------------
  // nobody is reached twice

  /** No nickname occurs twice among `es`. */
  predicate KeysDistinct(es: seq<Entry>) {
    forall a, b :: 0 <= a < b < |es| ==> es[a].key != es[b].key
  }

  lemma KeysDistinctCons(e: Entry, s: seq<Entry>)
    requires KeysDistinct(s) && forall f :: f in s ==> f.key != e.key
    ensures KeysDistinct([e] + s)
  {
    var w := [e] + s;
    forall a, b | 0 <= a < b < |w| ensures w[a].key != w[b].key {
      assert w[b] == s[b - 1];
      if a > 0 {
        assert w[a] == s[a - 1];
      }
    }
  }

  lemma KeysDistinctAppend(s: seq<Entry>, u: seq<Entry>)
    requires KeysDistinct(s) && KeysDistinct(u)
    requires forall e, f :: e in s && f in u ==> e.key != f.key
    ensures KeysDistinct(s + u)
  {
    var w := s + u;
    forall a, b | 0 <= a < b < |w| ensures w[a].key != w[b].key {
      if b < |s| {
        assert w[a] == s[a] && w[b] == s[b];
      } else if a >= |s| {
        assert w[a] == u[a - |s|] && w[b] == u[b - |s|];
      } else {
        assert w[a] == s[a] && w[b] == u[b - |s|];
      }
    }
  }

  lemma {:induction false} ChainRecipientsDistinct(c: seq<Entry>, sender: Name)
    requires Directory.ChainUnique(c)
    ensures KeysDistinct(ChainRecipients(c, sender))
  {
    if c != [] {
      assert Directory.ChainUnique(c[1..]);
      ChainRecipientsDistinct(c[1..], sender);
      var rest := ChainRecipients(c[1..], sender);
      if c[0].key != sender {
        forall f | f in rest ensures f.key != c[0].key {
          ChainRecipientsMembers(c[1..], sender, f);
          var j :| 0 <= j < |c[1..]| && c[1..][j] == f;
          assert c[j + 1] == f;
        }
        KeysDistinctCons(c[0], rest);
      } else {
        assert ChainRecipients(c, sender) == rest;
      }
    }
  }

  /** Entries of different buckets have different nicknames. */
  predicate BucketsApart(bs: seq<seq<Entry>>) {
    forall i, j, i2, j2 :: 0 <= i < |bs| && 0 <= j < |bs[i]| && 0 <= i2 < |bs| && 0 <= j2 < |bs[i2]| && i != i2 ==>
      bs[i][j].key != bs[i2][j2].key
  }

  lemma ValidApart(t: Directory.Table)
    requires Directory.Valid(t)
    ensures BucketsApart(t.buckets)
  {
    var bs: seq<seq<Entry>> := t.buckets;
    forall i: int, j: int, i2: int, j2: int | 0 <= i < |bs| && 0 <= j < |bs[i]| && 0 <= i2 < |bs| && 0 <= j2 < |bs[i2]| && i != i2
      ensures bs[i][j].key != bs[i2][j2].key
    {
      if bs[i][j].key == bs[i2][j2].key {
        Directory.KeyAtOnePosition(t, i, j, i2, j2);
      }
    }
  }

  /** Recipients from earlier buckets have nicknames that hash elsewhere. */
  lemma EarlierBuckets(bs: seq<seq<Entry>>, n: nat, sender: Name, e: Entry, f: Entry)
    requires 0 < n <= |bs| && BucketsApart(bs)
    requires e in Recipients(bs, n - 1, sender) && f in bs[n - 1]
    ensures e.key != f.key
  {
    RecipientsMembers(bs, n - 1, sender, e);
    var i, j :| 0 <= i < n - 1 && 0 <= j < |bs[i]| && bs[i][j] == e;
    var j' :| 0 <= j' < |bs[n - 1]| && bs[n - 1][j'] == f;
  }

  lemma {:induction false} RecipientsDistinct(bs: seq<seq<Entry>>, n: nat, sender: Name)
    requires n <= |bs| && BucketsApart(bs) && Directory.ChainsUnique(bs)
    ensures KeysDistinct(Recipients(bs, n, sender))
  {
    if n > 0 {
      RecipientsDistinct(bs, n - 1, sender);
      ChainRecipientsDistinct(bs[n - 1], sender);
      var s := Recipients(bs, n - 1, sender);
      var u := ChainRecipients(bs[n - 1], sender);
      forall e, f | e in s && f in u ensures e.key != f.key {
        ChainRecipientsMembers(bs[n - 1], sender, f);
        EarlierBuckets(bs, n, sender, e, f);
      }
      KeysDistinctAppend(s, u);
    }
  }

  lemma {:induction false} OnlineOnesDistinct(es: seq<Entry>)
    requires KeysDistinct(es)
    ensures KeysDistinct(OnlineOnes(es))
  {
    if es != [] {
      assert KeysDistinct(es[1..]);
      OnlineOnesDistinct(es[1..]);
      var rest := OnlineOnes(es[1..]);
      if es[0].online {
        forall f | f in rest ensures f.key != es[0].key {
          OnlineOnesMembers(es[1..], f);
          var j :| 0 <= j < |es[1..]| && es[1..][j] == f;
          assert es[j + 1] == f;
        }
        KeysDistinctCons(es[0], rest);
      } else {
        assert OnlineOnes(es) == rest;
      }
    }
  }

  // ---------------------------------------------------------------------------
  // counting

  lemma {:induction false} DistinctFewer<X>(s: seq<X>, a: set<X>)
    requires Directory.Distinct(s) && forall k :: 0 <= k < |s| ==> s[k] in a
    ensures |s| <= |a|
  {
    if s != [] {
      assert Directory.Distinct(s[1..]) by {
        assert forall k :: 0 <= k < |s| - 1 ==> s[1..][k] == s[k + 1];
      }
      assert forall k :: 0 <= k < |s| - 1 ==> s[1..][k] == s[k + 1] && s[k + 1] != s[0];
      DistinctFewer(s[1..], a - {s[0]});
    }
  }

  lemma {:induction false} MembersCover<X>(s: seq<X>, a: set<X>)
    requires Directory.Distinct(s) && forall x :: x in a ==> x in s
    ensures |a| <= |s|
  {
    if s != [] {
      assert forall x :: x in a - {s[0]} ==> x in s[1..] by {
        forall x | x in a - {s[0]} ensures x in s[1..] {
          var k :| 0 <= k < |s| && s[k] == x;
          assert s[1..][k - 1] == x;
        }
      }
      assert Directory.Distinct(s[1..]) by {
        assert forall k :: 0 <= k < |s| - 1 ==> s[1..][k] == s[k + 1];
      }
      MembersCover(s[1..], a - {s[0]});
    } else {
      assert forall x :: x !in a;
      assert a == {};
    }
  }

  /** A sequence without repetitions that holds exactly the elements of a set
      is as long as the set. */
  lemma CountOfDistinct<X>(s: seq<X>, a: set<X>)
    requires Directory.Distinct(s) && forall x :: x in s <==> x in a
    ensures |s| == |a|
  {
    DistinctFewer(s, a);
    MembersCover(s, a);
  }

  lemma KeysOfMembers(es: seq<Entry>, x: Name)
    ensures x in KeysOf(es) <==> exists e :: e in es && e.key == x
  {
    if exists e :: e in es && e.key == x {
      var e :| e in es && e.key == x;
      var i :| 0 <= i < |es| && es[i] == e;
      assert KeysOf(es)[i] == x;
    }
  }

  /** Every recipient is the entry a search for its nickname finds. */
  lemma RecipientsFound(t: Directory.Table, sender: Name, e: Entry)
    requires Directory.Valid(t) && e in Recipients(t.buckets, |t.buckets|, sender)
    ensures e.key != sender && Directory.Find(t, e.key) == Some(e)
  {
    RecipientsMembers(t.buckets, |t.buckets|, sender, e);
    var i, j :| 0 <= i < |t.buckets| && 0 <= j < |t.buckets[i]| && t.buckets[i][j] == e;
    Directory.LookupAt(t.buckets[i], j);
  }

  /** The scan reaches each registered user other than the sender exactly once:
      the recipients are as many as those users, each one is the entry a search
      finds, and the online ones are as many as the online users other than
      the sender. */
  lemma RecipientsAreTheOthers(t: Directory.Table, sender: Name)
    requires Directory.Valid(t)
    ensures var rs := Recipients(t.buckets, |t.buckets|, sender);
            && |rs| == |Directory.Keys(t) - {sender}|
            && |OnlineOnes(rs)| == |Directory.OnlineKeys(t) - {sender}|
            && (forall e :: e in rs ==> e.key != sender && Directory.Find(t, e.key) == Some(e))
            && (forall k :: k != sender && Directory.Find(t, k).Some? ==> Directory.Find(t, k).value in rs)
  {
    var bs := t.buckets;
    var rs := Recipients(bs, |bs|, sender);
    var os := OnlineOnes(rs);
    ValidApart(t);
    RecipientsDistinct(bs, |bs|, sender);
    OnlineOnesDistinct(rs);
    forall e | e in rs ensures e.key != sender && Directory.Find(t, e.key) == Some(e) {
      RecipientsFound(t, sender, e);
    }
    forall k | k != sender && Directory.Find(t, k).Some? ensures Directory.Find(t, k).value in rs {
      Directory.FindPosition(t, k);
      var i := Directory.Bucket(k, |bs|);
      var j := Directory.IndexIn(bs[i], k);
      RecipientsMembers(bs, |bs|, sender, bs[i][j]);
    }
    forall x ensures x in KeysOf(rs) <==> x in Directory.Keys(t) - {sender} {
      KeysOfMembers(rs, x);
      Directory.FindMatchesView(t, x);
    }
    forall x ensures x in KeysOf(os) <==> x in Directory.OnlineKeys(t) - {sender} {
      KeysOfMembers(os, x);
      Directory.FindMatchesView(t, x);
      if x in Directory.OnlineKeys(t) - {sender} {
        OnlineOnesMembers(rs, Directory.Find(t, x).value);
      }
      if x in KeysOf(os) {
        var e :| e in os && e.key == x;
        OnlineOnesMembers(rs, e);
      }
    }
    assert Directory.Distinct(KeysOf(rs));
    assert Directory.Distinct(KeysOf(os));
    CountOfDistinct(KeysOf(rs), Directory.Keys(t) - {sender});
    CountOfDistinct(KeysOf(os), Directory.OnlineKeys(t) - {sender});
  }

  // ---------------------------------------------------------------------------
  // what the scan does to the table

  /** What the scan does to one entry: one push, unless it is the sender's. */
  function Touch(e: Entry, sender: Name, m: Message): Entry
    requires History.Valid(e.queue) && e.queue.qmax >= 1
  {
    if e.key == sender then e else e.(queue := History.Push(e.queue, m))
  }

  /** Every entry's history is valid and can take a push. */
  predicate Usable(bs: seq<seq<Entry>>) {
    forall i, j :: 0 <= i < |bs| && 0 <= j < |bs[i]| ==> History.Valid(bs[i][j].queue) && bs[i][j].queue.qmax >= 1
  }

  function TouchChain(c: seq<Entry>, sender: Name, m: Message): (r: seq<Entry>)
    requires forall j :: 0 <= j < |c| ==> History.Valid(c[j].queue) && c[j].queue.qmax >= 1
    ensures |r| == |c| && forall j :: 0 <= j < |c| ==> r[j] == Touch(c[j], sender, m)
  {
    seq(|c|, j requires 0 <= j < |c| => Touch(c[j], sender, m))
  }

  /** The table after the scan has pushed `m` onto every other user's history. */
  function TouchAll(t: Directory.Table, sender: Name, m: Message): (r: Directory.Table)
    requires Usable(t.buckets)
    ensures |r.buckets| == |t.buckets| && r.npartitions == t.npartitions && r.nentries == t.nentries
    ensures forall i :: 0 <= i < |t.buckets| ==> r.buckets[i] == TouchChain(t.buckets[i], sender, m)
  {
    t.(buckets := seq(|t.buckets|, i requires 0 <= i < |t.buckets| => TouchChain(t.buckets[i], sender, m)))
  }

  lemma {:induction false} SizeSameShape(bs: seq<seq<Entry>>, bs': seq<seq<Entry>>)
    requires |bs'| == |bs| && forall i :: 0 <= i < |bs| ==> |bs'[i]| == |bs[i]|
    ensures Directory.Size(bs') == Directory.Size(bs)
  {
    if bs != [] {
      SizeSameShape(bs[..|bs| - 1], bs'[..|bs| - 1]);
    }
  }

  lemma {:induction false} IndexInSameKeys(c: seq<Entry>, c': seq<Entry>, k: Name)
    requires |c'| == |c| && forall j :: 0 <= j < |c| ==> c'[j].key == c[j].key
    ensures Directory.IndexIn(c', k) == Directory.IndexIn(c, k)
  {
    if c != [] {
      IndexInSameKeys(c[1..], c'[1..], k);
    }
  }

  lemma TouchAllValid(t: Directory.Table, sender: Name, m: Message)
    requires Directory.Valid(t) && Usable(t.buckets)
    ensures Directory.Valid(TouchAll(t, sender, m))
  {
    var r := TouchAll(t, sender, m);
    SizeSameShape(t.buckets, r.buckets);
    assert Directory.ChainsUnique(r.buckets) by {
      forall i | 0 <= i < |r.buckets| ensures Directory.ChainUnique(r.buckets[i]) {
        assert Directory.ChainUnique(t.buckets[i]);
      }
    }
  }

  lemma TouchAllKeys(t: Directory.Table, sender: Name, m: Message)
    requires Usable(t.buckets)
    ensures Directory.Keys(TouchAll(t, sender, m)) == Directory.Keys(t)
  {
    var r := TouchAll(t, sender, m);
    forall x | x in Directory.Keys(t) ensures x in Directory.Keys(r) {
      var i, j :| 0 <= i < |t.buckets| && 0 <= j < |t.buckets[i]| && t.buckets[i][j].key == x;
      assert r.buckets[i][j].key == x;
    }
  }

  lemma TouchAllOnline(t: Directory.Table, sender: Name, m: Message)
    requires Usable(t.buckets)
    ensures Directory.OnlineKeys(TouchAll(t, sender, m)) == Directory.OnlineKeys(t)
  {
    var r := TouchAll(t, sender, m);
    forall x | x in Directory.OnlineKeys(t) ensures x in Directory.OnlineKeys(r) {
      var i, j :| 0 <= i < |t.buckets| && 0 <= j < |t.buckets[i]| && t.buckets[i][j].online && t.buckets[i][j].key == x;
      assert r.buckets[i][j].key == x && r.buckets[i][j].online;
    }
  }

  lemma TouchAllFind(t: Directory.Table, sender: Name, m: Message, k: Name)
    requires Directory.Valid(t) && Usable(t.buckets)
    ensures Directory.Find(TouchAll(t, sender, m), k) ==
              if Directory.Find(t, k).Some? then Some(Touch(Directory.Find(t, k).value, sender, m)) else None
  {
    var r := TouchAll(t, sender, m);
    var b := Directory.Bucket(k, |t.buckets|);
    IndexInSameKeys(t.buckets[b], r.buckets[b], k);
  }

  /** The scan keeps the table valid, its nicknames and online flags, and a
      search finds every entry touched. */
  lemma TouchAllSpec(t: Directory.Table, sender: Name, m: Message)
    requires Directory.Valid(t) && Usable(t.buckets)
    ensures var r := TouchAll(t, sender, m);
            && Directory.Valid(r)
            && Directory.Keys(r) == Directory.Keys(t)
            && Directory.OnlineKeys(r) == Directory.OnlineKeys(t)
            && forall k :: Directory.Find(r, k) == if Directory.Find(t, k).Some? then Some(Touch(Directory.Find(t, k).value, sender, m)) else None
  {
    TouchAllValid(t, sender, m);
    TouchAllKeys(t, sender, m);
    TouchAllOnline(t, sender, m);
    forall k ensures Directory.Find(TouchAll(t, sender, m), k) ==
                       if Directory.Find(t, k).Some? then Some(Touch(Directory.Find(t, k).value, sender, m)) else None {
      TouchAllFind(t, sender, m, k);
    }
  }

  /** The scan leaves the sender's entry alone and pushes `m` onto every other history. */
  lemma TouchAllFrames(t: Directory.Table, sender: Name, m: Message)
    requires Directory.Valid(t) && Usable(t.buckets)
    ensures var r := TouchAll(t, sender, m);
            && (forall k :: k == sender || Directory.Find(t, k).None? ==> Directory.Find(r, k) == Directory.Find(t, k))
            && (forall k :: k != sender && Directory.Find(t, k).Some? ==>
                  var e := Directory.Find(t, k).value;
                  History.Valid(e.queue) && e.queue.qmax >= 1 && Directory.Find(r, k) == Some(e.(queue := History.Push(e.queue, m))))
  {
    TouchAllSpec(t, sender, m);
  }
}

=== FILE: bytes.dfy ===
/**
  Byte-level vocabulary shared by the model: bytes, the 32-bit unsigned
  integers of the wire format, little-endian packing of integers, and C
  strings kept in fixed-size, NUL-terminated character fields.
 */
module Bytes {

  type byte = x: int | 0 <= x < 256

  const U32_LIMIT: int := 0x1_0000_0000

  /** A C `unsigned int`, assumed to be 32 bits wide. */
  type u32 = x: int | 0 <= x < 0x1_0000_0000

  /** Conversion of a C `int` (or of a wider unsigned value) to `unsigned int`:
      the value modulo 2^32, which is the two's-complement reinterpretation. */
  function ToU32(x: int): (r: u32)
    ensures 0 <= x < U32_LIMIT ==> r == x
    ensures (x - r) % U32_LIMIT == 0
  {
    x % U32_LIMIT
  }

  const U64_LIMIT: int := 0x1_0000_0000_0000_0000

  /** Conversion to `unsigned long` (64 bits): the value modulo 2^64, as C
      converts an `int` or a counter that went below 0. */
  function ToU64(x: int): (r: int)
    ensures 0 <= r < U64_LIMIT
    ensures 0 <= x < U64_LIMIT ==> r == x
    ensures -U64_LIMIT <= x < 0 ==> r == x + U64_LIMIT
  {
    x % U64_LIMIT
  }

  function Pow256(n: nat): (r: nat)
    ensures r >= 1
  {
    if n == 0 then 1 else 256 * Pow256(n - 1)
  }

  /** The `n` low-order bytes of `x`, least significant first. */
  function LE(x: nat, n: nat): (r: seq<byte>)
    ensures |r| == n
  {
    if n == 0 then [] else [x % 256] + LE(x / 256, n - 1)
  }

  /** The number whose little-endian representation is `s`. */
  function FromLE(s: seq<byte>): (r: nat)
    ensures r < Pow256(|s|)
  {
    if s == [] then 0 else s[0] + 256 * FromLE(s[1..])
  }

  /** Packing a number that fits in `n` bytes and reading it back is the identity. */
  lemma {:induction false} FromLEOfLE(x: nat, n: nat)
    requires x < Pow256(n)
    ensures FromLE(LE(x, n)) == x
  {
    if n > 0 {
      FromLEOfLE(x / 256, n - 1);
      assert LE(x, n)[1..] == LE(x / 256, n - 1);
    }
  }

  /** Reading `n` bytes as a number and packing it back gives the same bytes. */
  lemma {:induction false} LEOfFromLE(s: seq<byte>)
    ensures LE(FromLE(s), |s|) == s
  {
    if s != [] {
      LEOfFromLE(s[1..]);
      assert (s[0] + 256 * FromLE(s[1..])) / 256 == FromLE(s[1..]);
    }
  }

  /** A C string's characters: no NUL byte inside. */
  predicate NoNul(s: seq<byte>) {
    forall i :: 0 <= i < |s| ==> s[i] != 0
  }

  /** The C string held in a character field: the bytes before the first NUL,
      or the whole field when it holds no NUL. */
  function CStr(f: seq<byte>): (r: seq<byte>)
    ensures NoNul(r) && r <= f
    ensures |r| < |f| ==> f[|r|] == 0
  {
    if f == [] || f[0] == 0 then [] else [f[0]] + CStr(f[1..])
  }

  /** A string followed by its terminator reads back as that string, whatever follows. */
  lemma {:induction false} CStrOfTerminated(s: seq<byte>, rest: seq<byte>)
    requires NoNul(s)
    ensures CStr(s + [0] + rest) == s
  {
    if s != [] {
      CStrOfTerminated(s[1..], rest);
      assert (s + [0] + rest)[1..] == s[1..] + [0] + rest;
    }
  }

  function Zeros(n: nat): (r: seq<byte>)
    ensures |r| == n && forall i :: 0 <= i < n ==> r[i] == 0
  {
    seq(n, _ => 0)
  }

  /** `strndup(s, n)`: at most `n` characters of the C string `s`, then a terminator. */
  function StrNDup(s: seq<byte>, n: nat): (r: seq<byte>)
    ensures |r| >= 1 && r[|r| - 1] == 0 && NoNul(r[..|r| - 1])
    ensures |r| - 1 <= n && r[..|r| - 1] <= s
  {
    CStr(s[..if n <= |s| then n else |s|]) + [0]
  }

  /** The `strndup` copy is shorter than `n` exactly when the string has a
      NUL before its `n`-th byte's position, so a reader of `n` bytes runs
      past the copy. */
  lemma StrNDupShort(s: seq<byte>, n: nat)
    requires n <= |s|
    ensures |StrNDup(s, n)| < n <==> exists i :: 0 <= i < n - 1 && s[i] == 0
  {
    var c := CStr(s[..n]);
    if exists i :: 0 <= i < n - 1 && s[i] == 0 {
      var i :| 0 <= i < n - 1 && s[i] == 0;
      assert s[..n][i] == 0;
    }
    if |c| < n - 1 {
      assert s[|c|] == s[..n][|c|] == 0;
    }
  }
}

=== FILE: chatty.dfy ===
/**
  The request handlers of the server (chatty.c). Each handler runs as one
  atomic step over the user directory and the statistics counters and
  produces the replies it sends, in order. The configuration is read-only.

  The request itself comes from `readMsg` (module Wire): `chooseRequest` gets
  its result and the message it filled in. A file posted with `postFile`
  travels as a second data part; the handler is given what `readData` left in
  its buffer. Opening and writing files is not modelled: the files the server
  can read are a parameter, and a written file is an output.
 */
module Chatty {
  import opened Wrappers
  import opened Bytes
  import opened Messages
  import History
  import Directory
  import Config
  import Broadcast
  import Wire

  type Name = Directory.Name

  /** `struct statistics`. The C counters are `unsigned long`; here they are
      integers, which the handlers only ever move by one. */
  datatype Stats = Stats(
    nusers: int,
    nonline: int,
    ndelivered: int,
    nnotdelivered: int,
    nfiledelivered: int,
    nfilenotdelivered: int,
    nerrors: int)

  const InitialStats: Stats := Stats(0, 0, 0, 0, 0, 0, 0)

  datatype State = State(users: Directory.Table, stats: Stats)

  /** What a handler does to the outside world. */
  datatype Out =
    | Reply(fd: int, hdr: Header)                  // `sendHeader`
    | Deliver(fd: int, msg: Message)               // `sendRequest`
    | WriteFile(path: string, contents: seq<byte>) // the file `postFile` stores
    | Close(fd: int)                               // the connection is closed
    | Done(fd: int)                                // `fd` written on the completion pipe
    | Undefined(fd: int)                           // undefined behaviour in the C code; what follows it is not modelled
    | Exit                                         // `ERRORE`: the server prints the error and exits

  datatype Outcome = Outcome(st: State, out: seq<Out>)

  /** `sendRequest(fd, &m)`: the header, then `len` bytes from the buffer, so
      a buffer shorter than `len` is read past its end. */
  function Send(fd: int, m: Message): (o: Out)
    ensures o.Deliver? || o.Undefined?
    ensures o.fd == fd
    ensures o.Deliver? <==> m.data.hdr.len <= |m.data.buf|
    ensures o.Deliver? ==> o.msg == m
  {
    if m.data.hdr.len <= |m.data.buf| then Deliver(fd, m) else Undefined(fd)
  }

  /** The files the server can open for reading, and the paths it may not
      open at all, whether for reading or for writing. */
  datatype Files = Files(contents: map<string, seq<byte>>, denied: set<string>)

  // ---------------------------------------------------------------------------
  // the state every handler expects

  /** What every entry of the directory satisfies: its nickname fits a name
      field, its history is well formed and can take a push (`push` on a capacity of 0
      dereferences a NULL head) and, when it is bound to a connection, it is online. */
  predicate EntryOk(e: Directory.Entry) {
    IsName(e.key) && History.Valid(e.queue) && e.queue.qmax >= 1 && (e.fd >= 0 ==> e.online)
  }

  ghost predicate EntriesOk(t: Directory.Table)
    requires |t.buckets| >= 1
  {
    forall k :: Directory.Find(t, k).Some? ==> EntryOk(Directory.Find(t, k).value)
  }

  /** The invariant of the server state: a valid directory whose entries are
      all `EntryOk`, a configured history capacity of at least 1 and a
      connection limit that is not negative. */
  ghost predicate Ready(st: State, conf: Config.Config) {
    && Directory.Valid(st.users)
    && EntriesOk(st.users)
    && ToU32(conf.maxHistMsgs) >= 1
    && conf.maxConnections >= 0
  }

  /** A change confined to one nickname keeps every entry `EntryOk` when the
      entry left for that nickname is. */
  lemma EntriesKept(t: Directory.Table, t': Directory.Table, key: Name)
    requires |t.buckets| >= 1 && |t'.buckets| >= 1 && EntriesOk(t)
    requires forall k :: k != key ==> Directory.Find(t', k) == Directory.Find(t, k)
    requires Directory.Find(t', key).Some? ==> EntryOk(Directory.Find(t', key).value)
    ensures EntriesOk(t')
  {
    forall k | Directory.Find(t', k).Some? ensures EntryOk(Directory.Find(t', k).value) {
      if k != key {
        assert Directory.Find(t, k).Some?;
      }
    }
  }

  /** `nusers` counts the registered users. */
  predicate UsersCounted(st: State) {
    st.stats.nusers == |Directory.Keys(st.users)|
  }

  /** `nonline` counts the online users. */
  predicate OnlineCounted(st: State) {
    st.stats.nonline == |Directory.OnlineKeys(st.users)|
  }

  lemma NamedFits(t: Directory.Table)
    requires Directory.Valid(t) && EntriesOk(t)
    ensures Directory.NamesFit(t)
  {
    forall i, j | 0 <= i < |t.buckets| && 0 <= j < |t.buckets[i]|
      ensures IsName(t.buckets[i][j].key)
    {
      FoundAt(t, i, j);
    }
  }

  /** A registered entry is what the search for its key returns. */
  lemma FoundAt(t: Directory.Table, i: int, j: int)
    requires Directory.Valid(t) && 0 <= i < |t.buckets| && 0 <= j < |t.buckets[i]|
    ensures Directory.Find(t, t.buckets[i][j].key) == Some(t.buckets[i][j])
  {
    Directory.LookupAt(t.buckets[i], j);
  }

  /** The listing never holds more names than there are online users. */
  lemma OnlineUsersBound(t: Directory.Table)
    requires Directory.KeysPlaced(t)
    ensures |Directory.OnlineUsers(t)| <= |Directory.OnlineKeys(t)|
  {
    Directory.OnlineUsersMatchView(t);
    Broadcast.DistinctFewer(Directory.OnlineUsers(t), Directory.OnlineKeys(t));
  }

  // ---------------------------------------------------------------------------
  // replies

  /** A reply header from "server", built in a fresh header. */
  function ServerHeader(op: u32): (h: Header)
    ensures h.op == op && FieldOk(h.sender) && NameOf(h.sender) == SERVER
  {
    SetHeader(BlankHeader, op, SERVER)
  }

  lemma FieldsFit(a: int, b: int)
    requires 0 <= a <= b
    ensures a * NAME_FIELD <= b * NAME_FIELD
  {
  }

  lemma FieldsBelow(a: int, b: int)
    requires 0 <= a < b
    ensures a * NAME_FIELD < b * NAME_FIELD
  {
  }

  /** A message from "server" to nobody with `OP_OK`, built in fresh parts. */
  function ServerReply(buf: seq<byte>, len: u32): (m: Message)
    ensures WellFormed(m) && m.hdr.op == OP_OK && NameOf(m.hdr.sender) == SERVER
    ensures NameOf(m.data.hdr.receiver) == [] && m.data.hdr.len == len && m.data.buf == buf
  {
    Build(OP_OK, SERVER, [], buf, len)
  }

  /** The length `usrList` announces: `nonline` name fields, computed in
      `unsigned int` from the counter. */
  function ListLength(nonline: int): u32 {
    ToU32(ToU32(nonline) * NAME_FIELD)
  }

  /** The reply `usrList` makes of a listing: `OP_OK` from "server" carrying
      the listing with length `len`, or undefined behaviour when the listing
      was not produced. */
  function ListingReply(len: u32, fd: int, l: Directory.Listing): (r: Out)
    ensures r.Deliver? || r.Undefined?
    ensures r.fd == fd
    ensures r.Deliver? <==> l.Listing? && len <= |l.buf|
    ensures r.Deliver? ==> r.msg == ServerReply(l.buf, len)
  {
    match l
    case Listing(buf) => Send(fd, ServerReply(buf, len))
    case _ => Undefined(fd)
  }

  /** `usrList`: `OP_OK` with the buffer `icl_hash_get_onlineusers` returns
      for `MaxConnections` name fields, which lists the online users, and a
      length of `nonline` name fields. The C code is undefined when the
      listing writes past its buffer, which it does from `MaxConnections`
      online users on (see `Directory.GetOnlineUsers`), and when the length
      exceeds the buffer. */
  function UsrList(st: State, conf: Config.Config, fd: int): (r: Out)
    requires Directory.Valid(st.users) && EntriesOk(st.users) && conf.maxConnections >= 0
    ensures r.Deliver? || r.Undefined?
    ensures r.fd == fd
    ensures r.Undefined? <==> || |Directory.OnlineUsers(st.users)| >= conf.maxConnections
                              || ListLength(st.stats.nonline) > conf.maxConnections * NAME_FIELD
    ensures r.Deliver? ==>
              && WellFormed(r.msg)
              && r.msg.hdr.op == OP_OK && NameOf(r.msg.hdr.sender) == SERVER
              && r.msg.data.hdr.len == ListLength(st.stats.nonline)
              && |r.msg.data.buf| == conf.maxConnections * NAME_FIELD
              && |Directory.OnlineUsers(st.users)| * NAME_FIELD < |r.msg.data.buf|
              && Directory.Unpack(r.msg.data.buf, |Directory.OnlineUsers(st.users)|) == Directory.OnlineUsers(st.users)
  {
    NamedFits(st.users);
    var l := Directory.GetOnlineUsers(st.users, conf.maxConnections);
    if l.Listing? then
      assert l == Directory.OnlineListing(st.users, conf.maxConnections);
      FieldsBelow(|Directory.OnlineUsers(st.users)|, conf.maxConnections);
      ListingReply(ListLength(st.stats.nonline), fd, l)
    else
      ListingReply(ListLength(st.stats.nonline), fd, l)
  }

  /** `usrList` over the corrected listing (`Directory.OnlineListing`), which
      leaves out the stray terminator: it is undefined only when more users
      are online than there are fields, or when the length exceeds the buffer. */
  function FixedUsrList(st: State, conf: Config.Config, fd: int): (r: Out)
    requires Directory.Valid(st.users) && EntriesOk(st.users) && conf.maxConnections >= 0
    ensures r.Deliver? || r.Undefined?
    ensures r.fd == fd
    ensures r.Undefined? <==> || |Directory.OnlineUsers(st.users)| > conf.maxConnections
                              || ListLength(st.stats.nonline) > conf.maxConnections * NAME_FIELD
    ensures r.Deliver? ==>
              && WellFormed(r.msg)
              && r.msg.hdr.op == OP_OK && NameOf(r.msg.hdr.sender) == SERVER
              && r.msg.data.hdr.len == ListLength(st.stats.nonline)
              && |r.msg.data.buf| == conf.maxConnections * NAME_FIELD
              && |Directory.OnlineUsers(st.users)| * NAME_FIELD <= |r.msg.data.buf|
              && Directory.Unpack(r.msg.data.buf, |Directory.OnlineUsers(st.users)|) == Directory.OnlineUsers(st.users)
  {
    NamedFits(st.users);
    var l := Directory.OnlineListing(st.users, conf.maxConnections);
    if l.Listing? then
      FieldsFit(|Directory.OnlineUsers(st.users)|, conf.maxConnections);
      ListingReply(ListLength(st.stats.nonline), fd, l)
    else
      ListingReply(ListLength(st.stats.nonline), fd, l)
  }

  /** The two listings differ only when exactly `MaxConnections` users are
      online: the as-written one is then undefined while the corrected one
      is sent. */
  lemma UsrListAgrees(st: State, conf: Config.Config, fd: int)
    requires Directory.Valid(st.users) && EntriesOk(st.users) && conf.maxConnections >= 0
    ensures |Directory.OnlineUsers(st.users)| != conf.maxConnections ==> UsrList(st, conf, fd) == FixedUsrList(st, conf, fd)
    ensures |Directory.OnlineUsers(st.users)| == conf.maxConnections ==>
              && UsrList(st, conf, fd).Undefined?
              && (FixedUsrList(st, conf, fd).Deliver? <==> ListLength(st.stats.nonline) <= conf.maxConnections * NAME_FIELD)
  {
    NamedFits(st.users);
  }

  /** Without an empty nickname, the listing holds each online user exactly once. */
  lemma OnlineUsersAreOnlineKeys(t: Directory.Table)
    requires Directory.Valid(t) && [] !in Directory.Keys(t)
    ensures |Directory.OnlineUsers(t)| == |Directory.OnlineKeys(t)|
    ensures forall x :: x in Directory.OnlineUsers(t) <==> x in Directory.OnlineKeys(t)
    ensures Directory.Distinct(Directory.OnlineUsers(t))
  {
    Directory.OnlineUsersMatchView(t);
    OnlineUsersBound(t);
    forall x | x in Directory.OnlineKeys(t) ensures x in Directory.Keys(t) {
      var i, j :| 0 <= i < |t.buckets| && 0 <= j < |t.buckets[i]| && t.buckets[i][j].online
                  && t.buckets[i][j].key == x;
    }
    Broadcast.MembersCover(Directory.OnlineUsers(t), Directory.OnlineKeys(t));
  }

  /** When fewer users are online than `MaxConnections`, `nonline` counts
      them, their fields fit 32 bits and no nickname is empty, the reply's
      length covers exactly the listed names, and reading that many names
      back gives the online users, each once. */
  lemma UsrListReadsBack(st: State, conf: Config.Config, fd: int)
    requires Directory.Valid(st.users) && EntriesOk(st.users)
    requires |Directory.OnlineKeys(st.users)| < conf.maxConnections
    requires OnlineCounted(st) && |Directory.OnlineKeys(st.users)| * NAME_FIELD < U32_LIMIT
    requires [] !in Directory.Keys(st.users)
    ensures UsrList(st, conf, fd).Deliver?
    ensures var m := UsrList(st, conf, fd).msg;
            var n := |Directory.OnlineUsers(st.users)|;
            && n == |Directory.OnlineKeys(st.users)|
            && m.data.hdr.len == n * NAME_FIELD
            && (forall x :: x in Directory.Unpack(m.data.buf, n) <==> x in Directory.OnlineKeys(st.users))
            && Directory.Distinct(Directory.Unpack(m.data.buf, n))
  {
    OnlineUsersAreOnlineKeys(st.users);
    LengthFits(st.stats.nonline);
    ListingDefined(st, conf, fd);
  }

  /** A count whose name fields fit 32 bits goes through both conversions unchanged. */
  lemma LengthFits(n: int)
    requires 0 <= n && n * NAME_FIELD < U32_LIMIT
    ensures ToU32(ToU32(n) * NAME_FIELD) == n * NAME_FIELD
  {
  }

  // ---------------------------------------------------------------------------
  // registerUser, unregisterUser, connectUser

  /** `registerUser`: a new nickname is added online with an empty history of
      `MaxHistMsgs` messages, both user counters go up and the user is sent the
      listing; a known nickname counts an error and gets `OP_NICK_ALREADY`. */
  function RegisterUser(st: State, conf: Config.Config, fd: int, nick: Name): (r: Outcome)
    requires Ready(st, conf) && IsName(nick)
    ensures Ready(r.st, conf)
    ensures nick in Directory.Keys(st.users) ==>
              && r.st == st.(stats := st.stats.(nerrors := st.stats.nerrors + 1))
              && r.out == [Reply(fd, ServerHeader(OP_NICK_ALREADY))]
    ensures nick !in Directory.Keys(st.users) ==>
              var t := r.st.users;
              && Directory.Keys(t) == Directory.Keys(st.users) + {nick}
              && Directory.OnlineKeys(t) == Directory.OnlineKeys(st.users) + {nick}
              && Directory.Find(t, nick) == Some(Directory.Entry(nick, fd, true, History.InitQueue(ToU32(conf.maxHistMsgs))))
              && (forall k :: k != nick ==> Directory.Find(t, k) == Directory.Find(st.users, k))
              && r.st.stats == st.stats.(nusers := st.stats.nusers + 1, nonline := st.stats.nonline + 1)
              && r.out == [UsrList(r.st, conf, fd)]
  {
    if Directory.IsRegistered(st.users, nick) == 0 then
      var (t, _) := Directory.Insert(st.users, nick, fd, ToU32(conf.maxHistMsgs));
      EntriesKept(st.users, t, nick);
      var st' := State(t, st.stats.(nusers := st.stats.nusers + 1, nonline := st.stats.nonline + 1));
      Outcome(st', [UsrList(st', conf, fd)])
    else
      Outcome(st.(stats := st.stats.(nerrors := st.stats.nerrors + 1)), [Reply(fd, ServerHeader(OP_NICK_ALREADY))])
  }

  /** `unregisterUser`: a registered nickname is deleted, and both user counters
      go down whatever its online flag was; `OP_OK`. An unknown nickname counts
      an error and gets `OP_NICK_UNKNOWN`. */
  function UnregisterUser(st: State, conf: Config.Config, fd: int, nick: Name): (r: Outcome)
    requires Ready(st, conf)
    ensures Ready(r.st, conf)
    ensures nick !in Directory.Keys(st.users) ==>
              && r.st == st.(stats := st.stats.(nerrors := st.stats.nerrors + 1))
              && r.out == [Reply(fd, ServerHeader(OP_NICK_UNKNOWN))]
    ensures nick in Directory.Keys(st.users) ==>
              var t := r.st.users;
              && Directory.Keys(t) == Directory.Keys(st.users) - {nick}
              && Directory.OnlineKeys(t) == Directory.OnlineKeys(st.users) - {nick}
              && Directory.Find(t, nick) == None
              && (forall k :: k != nick ==> Directory.Find(t, k) == Directory.Find(st.users, k))
              && r.st.stats == st.stats.(nusers := st.stats.nusers - 1, nonline := st.stats.nonline - 1)
              && r.out == [Reply(fd, ServerHeader(OP_OK))]
  {
    if Directory.IsRegistered(st.users, nick) == 1 then
      var (t, _) := Directory.Delete(st.users, nick);
      EntriesKept(st.users, t, nick);
      Outcome(State(t, st.stats.(nonline := st.stats.nonline - 1, nusers := st.stats.nusers - 1)),
              [Reply(fd, ServerHeader(OP_OK))])
    else
      Outcome(st.(stats := st.stats.(nerrors := st.stats.nerrors + 1)), [Reply(fd, ServerHeader(OP_NICK_UNKNOWN))])
  }

  /** `connectUser`: a registered nickname becomes online on `fd` (`nonline`
      goes up only if it was offline) and is sent the listing; an unknown
      nickname counts an error and gets `OP_NICK_UNKNOWN`. */
  function ConnectUser(st: State, conf: Config.Config, fd: int, nick: Name): (r: Outcome)
    requires Ready(st, conf) && fd >= 0
    ensures Ready(r.st, conf)
    ensures nick !in Directory.Keys(st.users) ==>
              && r.st == st.(stats := st.stats.(nerrors := st.stats.nerrors + 1))
              && r.out == [Reply(fd, ServerHeader(OP_NICK_UNKNOWN))]
    ensures nick in Directory.Keys(st.users) ==>
              var t := r.st.users;
              var was := nick in Directory.OnlineKeys(st.users);
              && Directory.Keys(t) == Directory.Keys(st.users)
              && Directory.OnlineKeys(t) == Directory.OnlineKeys(st.users) + {nick}
              && Directory.Find(t, nick) == Some(Directory.Find(st.users, nick).value.(online := true, fd := fd))
              && (forall k :: k != nick ==> Directory.Find(t, k) == Directory.Find(st.users, k))
              && r.st.stats == st.stats.(nonline := if was then st.stats.nonline else st.stats.nonline + 1)
              && r.out == [UsrList(r.st, conf, fd)]
  {
    if Directory.IsRegistered(st.users, nick) == 1 then
      var stats := if Directory.IsOnline(st.users, nick) == 0 then st.stats.(nonline := st.stats.nonline + 1) else st.stats;
      var (t, _) := Directory.SetOnline(st.users, nick, fd);
      EntriesKept(st.users, t, nick);
      var st' := State(t, stats);
      Outcome(st', [UsrList(st', conf, fd)])
    else
      Outcome(st.(stats := st.stats.(nerrors := st.stats.nerrors + 1)), [Reply(fd, ServerHeader(OP_NICK_UNKNOWN))])
  }

  // ---------------------------------------------------------------------------
  // postText

  /** `OP_OK` to the sender of a request, under the sender's own name. */
  function Ack(fd: int, msg: Message): (o: Out)
    requires WellFormed(msg)
    ensures o.Reply? && o.fd == fd && o.hdr.op == OP_OK && FieldOk(o.hdr.sender) && NameOf(o.hdr.sender) == NameOf(msg.hdr.sender)
  {
    Reply(fd, SetHeader(BlankHeader, OP_OK, NameOf(msg.hdr.sender)))
  }

  /** The text `postText` sends and stores: a `TXT_MESSAGE` from the sender
      sharing the request's buffer and length. */
  function Text(msg: Message): (m: Message)
    requires WellFormed(msg)
    ensures WellFormed(m) && m.hdr.op == TXT_MESSAGE && NameOf(m.hdr.sender) == NameOf(msg.hdr.sender)
    ensures m.data.hdr.len == msg.data.hdr.len && m.data.buf == msg.data.buf
  {
    Build(TXT_MESSAGE, NameOf(msg.hdr.sender), [], msg.data.buf, msg.data.hdr.len)
  }

  /** The limit `len > MaxMsgSize` compares against: the `int` setting
      converted to `unsigned int`. */
  function MsgLimit(conf: Config.Config): u32 {
    ToU32(conf.maxMsgSize)
  }

  /** `postText`: an unknown receiver (`OP_NICK_UNKNOWN`) or a text longer than
      `MaxMsgSize` (`OP_MSG_TOOLONG`) counts an error. Otherwise the text, as a
      `TXT_MESSAGE` from the sender sharing the request's buffer, is always
      pushed onto the receiver's history; when the receiver is online it is
      also sent and counted delivered, else counted not delivered. The sender
      gets `OP_OK`. */
  function PostText(st: State, conf: Config.Config, fd: int, msg: Message): (r: Outcome)
    requires Ready(st, conf) && WellFormed(msg)
    ensures Ready(r.st, conf)
    ensures var rcv := NameOf(msg.data.hdr.receiver);
            rcv !in Directory.Keys(st.users) ==>
              && r.st == st.(stats := st.stats.(nerrors := st.stats.nerrors + 1))
              && r.out == [Reply(fd, ServerHeader(OP_NICK_UNKNOWN))]
    ensures var rcv := NameOf(msg.data.hdr.receiver);
            rcv in Directory.Keys(st.users) && msg.data.hdr.len > MsgLimit(conf) ==>
              && r.st == st.(stats := st.stats.(nerrors := st.stats.nerrors + 1))
              && r.out == [Reply(fd, ServerHeader(OP_MSG_TOOLONG))]
    ensures var rcv := NameOf(msg.data.hdr.receiver);
            var m := Text(msg);
            var ok := Ack(fd, msg);
            rcv in Directory.Keys(st.users) && msg.data.hdr.len <= MsgLimit(conf) ==>
              var e := Directory.Find(st.users, rcv).value;
              && Directory.Keys(r.st.users) == Directory.Keys(st.users)
              && Directory.OnlineKeys(r.st.users) == Directory.OnlineKeys(st.users)
              && Directory.Find(r.st.users, rcv) == Some(e.(queue := History.Push(e.queue, m)))
              && (forall k :: k != rcv ==> Directory.Find(r.st.users, k) == Directory.Find(st.users, k))
              && (e.online ==> r.st.stats == st.stats.(ndelivered := st.stats.ndelivered + 1)
                               && r.out == [Send(e.fd, m), ok])
              && (!e.online ==> r.st.stats == st.stats.(nnotdelivered := st.stats.nnotdelivered + 1)
                                && r.out == [ok])
  {
    var rcv := NameOf(msg.data.hdr.receiver);
    var snd := NameOf(msg.hdr.sender);
    var reg := Directory.IsRegistered(st.users, rcv);
    if reg == 0 || msg.data.hdr.len > MsgLimit(conf) then
      var op := if reg == 0 then OP_NICK_UNKNOWN else OP_MSG_TOOLONG;
      Outcome(st.(stats := st.stats.(nerrors := st.stats.nerrors + 1)), [Reply(fd, ServerHeader(op))])
    else
      var stats := st.stats.(nnotdelivered := st.stats.nnotdelivered + 1);
      var m := Text(msg);
      var (t, _) := Directory.AddMessage(st.users, rcv, m);
      EntriesKept(st.users, t, rcv);
      var e := Directory.Find(t, rcv).value;
      var ok := Ack(fd, msg);
      if Directory.IsOnline(t, rcv) == 1 then
        Outcome(State(t, stats.(nnotdelivered := stats.nnotdelivered - 1, ndelivered := stats.ndelivered + 1)),
                [Send(e.fd, m), ok])
      else
        Outcome(State(t, stats), [ok])
  }

  // ---------------------------------------------------------------------------
  // postTextAll

  /** The messages sent to the entries `es`, in order. */
  function Sends(es: seq<Directory.Entry>, m: Message): (r: seq<Out>)
    ensures |r| == |es| && forall i :: 0 <= i < |es| ==> r[i] == Send(es[i].fd, m)
  {
    seq(|es|, i requires 0 <= i < |es| => Send(es[i].fd, m))
  }

  lemma UsableFromEntries(t: Directory.Table)
    requires Directory.Valid(t) && EntriesOk(t)
    ensures Broadcast.Usable(t.buckets)
  {
    forall i, j | 0 <= i < |t.buckets| && 0 <= j < |t.buckets[i]|
      ensures History.Valid(t.buckets[i][j].queue) && t.buckets[i][j].queue.qmax >= 1
    {
      FoundAt(t, i, j);
    }
  }

  /** `t'` is `t` with `m` pushed onto the history of every user but `snd`. */
  ghost predicate Pushed(t: Directory.Table, t': Directory.Table, snd: Name, m: Message)
    requires Directory.Valid(t) && Directory.Valid(t') && EntriesOk(t)
  {
    && (forall k :: k == snd || Directory.Find(t, k).None? ==> Directory.Find(t', k) == Directory.Find(t, k))
    && (forall k :: k != snd && Directory.Find(t, k).Some? ==>
          var e := Directory.Find(t, k).value;
          Directory.Find(t', k) == Some(e.(queue := History.Push(e.queue, m))))
  }

  /** The scan keeps the invariant and the directory's view, and pushes the
      text onto every history but the sender's. */
  lemma TouchedEntriesOk(t: Directory.Table, sender: Name, m: Message)
    requires Directory.Valid(t) && EntriesOk(t)
    ensures Broadcast.Usable(t.buckets)
    ensures var t' := Broadcast.TouchAll(t, sender, m);
            && Directory.Valid(t') && EntriesOk(t')
            && Directory.Keys(t') == Directory.Keys(t)
            && Directory.OnlineKeys(t') == Directory.OnlineKeys(t)
            && Pushed(t, t', sender, m)
  {
    UsableFromEntries(t);
    Broadcast.TouchAllValid(t, sender, m);
    Broadcast.TouchAllKeys(t, sender, m);
    Broadcast.TouchAllOnline(t, sender, m);
    TouchedStillOk(t, sender, m);
    Broadcast.TouchAllFrames(t, sender, m);
  }

  lemma TouchedStillOk(t: Directory.Table, sender: Name, m: Message)
    requires Directory.Valid(t) && EntriesOk(t) && Broadcast.Usable(t.buckets)
    ensures Directory.Valid(Broadcast.TouchAll(t, sender, m)) && EntriesOk(Broadcast.TouchAll(t, sender, m))
  {
    Broadcast.TouchAllSpec(t, sender, m);
  }

  /** The text `postTextAll` sends: a `TXT_MESSAGE` from the sender holding a
      `strndup` copy of the request's text (so cut at its first NUL byte)
      but the request's length. */
  function BroadcastText(msg: Message): (m: Message)
    requires WellFormed(msg)
    ensures WellFormed(m) && m.hdr.op == TXT_MESSAGE && NameOf(m.hdr.sender) == NameOf(msg.hdr.sender)
    ensures m.data.hdr.len == msg.data.hdr.len && m.data.buf == StrNDup(msg.data.buf, msg.data.hdr.len)
  {
    Build(TXT_MESSAGE, NameOf(msg.hdr.sender), [], StrNDup(msg.data.buf, msg.data.hdr.len), msg.data.hdr.len)
  }

  /** The scan of `postTextAll` over an accepted text: the buckets are scanned
      in order and every entry other than the sender's gets one push of the
      text and counts as not delivered; the online ones are also sent it and
      moved to delivered. The sender gets `OP_OK`, since `push` never fails. */
  function SendToAll(st: State, conf: Config.Config, fd: int, msg: Message): (r: Outcome)
    requires Ready(st, conf) && WellFormed(msg)
    ensures Ready(r.st, conf)
  {
    var snd := NameOf(msg.hdr.sender);
    var m := BroadcastText(msg);
    TouchedEntriesOk(st.users, snd, m);
    var t := Broadcast.TouchAll(st.users, snd, m);
    var rs := Broadcast.Recipients(st.users.buckets, |st.users.buckets|, snd);
    var on := Broadcast.OnlineOnes(rs);
    var st' := State(t, st.stats.(nnotdelivered := st.stats.nnotdelivered + (|rs| - |on|), ndelivered := st.stats.ndelivered + |on|));
    Outcome(st', Sends(on, m) + [Reply(fd, ServerHeader(OP_OK))])
  }

  /** `postTextAll`: a text longer than `MaxMsgSize` counts an error and gets
      `OP_MSG_TOOLONG`; any other text goes through `SendToAll`, whose effect
      `PostTextAllPushes` and `PostTextAllReachesOthers` state. */
  function PostTextAll(st: State, conf: Config.Config, fd: int, msg: Message): (r: Outcome)
    requires Ready(st, conf) && WellFormed(msg)
    ensures Ready(r.st, conf)
    ensures msg.data.hdr.len > MsgLimit(conf) ==>
              && r.st == st.(stats := st.stats.(nerrors := st.stats.nerrors + 1))
              && r.out == [Reply(fd, ServerHeader(OP_MSG_TOOLONG))]
    ensures msg.data.hdr.len <= MsgLimit(conf) ==> r == SendToAll(st, conf, fd, msg)
  {
    if msg.data.hdr.len > MsgLimit(conf) then
      Outcome(st.(stats := st.stats.(nerrors := st.stats.nerrors + 1)), [Reply(fd, ServerHeader(OP_MSG_TOOLONG))])
    else
      SendToAll(st, conf, fd, msg)
  }

  /** What `postTextAll` does to the directory: the same users, online or
      not as before, and the text pushed onto every history but the sender's. */
  lemma PostTextAllPushes(st: State, conf: Config.Config, fd: int, msg: Message)
    requires Ready(st, conf) && WellFormed(msg) && msg.data.hdr.len <= MsgLimit(conf)
    ensures var r := PostTextAll(st, conf, fd, msg);
            && Directory.Valid(r.st.users)
            && Directory.Keys(r.st.users) == Directory.Keys(st.users)
            && Directory.OnlineKeys(r.st.users) == Directory.OnlineKeys(st.users)
            && Pushed(st.users, r.st.users, NameOf(msg.hdr.sender), BroadcastText(msg))
  {
    TouchedEntriesOk(st.users, NameOf(msg.hdr.sender), BroadcastText(msg));
  }

  /** Every online user other than the sender is sent the text. */
  lemma SendsReachOnline(t: Directory.Table, sender: Name, m: Message)
    requires Directory.Valid(t)
    ensures var on := Broadcast.OnlineOnes(Broadcast.Recipients(t.buckets, |t.buckets|, sender));
            forall k :: k != sender && Directory.Find(t, k).Some? && Directory.Find(t, k).value.online ==>
              Send(Directory.Find(t, k).value.fd, m) in Sends(on, m)
  {
    var rs := Broadcast.Recipients(t.buckets, |t.buckets|, sender);
    var on := Broadcast.OnlineOnes(rs);
    Broadcast.RecipientsAreTheOthers(t, sender);
    forall k | k != sender && Directory.Find(t, k).Some? && Directory.Find(t, k).value.online
      ensures Send(Directory.Find(t, k).value.fd, m) in Sends(on, m)
    {
      var e := Directory.Find(t, k).value;
      Broadcast.OnlineOnesMembers(rs, e);
      var i :| 0 <= i < |on| && on[i] == e;
      assert Sends(on, m)[i] == Send(e.fd, m);
    }
  }

  /** The text is sent only to online users other than the sender. */
  lemma SendsOnlyOnline(t: Directory.Table, sender: Name, m: Message)
    requires Directory.Valid(t)
    ensures var on := Broadcast.OnlineOnes(Broadcast.Recipients(t.buckets, |t.buckets|, sender));
            forall o :: o in Sends(on, m) ==>
              exists k :: && k != sender && Directory.Find(t, k).Some? && Directory.Find(t, k).value.online
                          && o == Send(Directory.Find(t, k).value.fd, m)
  {
    var rs := Broadcast.Recipients(t.buckets, |t.buckets|, sender);
    var on := Broadcast.OnlineOnes(rs);
    forall o | o in Sends(on, m)
      ensures exists k :: && k != sender && Directory.Find(t, k).Some? && Directory.Find(t, k).value.online
                          && o == Send(Directory.Find(t, k).value.fd, m)
    {
      var i :| 0 <= i < |on| && Sends(on, m)[i] == o;
      var e := on[i];
      Broadcast.OnlineOnesMembers(rs, e);
      Broadcast.RecipientsFound(t, sender, e);
    }
  }

  /** Who `postTextAll` reaches: each registered user other than the sender
      gets the text once, so `nnotdelivered` grows by the offline ones and
      `ndelivered` by the online ones; the text goes exactly to the
      connections of the online users other than the sender, then the sender
      gets `OP_OK`. */
  lemma PostTextAllReachesOthers(st: State, conf: Config.Config, fd: int, msg: Message)
    requires Ready(st, conf) && WellFormed(msg) && msg.data.hdr.len <= MsgLimit(conf)
    ensures var snd := NameOf(msg.hdr.sender);
            var t := st.users;
            var r := PostTextAll(st, conf, fd, msg);
            var n := |Directory.OnlineKeys(t) - {snd}|;
            && r.st.stats.ndelivered == st.stats.ndelivered + n
            && r.st.stats.nnotdelivered == st.stats.nnotdelivered + (|Directory.Keys(t) - {snd}| - n)
            && |r.out| == n + 1
            && r.out[n] == Reply(fd, ServerHeader(OP_OK))
            && (forall k :: k != snd && Directory.Find(t, k).Some? && Directory.Find(t, k).value.online ==>
                  Send(Directory.Find(t, k).value.fd, BroadcastText(msg)) in r.out[..n])
            && (forall o :: o in r.out[..n] ==>
                  exists k :: && k != snd && Directory.Find(t, k).Some? && Directory.Find(t, k).value.online
                              && o == Send(Directory.Find(t, k).value.fd, BroadcastText(msg)))
  {
    var snd := NameOf(msg.hdr.sender);
    var m := BroadcastText(msg);
    var t := st.users;
    var on := Broadcast.OnlineOnes(Broadcast.Recipients(t.buckets, |t.buckets|, snd));
    var r := PostTextAll(st, conf, fd, msg);
    Broadcast.RecipientsAreTheOthers(t, snd);
    assert r.out[..|on|] == Sends(on, m);
    SendsReachOnline(t, snd, m);
    SendsOnlyOnline(t, snd, m);
  }

  /** `postTextAll` sends each online user a `strndup` copy with the
      request's length: when the text has a NUL before its last byte the copy
      is shorter than that length and every send reads past it; otherwise
      every online user other than the sender is sent the text. */
  lemma BroadcastOfCutText(st: State, conf: Config.Config, fd: int, msg: Message)
    requires Ready(st, conf) && WellFormed(msg) && msg.data.hdr.len <= MsgLimit(conf)
    requires msg.data.hdr.len <= |msg.data.buf|
    ensures var r := PostTextAll(st, conf, fd, msg);
            var n := |Directory.OnlineKeys(st.users) - {NameOf(msg.hdr.sender)}|;
            var cut := exists i :: 0 <= i < msg.data.hdr.len - 1 && msg.data.buf[i] == 0;
            && n < |r.out|
            && (cut ==> forall o :: o in r.out[..n] ==> o.Undefined?)
            && (!cut ==> forall o :: o in r.out[..n] ==> o.Deliver? && o.msg == BroadcastText(msg))
  {
    PostTextAllReachesOthers(st, conf, fd, msg);
    StrNDupShort(msg.data.buf, msg.data.hdr.len);
  }

  // ---------------------------------------------------------------------------
  // postFile and getFile

  const SLASH: byte := 47

  /** What follows the last `/` of a name, or the whole name when it has none. */
  function Basename(s: seq<byte>): (r: seq<byte>)
    ensures |r| <= |s| && r == s[|s| - |r|..]
    ensures SLASH !in r
    ensures SLASH in s ==> s[|s| - |r| - 1] == SLASH
    ensures SLASH !in s ==> r == s
  {
    if s == [] then []
    else if s[|s| - 1] == SLASH then []
    else Basename(s[..|s| - 1]) + [s[|s| - 1]]
  }

  /** Bytes read as characters. */
  function Chars(b: seq<byte>): (r: string)
    ensures |r| == |b| && forall i :: 0 <= i < |b| ==> r[i] as int == b[i]
  {
    seq(|b|, i requires 0 <= i < |b| => b[i] as char)
  }

  /** The request's buffer holds a terminator within its `len` bytes, so the
      C string functions that read the file name stay inside it. */
  predicate HoldsString(d: Data) {
    exists i :: 0 <= i < d.hdr.len && i < |d.buf| && d.buf[i] == 0
  }

  /** The path `DirName/<name>` under which a file is stored and looked up. */
  function FilePath(dir: string, name: seq<byte>): string {
    dir + "/" + Chars(Basename(CStr(name)))
  }

  /** The file length as the `int` local `len` holds it. */
  function ToI32(x: u32): int {
    if x < 0x8000_0000 then x else x - U32_LIMIT
  }

  /** The file `postFile` stores and announces: its name after the last `/`. */
  function FileNote(msg: Message): (m: Message)
    requires WellFormed(msg)
    ensures WellFormed(m) && m.hdr.op == FILE_MESSAGE && NameOf(m.hdr.sender) == NameOf(msg.hdr.sender)
    ensures m.data.buf == Basename(CStr(msg.data.buf)) + [0] && m.data.hdr.len == ToU32(|m.data.buf|)
  {
    var name := Basename(CStr(msg.data.buf));
    Build(FILE_MESSAGE, NameOf(msg.hdr.sender), [], name + [0], ToU32(|name| + 1))
  }

  /** The length `postFile` checks: the file's `unsigned int` length held in an `int`. */
  function FileLength(file: Data): int {
    ToI32(file.hdr.len)
  }

  /** The sizes `postFile` accepts: positive, and at most `MaxFileSize` kilobytes once truncated. */
  predicate FileSizeOk(conf: Config.Config, file: Data) {
    0 < FileLength(file) && FileLength(file) / 1024 <= conf.maxFileSize
  }

  /** Whether `fopen(path, "w+")` opens the path `postFile` builds for the
      file name in `name`: the path is not denied, and its basename names a
      file rather than the directory `DirName` itself or its parent. */
  predicate Creatable(files: Files, dir: string, name: seq<byte>) {
    Chars(Basename(CStr(name))) !in {"", ".", ".."} && FilePath(dir, name) !in files.denied
  }

  /** What `postFile` does with an accepted file once `DirName/<basename>`
      is open for writing: the file is written there, and a `FILE_MESSAGE`
      holding the basename is pushed onto the receiver's history and counted
      not delivered; when the receiver is online it is also sent and moved to
      delivered. The sender gets `OP_OK`. */
  function StoreFile(st: State, conf: Config.Config, fd: int, msg: Message, file: Data): (r: Outcome)
    requires Ready(st, conf) && WellFormed(msg)
    requires NameOf(msg.data.hdr.receiver) in Directory.Keys(st.users)
    requires conf.dirName.Some? && file.hdr.len <= |file.buf|
    ensures Ready(r.st, conf)
    ensures var rcv := NameOf(msg.data.hdr.receiver);
            var m := FileNote(msg);
            var e := Directory.Find(st.users, rcv).value;
            var stored := WriteFile(FilePath(conf.dirName.value, msg.data.buf), file.buf[..file.hdr.len]);
            && Directory.Keys(r.st.users) == Directory.Keys(st.users)
            && Directory.OnlineKeys(r.st.users) == Directory.OnlineKeys(st.users)
            && Directory.Find(r.st.users, rcv) == Some(e.(queue := History.Push(e.queue, m)))
            && (forall k :: k != rcv ==> Directory.Find(r.st.users, k) == Directory.Find(st.users, k))
            && (e.online ==> r.st.stats == st.stats.(nfiledelivered := st.stats.nfiledelivered + 1)
                             && r.out == [stored, Deliver(e.fd, m), Ack(fd, msg)])
            && (!e.online ==> r.st.stats == st.stats.(nfilenotdelivered := st.stats.nfilenotdelivered + 1)
                              && r.out == [stored, Ack(fd, msg)])
  {
    var rcv := NameOf(msg.data.hdr.receiver);
    var stats := st.stats.(nfilenotdelivered := st.stats.nfilenotdelivered + 1);
    var stored := WriteFile(FilePath(conf.dirName.value, msg.data.buf), file.buf[..file.hdr.len]);
    var m := FileNote(msg);
    var (t, _) := Directory.AddMessage(st.users, rcv, m);
    EntriesKept(st.users, t, rcv);
    var e := Directory.Find(t, rcv).value;
    if Directory.IsOnline(t, rcv) == 1 then
      Outcome(State(t, stats.(nfilenotdelivered := stats.nfilenotdelivered - 1, nfiledelivered := stats.nfiledelivered + 1)),
              [stored, Deliver(e.fd, m), Ack(fd, msg)])
    else
      Outcome(State(t, stats), [stored, Ack(fd, msg)])
  }

  /** `postFile`: an unknown receiver counts an error and gets
      `OP_NICK_UNKNOWN`; a length that is not positive (`OP_FAIL`) or whose
      kilobytes exceed `MaxFileSize` (`OP_MSG_TOOLONG`) counts an error.
      Otherwise the file is counted not delivered; when `DirName/<basename>`
      cannot be opened for writing the server exits, and when it can the file
      is stored as `StoreFile` says. A file name without a terminator in the
      request's buffer makes `strrchr` read past it. */
  function PostFile(st: State, conf: Config.Config, files: Files, fd: int, msg: Message, file: Data): (r: Outcome)
    requires Ready(st, conf) && WellFormed(msg)
    requires NameOf(msg.data.hdr.receiver) in Directory.Keys(st.users) && FileSizeOk(conf, file) ==>
               conf.dirName.Some? && file.hdr.len <= |file.buf|
    ensures Ready(r.st, conf)
    ensures var rcv := NameOf(msg.data.hdr.receiver);
            var len := FileLength(file);
            && (rcv !in Directory.Keys(st.users) ==>
                  && r.st == st.(stats := st.stats.(nerrors := st.stats.nerrors + 1))
                  && r.out == [Reply(fd, ServerHeader(OP_NICK_UNKNOWN))])
            && (rcv in Directory.Keys(st.users) && len <= 0 ==>
                  && r.st == st.(stats := st.stats.(nerrors := st.stats.nerrors + 1))
                  && r.out == [Reply(fd, ServerHeader(OP_FAIL))])
            && (rcv in Directory.Keys(st.users) && len > 0 && !FileSizeOk(conf, file) ==>
                  && r.st == st.(stats := st.stats.(nerrors := st.stats.nerrors + 1))
                  && r.out == [Reply(fd, ServerHeader(OP_MSG_TOOLONG))])
            && (rcv in Directory.Keys(st.users) && FileSizeOk(conf, file) && !HoldsString(msg.data) ==>
                  r == Outcome(st, [Undefined(fd)]))
            && (rcv in Directory.Keys(st.users) && FileSizeOk(conf, file) && HoldsString(msg.data) ==>
                  if Creatable(files, conf.dirName.value, msg.data.buf)
                  then r == StoreFile(st, conf, fd, msg, file)
                  else r == Outcome(st.(stats := st.stats.(nfilenotdelivered := st.stats.nfilenotdelivered + 1)), [Exit]))
  {
    var len := FileLength(file);
    if Directory.IsRegistered(st.users, NameOf(msg.data.hdr.receiver)) == 0 then
      Outcome(st.(stats := st.stats.(nerrors := st.stats.nerrors + 1)), [Reply(fd, ServerHeader(OP_NICK_UNKNOWN))])
    else if len / 1024 > conf.maxFileSize || len <= 0 then
      var op := if len <= 0 then OP_FAIL else OP_MSG_TOOLONG;
      Outcome(st.(stats := st.stats.(nerrors := st.stats.nerrors + 1)), [Reply(fd, ServerHeader(op))])
    else if !HoldsString(msg.data) then
      Outcome(st, [Undefined(fd)])
    else if !Creatable(files, conf.dirName.value, msg.data.buf) then
      Outcome(st.(stats := st.stats.(nfilenotdelivered := st.stats.nfilenotdelivered + 1)), [Exit])
    else
      StoreFile(st, conf, fd, msg, file)
  }

  /** A file name that ends with `/` leaves `DirName/` as the path, a
      directory, which `fopen(path, "w+")` cannot open: the server exits. */
  lemma SlashNameExits(st: State, conf: Config.Config, files: Files, fd: int, msg: Message, file: Data)
    requires Ready(st, conf) && WellFormed(msg) && conf.dirName.Some? && file.hdr.len <= |file.buf|
    requires NameOf(msg.data.hdr.receiver) in Directory.Keys(st.users) && FileSizeOk(conf, file) && HoldsString(msg.data)
    requires var name := CStr(msg.data.buf); |name| >= 1 && name[|name| - 1] == SLASH
    ensures PostFile(st, conf, files, fd, msg, file).out == [Exit]
  {
    assert Basename(CStr(msg.data.buf)) == [];
  }

  /** `postFile` as it runs: the file part is read from the connection into
      the uninitialised local `file` before anything is checked. A part cut
      short leaves its pointer, or its length and contents, undetermined. A
      part of length 0 leaves the pointer unset, and `postFile` frees it
      after its reply. */
  function ReceiveFile(st: State, conf: Config.Config, files: Files, fd: int, msg: Message, part: Wire.Read<Data>): (r: Outcome)
    requires Ready(st, conf) && WellFormed(msg) && conf.dirName.Some?
    requires part.status == 1 ==> part.value.hdr.len <= |part.value.buf|
    ensures Ready(r.st, conf)
    ensures part.status != 1 ==> r == Outcome(st, [Undefined(fd)])
    ensures part.status == 1 && part.value.hdr.len == 0 ==>
              var known := NameOf(msg.data.hdr.receiver) in Directory.Keys(st.users);
              && r.st == st.(stats := st.stats.(nerrors := st.stats.nerrors + 1))
              && r.out == [Reply(fd, ServerHeader(if known then OP_FAIL else OP_NICK_UNKNOWN)), Undefined(fd)]
    ensures part.status == 1 && part.value.hdr.len != 0 ==> r == PostFile(st, conf, files, fd, msg, part.value)
  {
    if part.status != 1 then Outcome(st, [Undefined(fd)])
    else
      var p := PostFile(st, conf, files, fd, msg, part.value);
      if part.value.hdr.len == 0 then
        assert FileLength(part.value) == 0;
        Outcome(p.st, p.out + [Undefined(fd)])
      else p
  }

  /** `getFile`: the file `DirName/<basename>` is sent with `OP_OK` and counted
      delivered; when it cannot be opened the reply is `OP_NO_SUCH_FILE` if
      access was denied and `OP_FAIL` otherwise (a missing file included).
      An empty file makes `fread` report 0 items and the server exit; a file
      name without a terminator makes `strrchr` read past the buffer. */
  function GetFile(st: State, conf: Config.Config, files: Files, fd: int, msg: Message): (r: Outcome)
    requires conf.dirName.Some?
    ensures !HoldsString(msg.data) ==> r == Outcome(st, [Undefined(fd)])
    ensures var path := FilePath(conf.dirName.value, msg.data.buf);
            HoldsString(msg.data) ==>
            && (path in files.denied ==> r == Outcome(st, [Reply(fd, ServerHeader(OP_NO_SUCH_FILE))]))
            && (path !in files.denied && path !in files.contents ==> r == Outcome(st, [Reply(fd, ServerHeader(OP_FAIL))]))
            && (path !in files.denied && path in files.contents && files.contents[path] == [] ==> r == Outcome(st, [Exit]))
            && (path !in files.denied && path in files.contents && files.contents[path] != [] ==>
                  var data := files.contents[path];
                  && r.st == st.(stats := st.stats.(nfilenotdelivered := st.stats.nfilenotdelivered - 1,
                                                   nfiledelivered := st.stats.nfiledelivered + 1))
                  && r.out == [Deliver(fd, ServerReply(data, ToU32(|data|)))])
  {
    var path := FilePath(conf.dirName.value, msg.data.buf);
    if !HoldsString(msg.data) then Outcome(st, [Undefined(fd)])
    else if path in files.denied then Outcome(st, [Reply(fd, ServerHeader(OP_NO_SUCH_FILE))])
    else if path !in files.contents then Outcome(st, [Reply(fd, ServerHeader(OP_FAIL))])
    else if files.contents[path] == [] then Outcome(st, [Exit])
    else
      var data := files.contents[path];
      Outcome(st.(stats := st.stats.(nfilenotdelivered := st.stats.nfilenotdelivered - 1,
                                    nfiledelivered := st.stats.nfiledelivered + 1)),
              [Deliver(fd, ServerReply(data, ToU32(|data|)))])
  }

  // ---------------------------------------------------------------------------
  // getPrevMSGS

  /** The number of `FILE_MESSAGE`s in `ms`. */
  function FileCount(ms: seq<Message>): (n: nat)
    ensures n <= |ms|
  {
    if ms == [] then 0 else (if ms[0].hdr.op == FILE_MESSAGE then 1 else 0) + FileCount(ms[1..])
  }

  /** `sizeof(size_t *)`, the length of the count sent first. */
  const SIZE_T_BYTES: nat := 8

  /** `getPrevMSGS` for a registered sender whose history is `q`: `OP_OK`
      carrying the history length as an 8-byte integer, then each history
      message in list order. Each one moves a count from not delivered to
      delivered, on the file counters for a `FILE_MESSAGE` and on the text
      counters otherwise. */
  function SendHistory(stats: Stats, fd: int, q: History.Queue<Message>): (r: (Stats, seq<Out>))
    requires History.Valid(q)
    ensures var f := FileCount(q.slots);
            && r.0 == stats.(nfiledelivered := stats.nfiledelivered + f,
                             nfilenotdelivered := stats.nfilenotdelivered - f,
                             ndelivered := stats.ndelivered + (|q.slots| - f),
                             nnotdelivered := stats.nnotdelivered - (|q.slots| - f))
            && |r.1| == |q.slots| + 1
            && r.1[0] == Deliver(fd, ServerReply(LE(|q.slots|, SIZE_T_BYTES), SIZE_T_BYTES as u32))
            && forall i :: 0 <= i < |q.slots| ==> r.1[i + 1] == Send(fd, q.slots[i])
  {
    var count := Deliver(fd, ServerReply(LE(History.QueueLength(q), SIZE_T_BYTES), SIZE_T_BYTES as u32));
    var (s, sent) := Replay(stats, fd, q.slots);
    (s, [count] + sent)
  }

  /** `getPrevMSGS`: the sender's history is sent as `SendHistory` says and
      left as it was. For an unknown sender the C code dereferences the NULL
      search result. */
  function GetPrevMsgs(st: State, conf: Config.Config, fd: int, msg: Message): (r: Outcome)
    requires Ready(st, conf) && WellFormed(msg)
    ensures r.st.users == st.users
    ensures NameOf(msg.hdr.sender) !in Directory.Keys(st.users) ==> r == Outcome(st, [Undefined(fd)])
    ensures NameOf(msg.hdr.sender) in Directory.Keys(st.users) ==>
              var e := Directory.Find(st.users, NameOf(msg.hdr.sender)).value;
              History.Valid(e.queue) && (r.st.stats, r.out) == SendHistory(st.stats, fd, e.queue)
  {
    Directory.FindMatchesView(st.users, NameOf(msg.hdr.sender));
    match Directory.Find(st.users, NameOf(msg.hdr.sender))
    case None => Outcome(st, [Undefined(fd)])
    case Some(e) =>
      var (stats, out) := SendHistory(st.stats, fd, e.queue);
      Outcome(st.(stats := stats), out)
  }

  /** The loop of `getPrevMSGS` over the history, from the head. */
  function Replay(stats: Stats, fd: int, ms: seq<Message>): (r: (Stats, seq<Out>))
    ensures var f := FileCount(ms);
            r.0 == stats.(nfiledelivered := stats.nfiledelivered + f,
                          nfilenotdelivered := stats.nfilenotdelivered - f,
                          ndelivered := stats.ndelivered + (|ms| - f),
                          nnotdelivered := stats.nnotdelivered - (|ms| - f))
    ensures |r.1| == |ms| && forall i :: 0 <= i < |ms| ==> r.1[i] == Send(fd, ms[i])
    decreases |ms|
  {
    if ms == [] then (stats, [])
    else
      var s := if ms[0].hdr.op == FILE_MESSAGE
               then stats.(nfiledelivered := stats.nfiledelivered + 1, nfilenotdelivered := stats.nfilenotdelivered - 1)
               else stats.(ndelivered := stats.ndelivered + 1, nnotdelivered := stats.nnotdelivered - 1);
      var (s', rest) := Replay(s, fd, ms[1..]);
      (s', [Send(fd, ms[0])] + rest)
  }

  // ---------------------------------------------------------------------------
  // chooseRequest

  /** `icl_hash_set_offline(users, fd)` keeps the invariant: the entry it
      changes is left offline and unbound. */
  lemma OfflineKeepsEntries(t: Directory.Table, fd: int)
    requires Directory.Valid(t) && EntriesOk(t)
    ensures Directory.Valid(Directory.SetOffline(t, fd).0) && EntriesOk(Directory.SetOffline(t, fd).0)
  {
    if fd >= 0 && Directory.HasFd(t, fd) {
      EntriesKept(t, Directory.SetOffline(t, fd).0, Directory.OfflineTarget(t, fd).value);
    }
  }

  /** The user bound to `fd` is online, by `EntryOk`. */
  lemma BoundIsOnline(t: Directory.Table, fd: int)
    requires Directory.Valid(t) && EntriesOk(t) && fd >= 0
    ensures Directory.HasFd(t, fd) ==> Directory.OfflineTarget(t, fd).value in Directory.OnlineKeys(t)
  {
    if Directory.HasFd(t, fd) {
      Directory.FindMatchesView(t, Directory.OfflineTarget(t, fd).value);
    }
  }

  /** The end of a connection (`readMsg` returned 0): the user bound to `fd`,
      if any, goes offline and only then is `nonline` decremented; the
      connection is closed and nothing is written on the completion pipe. */
  function HangUp(st: State, conf: Config.Config, fd: int): (r: Outcome)
    requires Ready(st, conf) && fd >= 0
    ensures Ready(r.st, conf)
    ensures r.out == [Close(fd)]
    ensures !Directory.HasFd(st.users, fd) ==> r.st == st
    ensures Directory.HasFd(st.users, fd) ==>
              var key := Directory.OfflineTarget(st.users, fd).value;
              && key in Directory.OnlineKeys(st.users)
              && Directory.Keys(r.st.users) == Directory.Keys(st.users)
              && Directory.OnlineKeys(r.st.users) == Directory.OnlineKeys(st.users) - {key}
              && r.st.stats == st.stats.(nonline := st.stats.nonline - 1)
  {
    OfflineKeepsEntries(st.users, fd);
    BoundIsOnline(st.users, fd);
    var (t, res) := Directory.SetOffline(st.users, fd);
    var stats := if res == 0 then st.stats.(nonline := st.stats.nonline - 1) else st.stats;
    Outcome(State(t, stats), [Close(fd)])
  }

  /** `DISCONNECT_OP`: the user bound to `fd`, if any, goes offline; no counter
      changes and nothing is sent. */
  function Disconnect(st: State, conf: Config.Config, fd: int): (r: Outcome)
    requires Ready(st, conf) && fd >= 0
    ensures Ready(r.st, conf)
    ensures r.out == [] && r.st.stats == st.stats
    ensures !Directory.HasFd(st.users, fd) ==> r.st == st
    ensures Directory.HasFd(st.users, fd) ==>
              var key := Directory.OfflineTarget(st.users, fd).value;
              && key in Directory.OnlineKeys(st.users)
              && Directory.Keys(r.st.users) == Directory.Keys(st.users)
              && Directory.OnlineKeys(r.st.users) == Directory.OnlineKeys(st.users) - {key}
  {
    OfflineKeepsEntries(st.users, fd);
    BoundIsOnline(st.users, fd);
    Outcome(st.(users := Directory.SetOffline(st.users, fd).0), [])
  }

  /** The operation codes `chooseRequest` dispatches on. */
  predicate KnownOp(op: u32) {
    op in {REGISTER_OP, UNREGISTER_OP, CONNECT_OP, DISCONNECT_OP, POSTTXT_OP, POSTTXTALL_OP,
           GETFILE_OP, POSTFILE_OP, USRLIST_OP, GETPREVMSGS_OP}
  }

  /** The `switch` of `chooseRequest`. Register and connect take the nickname
      from the header's sender, unregister from the data's receiver; the file
      of `postFile` is the data part read after the request. An unknown code
      gets `OP_FAIL` from "server". */
  function Dispatch(st: State, conf: Config.Config, files: Files, fd: int, msg: Message, part: Wire.Read<Data>): (r: Outcome)
    requires Ready(st, conf) && fd >= 0 && WellFormed(msg)
    requires conf.dirName.Some? && (part.status == 1 ==> part.value.hdr.len <= |part.value.buf|)
    ensures Ready(r.st, conf)
    ensures msg.hdr.op == REGISTER_OP ==> r == RegisterUser(st, conf, fd, NameOf(msg.hdr.sender))
    ensures msg.hdr.op == UNREGISTER_OP ==> r == UnregisterUser(st, conf, fd, NameOf(msg.data.hdr.receiver))
    ensures msg.hdr.op == CONNECT_OP ==> r == ConnectUser(st, conf, fd, NameOf(msg.hdr.sender))
    ensures msg.hdr.op == DISCONNECT_OP ==> r == Disconnect(st, conf, fd)
    ensures msg.hdr.op == POSTTXT_OP ==> r == PostText(st, conf, fd, msg)
    ensures msg.hdr.op == POSTTXTALL_OP ==> r == PostTextAll(st, conf, fd, msg)
    ensures msg.hdr.op == GETFILE_OP ==> r == GetFile(st, conf, files, fd, msg)
    ensures msg.hdr.op == POSTFILE_OP ==> r == ReceiveFile(st, conf, files, fd, msg, part)
    ensures msg.hdr.op == USRLIST_OP ==> r == Outcome(st, [UsrList(st, conf, fd)])
    ensures msg.hdr.op == GETPREVMSGS_OP ==> r == GetPrevMsgs(st, conf, fd, msg)
    ensures !KnownOp(msg.hdr.op) ==> r == Outcome(st, [Reply(fd, ServerHeader(OP_FAIL))])
  {
    var op := msg.hdr.op;
    if op == REGISTER_OP then RegisterUser(st, conf, fd, NameOf(msg.hdr.sender))
    else if op == UNREGISTER_OP then UnregisterUser(st, conf, fd, NameOf(msg.data.hdr.receiver))
    else if op == CONNECT_OP then ConnectUser(st, conf, fd, NameOf(msg.hdr.sender))
    else if op == DISCONNECT_OP then Disconnect(st, conf, fd)
    else if op == POSTTXT_OP then PostText(st, conf, fd, msg)
    else if op == POSTTXTALL_OP then PostTextAll(st, conf, fd, msg)
    else if op == GETFILE_OP then GetFile(st, conf, files, fd, msg)
    else if op == POSTFILE_OP then ReceiveFile(st, conf, files, fd, msg, part)
    else if op == USRLIST_OP then Outcome(st, [UsrList(st, conf, fd)])
    else if op == GETPREVMSGS_OP then GetPrevMsgs(st, conf, fd, msg)
    else Outcome(st, [Reply(fd, ServerHeader(OP_FAIL))])
  }

  /** What `chooseRequest` needs of the bytes on the connection: a request read
      in full carries a terminator in both name fields, which the handlers
      read as C strings. */
  predicate Terminated(fd: int, prior: Message, bytes: seq<byte>)
    requires Wire.Sendable(prior)
  {
    var rd := Wire.ReadMsg(fd, prior, bytes);
    rd.status == 1 ==> WellFormed(rd.value)
  }

  /** `chooseRequest`: reads one request from the connection into `prior` (its
      uninitialised message); at the end of the stream it hangs up, otherwise
      it runs the request and then, unless the handler made the server exit,
      writes `fd` on the completion pipe. A `postFile` reads its file from
      the bytes after the request, into `priorFile` (its uninitialised
      local). */
  function ChooseRequest(st: State, conf: Config.Config, files: Files, fd: int,
                         prior: Message, priorFile: Data, bytes: seq<byte>): (r: Outcome)
    requires Ready(st, conf) && fd >= 0 && conf.dirName.Some?
    requires Wire.Sendable(prior) && |priorFile.hdr.receiver| == NAME_FIELD
    requires Terminated(fd, prior, bytes)
    ensures Ready(r.st, conf)
    ensures var rd := Wire.ReadMsg(fd, prior, bytes);
            && (rd.status == 0 ==> r == HangUp(st, conf, fd))
            && (rd.status == 1 ==>
                  var d := Dispatch(st, conf, files, fd, rd.value, Wire.ReadData(fd, priorFile, rd.rest));
                  && r.st == d.st
                  && (Exit in d.out ==> r.out == d.out)
                  && (Exit !in d.out ==> r.out == d.out + [Done(fd)]))
  {
    var rd := Wire.ReadMsg(fd, prior, bytes);
    if rd.status == 0 then HangUp(st, conf, fd)
    else
      var d := Dispatch(st, conf, files, fd, rd.value, Wire.ReadData(fd, priorFile, rd.rest));
      if Exit in d.out then d else Outcome(d.st, d.out + [Done(fd)])
  }

  /** At the end of the stream the connection is closed and not handed back
      to the listener; `nonline` drops by one exactly when a user was bound to
      `fd`, so an exact online counter stays exact. */
  lemma EndOfStream(st: State, conf: Config.Config, files: Files, fd: int,
                    prior: Message, priorFile: Data, bytes: seq<byte>)
    requires Ready(st, conf) && fd >= 0 && conf.dirName.Some?
    requires Wire.Sendable(prior) && |priorFile.hdr.receiver| == NAME_FIELD
    requires Terminated(fd, prior, bytes)
    requires Wire.ReadMsg(fd, prior, bytes).status == 0
    ensures var r := ChooseRequest(st, conf, files, fd, prior, priorFile, bytes);
            && r.out == [Close(fd)] && Done(fd) !in r.out
            && r.st.stats.nonline == (if Directory.HasFd(st.users, fd) then st.stats.nonline - 1 else st.stats.nonline)
            && r.st.stats.(nonline := st.stats.nonline) == st.stats
            && Directory.Keys(r.st.users) == Directory.Keys(st.users)
            && (OnlineCounted(st) ==> OnlineCounted(r.st))
  {
    var r := ChooseRequest(st, conf, files, fd, prior, priorFile, bytes);
    if Directory.HasFd(st.users, fd) {
      var key := Directory.OfflineTarget(st.users, fd).value;
      assert |Directory.OnlineKeys(r.st.users)| == |Directory.OnlineKeys(st.users)| - 1;
    }
  }

  /** A connection that closes before a whole header arrives ends the same way. */
  lemma ClosedConnection(st: State, conf: Config.Config, files: Files, fd: int, prior: Message, priorFile: Data)
    requires Ready(st, conf) && fd >= 0 && conf.dirName.Some?
    requires Wire.Sendable(prior) && |priorFile.hdr.receiver| == NAME_FIELD
    ensures Terminated(fd, prior, [])
    ensures ChooseRequest(st, conf, files, fd, prior, priorFile, []) == HangUp(st, conf, fd)
  {
  }

  /** A request read in full whose handler does not exit is followed by `fd`
      on the completion pipe, once, after whatever its handler sent. */
  lemma DoneFollows(st: State, conf: Config.Config, files: Files, fd: int,
                    prior: Message, priorFile: Data, bytes: seq<byte>)
    requires Ready(st, conf) && fd >= 0 && conf.dirName.Some?
    requires Wire.Sendable(prior) && |priorFile.hdr.receiver| == NAME_FIELD
    requires Terminated(fd, prior, bytes)
    requires Wire.ReadMsg(fd, prior, bytes).status == 1
    ensures var r := ChooseRequest(st, conf, files, fd, prior, priorFile, bytes);
            Exit !in r.out ==> |r.out| >= 1 && r.out[|r.out| - 1] == Done(fd) && Done(fd) !in r.out[..|r.out| - 1]
  {
    var r := ChooseRequest(st, conf, files, fd, prior, priorFile, bytes);
    var rd := Wire.ReadMsg(fd, prior, bytes);
    var d := Dispatch(st, conf, files, fd, rd.value, Wire.ReadData(fd, priorFile, rd.rest));
    DispatchHandled(st, conf, files, fd, rd.value, Wire.ReadData(fd, priorFile, rd.rest));
    HandledShape(d.out, fd);
    if Exit !in d.out {
      assert r.out[..|r.out| - 1] == d.out;
    }
  }

  /** A handler that exits ends the request there: the exit is all that is
      sent, and `fd` never reaches the completion pipe. */
  lemma ExitEndsRequest(st: State, conf: Config.Config, files: Files, fd: int,
                        prior: Message, priorFile: Data, bytes: seq<byte>)
    requires Ready(st, conf) && fd >= 0 && conf.dirName.Some?
    requires Wire.Sendable(prior) && |priorFile.hdr.receiver| == NAME_FIELD
    requires Terminated(fd, prior, bytes)
    ensures var r := ChooseRequest(st, conf, files, fd, prior, priorFile, bytes);
            Exit in r.out ==> r.out == [Exit] && Done(fd) !in r.out
  {
    var r := ChooseRequest(st, conf, files, fd, prior, priorFile, bytes);
    var rd := Wire.ReadMsg(fd, prior, bytes);
    if rd.status == 1 {
      var d := Dispatch(st, conf, files, fd, rd.value, Wire.ReadData(fd, priorFile, rd.rest));
      DispatchHandled(st, conf, files, fd, rd.value, Wire.ReadData(fd, priorFile, rd.rest));
      HandledShape(d.out, fd);
      if Exit !in d.out {
        assert r.out == d.out + [Done(fd)];
        assert Exit !in r.out;
      }
    } else {
      assert r.out == [Close(fd)];
    }
  }

  /** The reading of a `POSTFILE_OP` request whose file part is cut short
      leaves `file` undetermined, and `postFile` goes on to use it. */
  lemma CutFilePartUndefined(st: State, conf: Config.Config, files: Files, fd: int,
                             prior: Message, priorFile: Data, bytes: seq<byte>)
    requires Ready(st, conf) && fd >= 0 && conf.dirName.Some?
    requires Wire.Sendable(prior) && |priorFile.hdr.receiver| == NAME_FIELD
    requires Terminated(fd, prior, bytes)
    requires var rd := Wire.ReadMsg(fd, prior, bytes);
             rd.status == 1 && rd.value.hdr.op == POSTFILE_OP && |rd.rest| < NAME_FIELD
    ensures ChooseRequest(st, conf, files, fd, prior, priorFile, bytes) == Outcome(st, [Undefined(fd), Done(fd)])
  {
    var rd := Wire.ReadMsg(fd, prior, bytes);
    assert Wire.ReadData(fd, priorFile, rd.rest).status == 0;
  }

  /** An output that neither ends the server nor completes the request. */
  predicate Plain(o: Out) {
    o.Reply? || o.Deliver? || o.WriteFile? || o.Close? || o.Undefined?
  }

  /** What a handler sends: the exit alone, or only plain outputs. */
  predicate Handled(out: seq<Out>) {
    (|out| == 1 && out[0] == Exit) || forall i :: 0 <= i < |out| ==> Plain(out[i])
  }

  /** A handled output holds the exit only as `[Exit]`, and never the completion. */
  lemma HandledShape(out: seq<Out>, fd: int)
    requires Handled(out)
    ensures Exit in out <==> out == [Exit]
    ensures Done(fd) !in out
  {
    if out != [Exit] {
      assert forall i :: 0 <= i < |out| ==> Plain(out[i]);
    }
  }

  /** Only the file handlers exit, and no handler writes the completion. */
  lemma DispatchHandled(st: State, conf: Config.Config, files: Files, fd: int, msg: Message, part: Wire.Read<Data>)
    requires Ready(st, conf) && fd >= 0 && WellFormed(msg)
    requires conf.dirName.Some? && (part.status == 1 ==> part.value.hdr.len <= |part.value.buf|)
    ensures Handled(Dispatch(st, conf, files, fd, msg, part).out)
  {
    var op := msg.hdr.op;
    var d := Dispatch(st, conf, files, fd, msg, part);
    if op == REGISTER_OP {
      RegisterHandled(st, conf, fd, NameOf(msg.hdr.sender));
    } else if op == UNREGISTER_OP {
      UnregisterHandled(st, conf, fd, NameOf(msg.data.hdr.receiver));
    } else if op == CONNECT_OP {
      ConnectHandled(st, conf, fd, NameOf(msg.hdr.sender));
    } else if op == POSTTXT_OP {
      PostTextHandled(st, conf, fd, msg);
    } else if op == POSTTXTALL_OP {
      PostTextAllHandled(st, conf, fd, msg);
    } else if op == GETFILE_OP {
      GetFileHandled(st, conf, files, fd, msg);
    } else if op == POSTFILE_OP {
      ReceiveFileHandled(st, conf, files, fd, msg, part);
    } else if op == GETPREVMSGS_OP {
      GetPrevMsgsHandled(st, conf, fd, msg);
    } else {
      assert d.out == [] || (|d.out| == 1 && (d.out[0].Reply? || d.out[0].Deliver? || d.out[0].Undefined?));
    }
  }

  lemma RegisterHandled(st: State, conf: Config.Config, fd: int, nick: Name)
    requires Ready(st, conf) && IsName(nick)
    ensures Handled(RegisterUser(st, conf, fd, nick).out)
  {
  }

  lemma UnregisterHandled(st: State, conf: Config.Config, fd: int, nick: Name)
    requires Ready(st, conf)
    ensures Handled(UnregisterUser(st, conf, fd, nick).out)
  {
  }

  lemma ConnectHandled(st: State, conf: Config.Config, fd: int, nick: Name)
    requires Ready(st, conf) && fd >= 0
    ensures Handled(ConnectUser(st, conf, fd, nick).out)
  {
  }

  lemma GetFileHandled(st: State, conf: Config.Config, files: Files, fd: int, msg: Message)
    requires conf.dirName.Some?
    ensures Handled(GetFile(st, conf, files, fd, msg).out)
  {
  }

  /** Short output lists of plain outputs are handled. */
  lemma PlainOnes(a: Out, b: Out, c: Out)
    requires Plain(a) && Plain(b) && Plain(c)
    ensures Handled([a]) && Handled([a, b]) && Handled([a, b, c])
  {
  }

  lemma PostTextHandled(st: State, conf: Config.Config, fd: int, msg: Message)
    requires Ready(st, conf) && WellFormed(msg)
    ensures Handled(PostText(st, conf, fd, msg).out)
  {
    var r := PostText(st, conf, fd, msg);
    var rcv := NameOf(msg.data.hdr.receiver);
    if rcv in Directory.Keys(st.users) && msg.data.hdr.len <= MsgLimit(conf) {
      var e := Directory.Find(st.users, rcv).value;
      var ok := Ack(fd, msg);
      PlainOnes(Send(e.fd, Text(msg)), ok, ok);
      PlainOnes(ok, ok, ok);
    } else {
      PlainOnes(r.out[0], r.out[0], r.out[0]);
    }
  }

  lemma PostTextAllHandled(st: State, conf: Config.Config, fd: int, msg: Message)
    requires Ready(st, conf) && WellFormed(msg)
    ensures Handled(PostTextAll(st, conf, fd, msg).out)
  {
    var r := PostTextAll(st, conf, fd, msg);
    if msg.data.hdr.len <= MsgLimit(conf) {
      var rs := Broadcast.Recipients(st.users.buckets, |st.users.buckets|, NameOf(msg.hdr.sender));
      var on := Broadcast.OnlineOnes(rs);
      var sent := Sends(on, BroadcastText(msg));
      assert r.out == sent + [Reply(fd, ServerHeader(OP_OK))];
      assert forall i :: 0 <= i < |sent| ==> Plain(sent[i]);
    } else {
      PlainOnes(r.out[0], r.out[0], r.out[0]);
    }
  }

  lemma ReceiveFileHandled(st: State, conf: Config.Config, files: Files, fd: int, msg: Message, part: Wire.Read<Data>)
    requires Ready(st, conf) && WellFormed(msg) && conf.dirName.Some? && (part.status == 1 ==> part.value.hdr.len <= |part.value.buf|)
    ensures Handled(ReceiveFile(st, conf, files, fd, msg, part).out)
  {
    var r := ReceiveFile(st, conf, files, fd, msg, part);
    if part.status != 1 {
      PlainOnes(Undefined(fd), Undefined(fd), Undefined(fd));
    } else if part.value.hdr.len == 0 {
      PlainOnes(r.out[0], Undefined(fd), Undefined(fd));
    } else {
      var file := part.value;
      if NameOf(msg.data.hdr.receiver) in Directory.Keys(st.users) && FileSizeOk(conf, file) && HoldsString(msg.data) {
        if Creatable(files, conf.dirName.value, msg.data.buf) {
          StoreFileHandled(st, conf, fd, msg, file);
        }
      } else if NameOf(msg.data.hdr.receiver) in Directory.Keys(st.users) && FileSizeOk(conf, file) {
        PlainOnes(Undefined(fd), Undefined(fd), Undefined(fd));
      } else {
        PlainOnes(r.out[0], r.out[0], r.out[0]);
      }
    }
  }

  lemma StoreFileHandled(st: State, conf: Config.Config, fd: int, msg: Message, file: Data)
    requires Ready(st, conf) && WellFormed(msg)
    requires NameOf(msg.data.hdr.receiver) in Directory.Keys(st.users)
    requires conf.dirName.Some? && file.hdr.len <= |file.buf|
    ensures Handled(StoreFile(st, conf, fd, msg, file).out)
  {
    var e := Directory.Find(st.users, NameOf(msg.data.hdr.receiver)).value;
    var stored := WriteFile(FilePath(conf.dirName.value, msg.data.buf), file.buf[..file.hdr.len]);
    var ok := Ack(fd, msg);
    PlainOnes(stored, Deliver(e.fd, FileNote(msg)), ok);
    PlainOnes(stored, ok, ok);
  }

  lemma GetPrevMsgsHandled(st: State, conf: Config.Config, fd: int, msg: Message)
    requires Ready(st, conf) && WellFormed(msg)
    ensures Handled(GetPrevMsgs(st, conf, fd, msg).out)
  {
    var r := GetPrevMsgs(st, conf, fd, msg);
    var snd := NameOf(msg.hdr.sender);
    if snd in Directory.Keys(st.users) {
      var q := Directory.Find(st.users, snd).value.queue;
      forall i | 0 <= i < |r.out|
        ensures Plain(r.out[i])
      {
        if i > 0 {
          assert r.out[(i - 1) + 1] == Send(fd, q.slots[i - 1]);
        }
      }
    } else {
      PlainOnes(Undefined(fd), Undefined(fd), Undefined(fd));
    }
  }

  /** `DISCONNECT_OP` touches no counter and sends nothing but the completion. */
  lemma DisconnectKeepsStats(st: State, conf: Config.Config, files: Files, fd: int,
                             prior: Message, priorFile: Data, bytes: seq<byte>)
    requires Ready(st, conf) && fd >= 0 && conf.dirName.Some?
    requires Wire.Sendable(prior) && |priorFile.hdr.receiver| == NAME_FIELD
    requires Terminated(fd, prior, bytes)
    requires Wire.ReadMsg(fd, prior, bytes).status == 1 && Wire.ReadMsg(fd, prior, bytes).value.hdr.op == DISCONNECT_OP
    ensures var r := ChooseRequest(st, conf, files, fd, prior, priorFile, bytes);
            && r.st.stats == st.stats && r.out == [Done(fd)]
            && Directory.Keys(r.st.users) == Directory.Keys(st.users)
  {
  }

  /** An operation code outside the protocol is answered `OP_FAIL` from
      "server" and changes nothing. */
  lemma UnknownOpFails(st: State, conf: Config.Config, files: Files, fd: int,
                       prior: Message, priorFile: Data, bytes: seq<byte>)
    requires Ready(st, conf) && fd >= 0 && conf.dirName.Some?
    requires Wire.Sendable(prior) && |priorFile.hdr.receiver| == NAME_FIELD
    requires Terminated(fd, prior, bytes)
    requires Wire.ReadMsg(fd, prior, bytes).status == 1 && !KnownOp(Wire.ReadMsg(fd, prior, bytes).value.hdr.op)
    ensures var r := ChooseRequest(st, conf, files, fd, prior, priorFile, bytes);
            && r.st == st
            && r.out == [Reply(fd, ServerHeader(OP_FAIL)), Done(fd)]
            && r.out[0].hdr.op == OP_FAIL && NameOf(r.out[0].hdr.sender) == SERVER
  {
  }

  /** Both counters and both views are as before. */
  predicate SameCounts(st: State, st': State)
    requires |st.users.buckets| >= 1 && |st'.users.buckets| >= 1
  {
    && Directory.Keys(st'.users) == Directory.Keys(st.users)
    && Directory.OnlineKeys(st'.users) == Directory.OnlineKeys(st.users)
    && st'.stats.nusers == st.stats.nusers && st'.stats.nonline == st.stats.nonline
  }

  /** The requests that neither register, unregister nor connect anybody
      leave the registry's counts alone. */
  lemma QuietCounts(st: State, conf: Config.Config, files: Files, fd: int, msg: Message, part: Wire.Read<Data>)
    requires Ready(st, conf) && fd >= 0 && WellFormed(msg)
    requires conf.dirName.Some? && (part.status == 1 ==> part.value.hdr.len <= |part.value.buf|)
    requires msg.hdr.op !in {REGISTER_OP, UNREGISTER_OP, CONNECT_OP, DISCONNECT_OP}
    ensures SameCounts(st, Dispatch(st, conf, files, fd, msg, part).st)
  {
    var op := msg.hdr.op;
    if op == POSTTXT_OP {
      PostTextQuiet(st, conf, fd, msg);
    } else if op == POSTTXTALL_OP {
      PostTextAllQuiet(st, conf, fd, msg);
    } else if op == POSTFILE_OP {
      ReceiveFileQuiet(st, conf, files, fd, msg, part);
    }
  }

  lemma PostTextQuiet(st: State, conf: Config.Config, fd: int, msg: Message)
    requires Ready(st, conf) && WellFormed(msg)
    ensures SameCounts(st, PostText(st, conf, fd, msg).st)
  {
  }

  lemma PostTextAllQuiet(st: State, conf: Config.Config, fd: int, msg: Message)
    requires Ready(st, conf) && WellFormed(msg)
    ensures SameCounts(st, PostTextAll(st, conf, fd, msg).st)
  {
    if msg.data.hdr.len <= MsgLimit(conf) {
      PostTextAllPushes(st, conf, fd, msg);
    }
  }

  lemma ReceiveFileQuiet(st: State, conf: Config.Config, files: Files, fd: int, msg: Message, part: Wire.Read<Data>)
    requires Ready(st, conf) && WellFormed(msg) && conf.dirName.Some? && (part.status == 1 ==> part.value.hdr.len <= |part.value.buf|)
    ensures SameCounts(st, ReceiveFile(st, conf, files, fd, msg, part).st)
  {
    if part.status == 1 {
      PostFileQuiet(st, conf, files, fd, msg, part.value);
    }
  }

  lemma PostFileQuiet(st: State, conf: Config.Config, files: Files, fd: int, msg: Message, file: Data)
    requires Ready(st, conf) && WellFormed(msg) && conf.dirName.Some? && file.hdr.len <= |file.buf|
    ensures SameCounts(st, PostFile(st, conf, files, fd, msg, file).st)
  {
    if NameOf(msg.data.hdr.receiver) in Directory.Keys(st.users) && FileSizeOk(conf, file) && HoldsString(msg.data)
       && Creatable(files, conf.dirName.value, msg.data.buf) {
      StoreFileQuiet(st, conf, fd, msg, file);
    }
  }

  lemma StoreFileQuiet(st: State, conf: Config.Config, fd: int, msg: Message, file: Data)
    requires Ready(st, conf) && WellFormed(msg)
    requires NameOf(msg.data.hdr.receiver) in Directory.Keys(st.users)
    requires conf.dirName.Some? && file.hdr.len <= |file.buf|
    ensures SameCounts(st, StoreFile(st, conf, fd, msg, file).st)
  {
  }

  /** `registerUser` keeps both counters exact. */
  lemma RegisterCounted(st: State, conf: Config.Config, fd: int, nick: Name)
    requires Ready(st, conf) && IsName(nick)
    ensures var r := RegisterUser(st, conf, fd, nick);
            && (UsersCounted(st) ==> UsersCounted(r.st))
            && (OnlineCounted(st) ==> OnlineCounted(r.st))
  {
    if nick !in Directory.Keys(st.users) {
      Directory.FindMatchesView(st.users, nick);
    }
  }

  lemma AddOne(s: set<Name>, x: Name)
    ensures |s + {x}| == if x in s then |s| else |s| + 1
  {
    if x in s {
      assert s + {x} == s;
    }
  }

  /** `connectUser` keeps both counters exact. */
  lemma ConnectCounted(st: State, conf: Config.Config, fd: int, nick: Name)
    requires Ready(st, conf) && fd >= 0
    ensures var r := ConnectUser(st, conf, fd, nick);
            && (UsersCounted(st) ==> UsersCounted(r.st))
            && (OnlineCounted(st) ==> OnlineCounted(r.st))
  {
    var r := ConnectUser(st, conf, fd, nick);
    if nick in Directory.Keys(st.users) {
      AddOne(Directory.OnlineKeys(st.users), nick);
    }
  }

  /** `nusers` stays the number of registered users whatever request is
      dispatched. */
  lemma DispatchUsersCounted(st: State, conf: Config.Config, files: Files, fd: int, msg: Message, part: Wire.Read<Data>)
    requires Ready(st, conf) && fd >= 0 && WellFormed(msg)
    requires conf.dirName.Some? && (part.status == 1 ==> part.value.hdr.len <= |part.value.buf|)
    requires UsersCounted(st)
    ensures UsersCounted(Dispatch(st, conf, files, fd, msg, part).st)
  {
    var op := msg.hdr.op;
    if op == REGISTER_OP {
      RegisterCounted(st, conf, fd, NameOf(msg.hdr.sender));
    } else if op == CONNECT_OP {
      ConnectCounted(st, conf, fd, NameOf(msg.hdr.sender));
    } else if op !in {UNREGISTER_OP, DISCONNECT_OP} {
      QuietCounts(st, conf, files, fd, msg, part);
    }
  }

  /** `nonline` stays the number of online users under every dispatched
      request except `UNREGISTER_OP` and `DISCONNECT_OP`. */
  lemma DispatchOnlineCounted(st: State, conf: Config.Config, files: Files, fd: int, msg: Message, part: Wire.Read<Data>)
    requires Ready(st, conf) && fd >= 0 && WellFormed(msg)
    requires conf.dirName.Some? && (part.status == 1 ==> part.value.hdr.len <= |part.value.buf|)
    requires OnlineCounted(st) && msg.hdr.op != UNREGISTER_OP && msg.hdr.op != DISCONNECT_OP
    ensures OnlineCounted(Dispatch(st, conf, files, fd, msg, part).st)
  {
    var op := msg.hdr.op;
    if op == REGISTER_OP {
      RegisterCounted(st, conf, fd, NameOf(msg.hdr.sender));
    } else if op == CONNECT_OP {
      ConnectCounted(st, conf, fd, NameOf(msg.hdr.sender));
    } else {
      QuietCounts(st, conf, files, fd, msg, part);
    }
  }

  /** `nusers` stays the number of registered users whatever request runs. */
  lemma UsersCountedKept(st: State, conf: Config.Config, files: Files, fd: int,
                         prior: Message, priorFile: Data, bytes: seq<byte>)
    requires Ready(st, conf) && fd >= 0 && conf.dirName.Some?
    requires Wire.Sendable(prior) && |priorFile.hdr.receiver| == NAME_FIELD
    requires Terminated(fd, prior, bytes)
    requires UsersCounted(st)
    ensures UsersCounted(ChooseRequest(st, conf, files, fd, prior, priorFile, bytes).st)
  {
    var rd := Wire.ReadMsg(fd, prior, bytes);
    if rd.status == 1 {
      DispatchUsersCounted(st, conf, files, fd, rd.value, Wire.ReadData(fd, priorFile, rd.rest));
    }
  }

  /** `nonline` stays the number of online users under every request except
      `UNREGISTER_OP` and `DISCONNECT_OP`, the end of the stream included. */
  lemma OnlineCountedKept(st: State, conf: Config.Config, files: Files, fd: int,
                          prior: Message, priorFile: Data, bytes: seq<byte>)
    requires Ready(st, conf) && fd >= 0 && conf.dirName.Some?
    requires Wire.Sendable(prior) && |priorFile.hdr.receiver| == NAME_FIELD
    requires Terminated(fd, prior, bytes)
    requires OnlineCounted(st)
    requires var rd := Wire.ReadMsg(fd, prior, bytes);
             rd.status == 1 ==> rd.value.hdr.op != UNREGISTER_OP && rd.value.hdr.op != DISCONNECT_OP
    ensures OnlineCounted(ChooseRequest(st, conf, files, fd, prior, priorFile, bytes).st)
  {
    var rd := Wire.ReadMsg(fd, prior, bytes);
    if rd.status == 0 {
      EndOfStream(st, conf, files, fd, prior, priorFile, bytes);
    } else {
      DispatchOnlineCounted(st, conf, files, fd, rd.value, Wire.ReadData(fd, priorFile, rd.rest));
    }
  }

  /** `unregisterUser` decrements `nonline` even when the user was offline, so
      the counter falls below the number of online users. */
  lemma UnregisterOfflineDrifts(st: State, conf: Config.Config, fd: int, nick: Name)
    requires Ready(st, conf) && OnlineCounted(st)
    requires nick in Directory.Keys(st.users) && nick !in Directory.OnlineKeys(st.users)
    ensures var r := UnregisterUser(st, conf, fd, nick);
            r.st.stats.nonline == |Directory.OnlineKeys(r.st.users)| - 1 && !OnlineCounted(r.st)
  {
    var r := UnregisterUser(st, conf, fd, nick);
    assert Directory.OnlineKeys(r.st.users) == Directory.OnlineKeys(st.users);
  }

  /** `DISCONNECT_OP` takes the user bound to `fd` offline without decrementing
      `nonline`, so the counter rises above the number of online users. */
  lemma DisconnectDrifts(st: State, conf: Config.Config, fd: int)
    requires Ready(st, conf) && fd >= 0 && OnlineCounted(st) && Directory.HasFd(st.users, fd)
    ensures var r := Disconnect(st, conf, fd);
            r.st.stats.nonline == |Directory.OnlineKeys(r.st.users)| + 1 && !OnlineCounted(r.st)
  {
    var r := Disconnect(st, conf, fd);
    assert |Directory.OnlineKeys(r.st.users)| == |Directory.OnlineKeys(st.users)| - 1;
  }

  /** The listener's admission test: a connection is served only while
      `nonline` is below `MaxConnections`; otherwise it gets `OP_FAIL`. The
      counter is an `unsigned long` and the `int` setting is converted to it,
      so both sides compare modulo 2^64. */
  function Admit(st: State, conf: Config.Config, fd: int): (r: Option<Out>)
    ensures r.None? <==> ToU64(st.stats.nonline) < ToU64(conf.maxConnections)
    ensures 0 <= st.stats.nonline < U64_LIMIT && 0 <= conf.maxConnections < U64_LIMIT ==>
              (r.None? <==> st.stats.nonline < conf.maxConnections)
    ensures r.Some? ==> && r.value.Reply? && r.value.fd == fd && r.value.hdr.op == OP_FAIL
                        && FieldOk(r.value.hdr.sender) && NameOf(r.value.hdr.sender) == SERVER
  {
    if ToU64(st.stats.nonline) >= ToU64(conf.maxConnections) then Some(Reply(fd, ServerHeader(OP_FAIL))) else None
  }

  /** Once `nonline` has gone below 0 (by `unregisterUser` of an offline
      user) the `unsigned long` counter has wrapped to near 2^64, and every
      request on every connection is refused. */
  lemma WrappedCounterRefuses(st: State, conf: Config.Config, fd: int)
    requires -U64_LIMIT / 2 <= st.stats.nonline < 0 && 0 <= conf.maxConnections < U64_LIMIT / 2
    ensures Admit(st, conf, fd).Some?
  {
  }

  /** With nobody online, unregistering a user takes the counter to -1, after
      which the listener refuses every request. */
  lemma UnregisterLocksOut(st: State, conf: Config.Config, fd: int, nick: Name, later: int)
    requires Ready(st, conf) && OnlineCounted(st) && Directory.OnlineKeys(st.users) == {}
    requires nick in Directory.Keys(st.users) && conf.maxConnections < U64_LIMIT / 2
    ensures var r := UnregisterUser(st, conf, fd, nick);
            r.st.stats.nonline == -1 && Admit(r.st, conf, later).Some?
  {
    UnregisterOfflineDrifts(st, conf, fd, nick);
    var r := UnregisterUser(st, conf, fd, nick);
    WrappedCounterRefuses(r.st, conf, later);
  }

  /** The as-written listing on an admitted connection: with `nonline` exact
      at `MaxConnections - 1`, registering a new nickname is admitted and
      brings the online users to `MaxConnections`, where the listing writes
      its terminator past the buffer. */
  lemma AdmittedRegisterOverruns(st: State, conf: Config.Config, fd: int, nick: Name)
    requires Ready(st, conf) && OnlineCounted(st) && conf.maxConnections < U64_LIMIT
    requires st.stats.nonline == conf.maxConnections - 1
    requires IsName(nick) && nick != [] && nick !in Directory.Keys(st.users) && [] !in Directory.Keys(st.users)
    ensures Admit(st, conf, fd).None?
    ensures RegisterUser(st, conf, fd, nick).out == [Undefined(fd)]
  {
    var r := RegisterUser(st, conf, fd, nick);
    assert [] !in Directory.Keys(r.st.users);
    OnlineUsersAreOnlineKeys(r.st.users);
    AddOne(Directory.OnlineKeys(st.users), nick);
  }

  /** The corrected listing is sent once the online users fit in
      `MaxConnections` name fields and `nonline` does not exceed them. */
  lemma FixedListingDefined(st: State, conf: Config.Config, fd: int)
    requires Directory.Valid(st.users) && EntriesOk(st.users) && conf.maxConnections >= 0
    requires |Directory.OnlineKeys(st.users)| <= conf.maxConnections
    requires 0 <= st.stats.nonline <= conf.maxConnections
    ensures FixedUsrList(st, conf, fd).Deliver?
  {
    OnlineUsersBound(st.users);
    LengthBound(st.stats.nonline);
    FieldsFit(st.stats.nonline, conf.maxConnections);
  }

  /** The announced length never exceeds the fields of the counted users. */
  lemma LengthBound(n: int)
    requires 0 <= n
    ensures ListLength(n) <= n * NAME_FIELD
  {
  }

  /** The as-written listing is sent once fewer users are online than
      `MaxConnections` and `nonline` does not exceed `MaxConnections`. */
  lemma ListingDefined(st: State, conf: Config.Config, fd: int)
    requires Directory.Valid(st.users) && EntriesOk(st.users)
    requires |Directory.OnlineKeys(st.users)| < conf.maxConnections
    requires 0 <= st.stats.nonline <= conf.maxConnections
    ensures UsrList(st, conf, fd).Deliver?
  {
    FixedListingDefined(st, conf, fd);
    OnlineUsersBound(st.users);
    UsrListAgrees(st, conf, fd);
  }

  /** The listing of a state whose exact `nonline` is at most
      `MaxConnections`: the corrected one is sent, and the as-written one
      is undefined only when the online users fill every field. */
  lemma CountedListing(st: State, conf: Config.Config, fd: int)
    requires Directory.Valid(st.users) && EntriesOk(st.users) && conf.maxConnections >= 0
    requires OnlineCounted(st) && st.stats.nonline <= conf.maxConnections
    ensures FixedUsrList(st, conf, fd).Deliver?
    ensures UsrList(st, conf, fd).Undefined? ==> |Directory.OnlineUsers(st.users)| == conf.maxConnections
  {
    FixedListingDefined(st, conf, fd);
    UsrListAgrees(st, conf, fd);
  }

  /** `registerUser` below the limit leaves an exact counter within it. */
  lemma RegisterStaysWithin(st: State, conf: Config.Config, fd: int, nick: Name)
    requires Ready(st, conf) && IsName(nick) && OnlineCounted(st) && st.stats.nonline < conf.maxConnections
    ensures var r := RegisterUser(st, conf, fd, nick);
            && OnlineCounted(r.st) && r.st.stats.nonline <= conf.maxConnections
            && (Undefined(fd) in r.out ==> r.out == [UsrList(r.st, conf, fd)])
  {
    AddOne(Directory.OnlineKeys(st.users), nick);
  }

  /** `connectUser` below the limit leaves an exact counter within it. */
  lemma ConnectStaysWithin(st: State, conf: Config.Config, fd: int, nick: Name)
    requires Ready(st, conf) && fd >= 0 && OnlineCounted(st) && st.stats.nonline < conf.maxConnections
    ensures var r := ConnectUser(st, conf, fd, nick);
            && OnlineCounted(r.st) && r.st.stats.nonline <= conf.maxConnections
            && (Undefined(fd) in r.out ==> r.out == [UsrList(r.st, conf, fd)])
  {
    AddOne(Directory.OnlineKeys(st.users), nick);
  }

  /** `registerUser` below the limit: the corrected listing is sent, and the
      as-written one is undefined only when the users fill every field. */
  lemma RegisterListingFits(st: State, conf: Config.Config, fd: int, nick: Name)
    requires Ready(st, conf) && IsName(nick) && OnlineCounted(st) && st.stats.nonline < conf.maxConnections
    ensures var r := RegisterUser(st, conf, fd, nick);
            && FixedUsrList(r.st, conf, fd).Deliver?
            && (Undefined(fd) in r.out ==> |Directory.OnlineUsers(r.st.users)| == conf.maxConnections)
  {
    RegisterStaysWithin(st, conf, fd, nick);
    CountedListing(RegisterUser(st, conf, fd, nick).st, conf, fd);
  }

  /** `connectUser` below the limit: the corrected listing is sent, and the
      as-written one is undefined only when the users fill every field. */
  lemma ConnectListingFits(st: State, conf: Config.Config, fd: int, nick: Name)
    requires Ready(st, conf) && fd >= 0 && OnlineCounted(st) && st.stats.nonline < conf.maxConnections
    ensures var r := ConnectUser(st, conf, fd, nick);
            && FixedUsrList(r.st, conf, fd).Deliver?
            && (Undefined(fd) in r.out ==> |Directory.OnlineUsers(r.st.users)| == conf.maxConnections)
  {
    ConnectStaysWithin(st, conf, fd, nick);
    CountedListing(ConnectUser(st, conf, fd, nick).st, conf, fd);
  }

  /** What a listing request does on an admitted connection while `nonline`
      is exact: the corrected listing of the resulting state is sent, and the
      as-written handler is undefined only when the online users fill all
      `MaxConnections` fields. */
  lemma AdmittedListingFits(st: State, conf: Config.Config, files: Files, fd: int, msg: Message, part: Wire.Read<Data>)
    requires Ready(st, conf) && fd >= 0 && WellFormed(msg)
    requires conf.dirName.Some? && (part.status == 1 ==> part.value.hdr.len <= |part.value.buf|)
    requires OnlineCounted(st) && Admit(st, conf, fd).None?
    requires st.stats.nonline < U64_LIMIT && conf.maxConnections < U64_LIMIT
    requires msg.hdr.op in {REGISTER_OP, CONNECT_OP, USRLIST_OP}
    ensures var r := Dispatch(st, conf, files, fd, msg, part);
            && FixedUsrList(r.st, conf, fd).Deliver?
            && (Undefined(fd) in r.out ==> |Directory.OnlineUsers(r.st.users)| == conf.maxConnections)
  {
    assert st.stats.nonline < conf.maxConnections;
    var op := msg.hdr.op;
    if op == REGISTER_OP {
      RegisterListingFits(st, conf, fd, NameOf(msg.hdr.sender));
    } else if op == CONNECT_OP {
      ConnectListingFits(st, conf, fd, NameOf(msg.hdr.sender));
    } else {
      CountedListing(st, conf, fd);
    }
  }
}

=== FILE: config.dfy ===
/**
  The configuration file reader (`parseConfigurationFile`, utility.c). The
  file is a sequence of lines, each as `fgets` returns it (with its newline).
  A line starting with `#` or a blank is skipped; otherwise its key is the
  leading run of letters and its value the first blank-free word after the
  first `=`. Eight keys are recognised; the others are ignored, and a later
  line for a key overrides an earlier one.
 */
module Config {
  import opened Wrappers

  /** `config_t`: the three paths and the five numeric settings. */
  datatype Config = Config(
    unixPath: Option<string>,
    maxConnections: int,
    threadsInPool: int,
    maxMsgSize: int,
    maxFileSize: int,
    maxHistMsgs: int,
    dirName: Option<string>,
    statFileName: Option<string>)

  /** What every field holds before the first line is read. */
  const Defaults: Config := Config(None, 0, 0, 0, 0, 0, None, None)

  /** `isspace`, `isalpha` and `isdigit` in the C locale. */
  predicate IsSpace(c: char) {
    c == ' ' || c == '\t' || c == '\n' || c == '\U{B}' || c == '\U{C}' || c == '\r'
  }

  predicate IsAlpha(c: char) {
    ('a' <= c <= 'z') || ('A' <= c <= 'Z')
  }

  predicate IsDigit(c: char) {
    '0' as int <= c as int <= '9' as int
  }

  /** The length of the longest prefix of `s` made of letters. */
  function AlphaRun(s: string): (n: nat)
    ensures n <= |s|
    ensures forall k :: 0 <= k < n ==> IsAlpha(s[k])
    ensures n < |s| ==> !IsAlpha(s[n])
  {
    if |s| == 0 || !IsAlpha(s[0]) then 0 else 1 + AlphaRun(s[1..])
  }

  /** The length of the longest prefix of `s` made of blanks. */
  function SpaceRun(s: string): (n: nat)
    ensures n <= |s|
    ensures forall k :: 0 <= k < n ==> IsSpace(s[k])
    ensures n < |s| ==> !IsSpace(s[n])
  {
    if |s| == 0 || !IsSpace(s[0]) then 0 else 1 + SpaceRun(s[1..])
  }

  /** The length of the longest prefix of `s` without blanks. */
  function WordRun(s: string): (n: nat)
    ensures n <= |s|
    ensures forall k :: 0 <= k < n ==> !IsSpace(s[k])
    ensures n < |s| ==> IsSpace(s[n])
  {
    if |s| == 0 || IsSpace(s[0]) then 0 else 1 + WordRun(s[1..])
  }

  /** The length of the longest prefix of `s` made of decimal digits. */
  function DigitRun(s: string): (n: nat)
    ensures n <= |s|
    ensures forall k :: 0 <= k < n ==> IsDigit(s[k])
    ensures n < |s| ==> !IsDigit(s[n])
  {
    if |s| == 0 || !IsDigit(s[0]) then 0 else 1 + DigitRun(s[1..])
  }

  /** `strchr`: the position of the first `c` in `s`. */
  function IndexOf(s: string, c: char): (i: nat)
    requires c in s
    ensures i < |s| && s[i] == c
    ensures forall k :: 0 <= k < i ==> s[k] != c
  {
    if s[0] == c then 0 else 1 + IndexOf(s[1..], c)
  }

  /** A line the loop skips: a comment or one starting with a blank. */
  predicate Skipped(line: string) {
    |line| > 0 && (line[0] == '#' || IsSpace(line[0]))
  }

  /** The text after the first `=` with its leading blanks removed. */
  function AfterEquals(line: string): string
    requires '=' in line
  {
    var rest := line[IndexOf(line, '=') + 1..];
    rest[SpaceRun(rest)..]
  }

  /** A line the loop can take apart: no NUL, and if not skipped, an `=`
      (without it the code dereferences NULL). */
  predicate Parsable(line: string) {
    && '\0' !in line
    && (Skipped(line) || '=' in line)
  }

  /** The key and value a line sets, or `None` for a skipped line: the key is
      the leading run of letters, the value the text after the `=` and its
      blanks, up to the next blank or the end of the line. */
  function ParseLine(line: string): (r: Option<(string, string)>)
    requires Parsable(line)
    ensures r.None? <==> Skipped(line)
    ensures r.Some? ==>
              var (key, value) := r.value;
              && key <= line && (forall k :: 0 <= k < |key| ==> IsAlpha(key[k]))
              && (|key| < |line| ==> !IsAlpha(line[|key|]))
              && value <= AfterEquals(line)
              && (|value| < |AfterEquals(line)| ==> IsSpace(AfterEquals(line)[|value|]))
              && (forall k :: 0 <= k < |value| ==> !IsSpace(value[k]))
  {
    if Skipped(line) then None
    else
      var v := AfterEquals(line);
      Some((line[..AlphaRun(line)], v[..WordRun(v)]))
  }

  /** The size of the buffer `fgets` reads each line into. */
  const MAX_BUF_LENGTH: nat := 256

  /** The value as the C loop finds it in the `fgets` buffer, which holds the
      line, its terminator and then `stale`, whatever the buffer held before.
      The scan for the blank that ends the value does not stop at the
      terminator: when no blank follows anywhere in the buffer it runs past
      the buffer's end (`None`, undefined behaviour); otherwise the value is
      the text up to the blank or the terminator, whichever comes first. */
  function BufferedValue(line: string, stale: string): (r: Option<string>)
    requires Parsable(line) && !Skipped(line) && |line| + 1 + |stale| == MAX_BUF_LENGTH
    ensures r.None? <==> && (forall k :: 0 <= k < |AfterEquals(line)| ==> !IsSpace(AfterEquals(line)[k]))
                         && (forall k :: 0 <= k < |stale| ==> !IsSpace(stale[k]))
    ensures r.Some? ==> r.value <= AfterEquals(line)
  {
    BufferAfterValue(line, stale);
    var start := |line| - |AfterEquals(line)|;
    var v := (line + ['\0'] + stale)[start..];
    var n := WordRun(v);
    if n == |v| then
      BlankFreeParts(AfterEquals(line), stale);
      None
    else if n <= |AfterEquals(line)| then Some(v[..n])
    else Some(AfterEquals(line))
  }

  /** A blank-free buffer `a`, terminator, `b` has blank-free parts. */
  lemma BlankFreeParts(a: string, b: string)
    requires forall k :: 0 <= k < |a + (['\0'] + b)| ==> !IsSpace((a + (['\0'] + b))[k])
    ensures forall k :: 0 <= k < |a| ==> !IsSpace(a[k])
    ensures forall k :: 0 <= k < |b| ==> !IsSpace(b[k])
  {
    var v := a + (['\0'] + b);
    forall k | 0 <= k < |a| ensures !IsSpace(a[k]) {
      assert v[k] == a[k];
    }
    forall k | 0 <= k < |b| ensures !IsSpace(b[k]) {
      assert v[|a| + 1 + k] == b[k];
    }
  }

  /** The first blank of `a + b` is the first blank of `a` when `a` has one. */
  lemma WordRunPrefix(a: string, b: string)
    requires exists k :: 0 <= k < |a| && IsSpace(a[k])
    ensures WordRun(a + b) == WordRun(a)
  {
    var k :| 0 <= k < |a| && IsSpace(a[k]);
    var n, m := WordRun(a + b), WordRun(a);
    assert m <= k && (a + b)[m] == a[m];
  }

  /** The buffer from the value's start on: the rest of the line, then the
      terminator and the stale bytes. */
  lemma BufferAfterValue(line: string, stale: string)
    requires Parsable(line) && !Skipped(line)
    ensures |AfterEquals(line)| <= |line|
    ensures (line + ['\0'] + stale)[|line| - |AfterEquals(line)|..] == AfterEquals(line) + (['\0'] + stale)
  {
    var a := AfterEquals(line);
    assert line[|line| - |a|..] == a;
  }

  /** With a blank after the value (such as the newline) the scan stops inside
      the line and finds the value `ParseLine` gives. */
  lemma BufferedValueAgrees(line: string, stale: string)
    requires Parsable(line) && !Skipped(line) && |line| + 1 + |stale| == MAX_BUF_LENGTH
    requires exists k :: 0 <= k < |AfterEquals(line)| && IsSpace(AfterEquals(line)[k])
    ensures BufferedValue(line, stale) == Some(ParseLine(line).value.1)
  {
    var a := AfterEquals(line);
    BufferAfterValue(line, stale);
    var v := a + (['\0'] + stale);
    WordRunPrefix(a, ['\0'] + stale);
    var n := WordRun(a);
    assert n < |a| && WordRun(v) == n;
    assert v[..n] == a[..n];
    assert BufferedValue(line, stale) == Some(v[..n]);
  }

  /** A last line without a newline whose value runs to the end of the line,
      in a buffer with no blank after its terminator, sends the scan past the
      buffer's end, while the value is plain to read. */
  lemma UnterminatedLineOverruns(line: string, stale: string)
    requires Parsable(line) && !Skipped(line) && |line| + 1 + |stale| == MAX_BUF_LENGTH
    requires forall k :: 0 <= k < |AfterEquals(line)| ==> !IsSpace(AfterEquals(line)[k])
    requires forall k :: 0 <= k < |stale| ==> !IsSpace(stale[k])
    ensures BufferedValue(line, stale).None?
    ensures ParseLine(line).value.1 == AfterEquals(line)
  {
    var a := AfterEquals(line);
    BufferAfterValue(line, stale);
    var v := a + (['\0'] + stale);
    forall k | 0 <= k < |v| ensures !IsSpace(v[k]) {
      if k > |a| {
        assert v[k] == stale[k - |a| - 1];
      }
    }
  }

  function DigitValue(c: char): (d: nat)
    requires IsDigit(c)
    ensures d <= 9
  {
    c as int - '0' as int
  }

  /** The value of the digits in `s`, most significant first. */
  function DigitsValue(s: string): (n: nat)
    requires forall k :: 0 <= k < |s| ==> IsDigit(s[k])
  {
    if |s| == 0 then 0 else 10 * DigitsValue(s[..|s| - 1]) + DigitValue(s[|s| - 1])
  }

  /** `atoi`: leading blanks, an optional sign, then the longest run of digits. */
  function Atoi(s: string): int {
    var t := s[SpaceRun(s)..];
    if |t| > 0 && (t[0] == '-' || t[0] == '+') then
      var d := t[1..][..DigitRun(t[1..])];
      if t[0] == '-' then -(DigitsValue(d) as int) else DigitsValue(d)
    else
      DigitsValue(t[..DigitRun(t)])
  }

  /** Records one setting; an unknown key changes nothing. */
  function Set(c: Config, key: string, value: string): Config {
    if key == "UnixPath" then c.(unixPath := Some(value))
    else if key == "MaxConnections" then c.(maxConnections := Atoi(value))
    else if key == "ThreadsInPool" then c.(threadsInPool := Atoi(value))
    else if key == "MaxMsgSize" then c.(maxMsgSize := Atoi(value))
    else if key == "MaxFileSize" then c.(maxFileSize := Atoi(value))
    else if key == "MaxHistMsgs" then c.(maxHistMsgs := Atoi(value))
    else if key == "DirName" then c.(dirName := Some(value))
    else if key == "StatFileName" then c.(statFileName := Some(value))
    else c
  }

  predicate AllParsable(lines: seq<string>) {
    forall i :: 0 <= i < |lines| ==> Parsable(lines[i])
  }

  /** `parseConfigurationFile`: the defaults, then every line in file order. */
  function ParseConfiguration(lines: seq<string>): Config
    requires AllParsable(lines)
  {
    if lines == [] then Defaults
    else
      var before := ParseConfiguration(lines[..|lines| - 1]);
      match ParseLine(lines[|lines| - 1])
      case None => before
      case Some((key, value)) => Set(before, key, value)
  }

  /** The value the last line setting `key` gives it, if any line does. */
  function LastSetting(lines: seq<string>, key: string): (r: Option<string>)
    requires AllParsable(lines)
    ensures r.Some? <==> exists i :: 0 <= i < |lines| && ParseLine(lines[i]).Some? && ParseLine(lines[i]).value.0 == key
  {
    if lines == [] then None
    else
      var last := ParseLine(lines[|lines| - 1]);
      if last.Some? && last.value.0 == key then Some(last.value.1)
      else
        var r := LastSetting(lines[..|lines| - 1], key);
        assert forall i :: 0 <= i < |lines| - 1 ==> lines[..|lines| - 1][i] == lines[i];
        r
  }

  /** A path setting: the last value given, or NULL when no line sets it. */
  function PathSetting(lines: seq<string>, key: string): Option<string>
    requires AllParsable(lines)
  {
    LastSetting(lines, key)
  }

  /** A numeric setting: `atoi` of the last value given, or 0 when no line sets it. */
  function NumberSetting(lines: seq<string>, key: string): int
    requires AllParsable(lines)
  {
    match LastSetting(lines, key)
    case None => 0
    case Some(v) => Atoi(v)
  }

  /** What `Set` does to each field. */
  lemma SetFields(c: Config, key: string, value: string)
    ensures var d := Set(c, key, value);
            && d.unixPath == (if key == "UnixPath" then Some(value) else c.unixPath)
            && d.maxConnections == (if key == "MaxConnections" then Atoi(value) else c.maxConnections)
            && d.threadsInPool == (if key == "ThreadsInPool" then Atoi(value) else c.threadsInPool)
            && d.maxMsgSize == (if key == "MaxMsgSize" then Atoi(value) else c.maxMsgSize)
            && d.maxFileSize == (if key == "MaxFileSize" then Atoi(value) else c.maxFileSize)
            && d.maxHistMsgs == (if key == "MaxHistMsgs" then Atoi(value) else c.maxHistMsgs)
            && d.dirName == (if key == "DirName" then Some(value) else c.dirName)
            && d.statFileName == (if key == "StatFileName" then Some(value) else c.statFileName)
  {
  }

  /** Every field of the parsed configuration is set by the last line naming
      its key, and keeps its default when no line does. */
  lemma {:induction false} ParseConfigurationIsLastSetting(lines: seq<string>)
    requires AllParsable(lines)
    ensures var c := ParseConfiguration(lines);
            && c.unixPath == PathSetting(lines, "UnixPath")
            && c.maxConnections == NumberSetting(lines, "MaxConnections")
            && c.threadsInPool == NumberSetting(lines, "ThreadsInPool")
            && c.maxMsgSize == NumberSetting(lines, "MaxMsgSize")
            && c.maxFileSize == NumberSetting(lines, "MaxFileSize")
            && c.maxHistMsgs == NumberSetting(lines, "MaxHistMsgs")
            && c.dirName == PathSetting(lines, "DirName")
            && c.statFileName == PathSetting(lines, "StatFileName")
  {
    if lines != [] {
      var init := lines[..|lines| - 1];
      ParseConfigurationIsLastSetting(init);
      var last := ParseLine(lines[|lines| - 1]);
      if last.Some? {
        SetFields(ParseConfiguration(init), last.value.0, last.value.1);
      }
    }
  }

  /** Lines that set none of the eight keys leave the defaults in place. */
  lemma NoSettingsKeepsDefaults(lines: seq<string>)
    requires AllParsable(lines)
    requires forall i :: 0 <= i < |lines| ==> ParseLine(lines[i]).None?
    ensures ParseConfiguration(lines) == Defaults
  {
    ParseConfigurationIsLastSetting(lines);
  }

  /** The decimal digits of `n`. */
  function Decimal(n: nat): (s: string)
    ensures |s| >= 1 && forall k :: 0 <= k < |s| ==> IsDigit(s[k])
  {
    var d := ['0' + (n % 10) as char];
    if n < 10 then d else Decimal(n / 10) + d
  }

  /** The decimal writing of `n`, with a minus sign when negative. */
  function Show(n: int): string {
    if n < 0 then "-" + Decimal(-n) else Decimal(n)
  }

  lemma {:induction false} DigitsValueOfDecimal(n: nat)
    ensures DigitsValue(Decimal(n)) == n
  {
    var s := Decimal(n);
    if n >= 10 {
      DigitsValueOfDecimal(n / 10);
      assert s[..|s| - 1] == Decimal(n / 10);
    }
  }

  lemma DigitRunAll(s: string)
    requires forall k :: 0 <= k < |s| ==> IsDigit(s[k])
    ensures DigitRun(s) == |s|
  {
  }

  /** `atoi` reads back every integer written in decimal. */
  lemma AtoiOfShow(n: int)
    ensures Atoi(Show(n)) == n
  {
    var s := Show(n);
    assert SpaceRun(s) == 0 by {
      assert !IsSpace(s[0]);
    }
    var m: nat := if n < 0 then -n else n;
    DigitsValueOfDecimal(m);
    DigitRunAll(Decimal(m));
    if n < 0 {
      assert s[SpaceRun(s)..] == s && s[0] == '-';
      assert s[1..] == Decimal(m);
      assert s[1..][..DigitRun(s[1..])] == Decimal(m);
    } else {
      assert s[SpaceRun(s)..] == s && IsDigit(s[0]);
      assert s[0] != '-' && s[0] != '+';
      assert s[..DigitRun(s)] == s;
    }
  }
}

=== FILE: directory.dfy ===
/**
  The directory of registered users (icl_hash.c): a chained hash table from
  nickname to an entry holding the user's connection, an online flag and the
  user's message history. Chains are kept as sequences in chain order from the
  bucket's head; the table is split into `npartitions` partitions, bucket `i`
  belonging to partition `i % npartitions`.

  `Keys` and `OnlineKeys` are the abstract view of a table: the registered
  nicknames and the nicknames whose entry is online. Every operation is stated
  against `Find` (the bucket search the C code performs) and that view.
 */
module Directory {
  import opened Wrappers
  import opened Bytes
  import opened Messages
  import History

  type Name = seq<byte>

  /** `icl_entry_t`, without its `next` link. */
  datatype Entry = Entry(key: Name, fd: int, online: bool, queue: History.Queue<Message>)

  /** `icl_hash_t`: `nbuckets` is `|buckets|`. */
  datatype Table = Table(buckets: seq<seq<Entry>>, npartitions: int, nentries: int)

  // ---------------------------------------------------------------------------
  // hash_pjw, for a 32-bit `unsigned int` and a signed `char`

  /** `~(~0u >> ONE_EIGHTH)` with `ONE_EIGHTH == 4`: the top four bits. */
  const HIGH_BITS: bv32 := 0xF000_0000

  /** A `char` promoted to `int` and then to `unsigned int`: bytes above 127 are
      negative as a signed `char` and so sign-extend. */
  function CharBits(c: byte): bv32 {
    if c < 128 then c as bv32 else (c + 0xFFFF_FF00) as bv32
  }

  /** One iteration of the loop in `hash_pjw` (`THREE_QUARTERS == 24`). */
  function HashStep(h: bv32, c: byte): (r: bv32)
    ensures r & HIGH_BITS == 0
  {
    var h1 := (h << 4) + CharBits(c);
    var i := h1 & HIGH_BITS;
    if i != 0 then (h1 ^ (i >> 24)) & !HIGH_BITS else h1
  }

  /** `hash_pjw` over the characters of `key`, first to last. */
  function HashPjw(key: Name): (r: bv32)
    ensures r & HIGH_BITS == 0
    ensures key == [] ==> r == 0
    decreases |key|
  {
    if key == [] then 0 else HashStep(HashPjw(key[..|key| - 1]), key[|key| - 1])
  }

  /** The bucket `hash_pjw(key) % nbuckets`. */
  function Bucket(key: Name, nbuckets: int): (i: int)
    requires nbuckets >= 1
    ensures 0 <= i < nbuckets
  {
    (HashPjw(key) as int) % nbuckets
  }

  // ---------------------------------------------------------------------------
  // invariants and the abstract view

  /** Total number of entries in the buckets. */
  function Size(bs: seq<seq<Entry>>): nat {
    if bs == [] then 0 else Size(bs[..|bs| - 1]) + |bs[|bs| - 1]|
  }

  predicate ChainUnique(c: seq<Entry>) {
    forall j, k :: 0 <= j < k < |c| ==> c[j].key != c[k].key
  }

  /** Each key sits in the bucket its hash selects. */
  predicate Placed(bs: seq<seq<Entry>>)
    requires |bs| >= 1
  {
    forall i, j :: 0 <= i < |bs| && 0 <= j < |bs[i]| ==> Bucket(bs[i][j].key, |bs|) == i
  }

  /** No key occurs twice in a chain. */
  predicate ChainsUnique(bs: seq<seq<Entry>>) {
    forall i :: 0 <= i < |bs| ==> ChainUnique(bs[i])
  }

  /** Every history is a well-formed queue. */
  predicate QueuesValid(bs: seq<seq<Entry>>) {
    forall i, j :: 0 <= i < |bs| && 0 <= j < |bs[i]| ==> History.Valid(bs[i][j].queue)
  }

  /** The invariant `icl_hash_create` establishes and every operation keeps;
      `nentries` counts the entries. */
  predicate Valid(t: Table) {
    && KeysPlaced(t)
    && 1 <= t.npartitions <= |t.buckets|
    && QueuesValid(t.buckets)
    && t.nentries == Size(t.buckets)
  }

  /** The part of `Valid` that makes every key occur at one position only. */
  predicate KeysPlaced(t: Table) {
    |t.buckets| >= 1 && Placed(t.buckets) && ChainsUnique(t.buckets)
  }

  /** The registered nicknames. */
  function Keys(t: Table): set<Name> {
    set i, j | 0 <= i < |t.buckets| && 0 <= j < |t.buckets[i]| :: t.buckets[i][j].key
  }

  /** The nicknames whose entry is online. */
  function OnlineKeys(t: Table): set<Name> {
    set i, j | 0 <= i < |t.buckets| && 0 <= j < |t.buckets[i]| && t.buckets[i][j].online
      :: t.buckets[i][j].key
  }

  // ---------------------------------------------------------------------------
  // chain search

  /** Position of the first entry of chain `c` with key `key`, or -1. */
  function IndexIn(c: seq<Entry>, key: Name): (j: int)
    ensures -1 <= j < |c|
    ensures j >= 0 ==> c[j].key == key
    ensures j >= 0 ==> forall k :: 0 <= k < j ==> c[k].key != key
    ensures j == -1 ==> forall k :: 0 <= k < |c| ==> c[k].key != key
  {
    if c == [] then -1
    else if c[0].key == key then 0
    else
      var j := IndexIn(c[1..], key);
      if j < 0 then -1 else j + 1
  }

  /** The entry a search of chain `c` for `key` returns. */
  function Lookup(c: seq<Entry>, key: Name): Option<Entry> {
    var j := IndexIn(c, key);
    if j < 0 then None else Some(c[j])
  }

  /** In a chain without repeated keys, the search finds the entry at any position holding the key. */
  lemma LookupAt(c: seq<Entry>, j: int)
    requires ChainUnique(c) && 0 <= j < |c|
    ensures Lookup(c, c[j].key) == Some(c[j])
  {
  }

  lemma LookupMissing(c: seq<Entry>, key: Name)
    requires forall k :: 0 <= k < |c| ==> c[k].key != key
    ensures Lookup(c, key) == None
  {
  }

  /** `icl_hash_find`: searches the key's bucket. */
  function Find(t: Table, key: Name): (r: Option<Entry>)
    requires |t.buckets| >= 1
    ensures r.Some? ==> r.value.key == key
  {
    Lookup(t.buckets[Bucket(key, |t.buckets|)], key)
  }

  /** The bucket search agrees with the abstract view: it succeeds exactly for
      the registered nicknames, and reports online exactly the online ones. */
  lemma FindMatchesView(t: Table, key: Name)
    requires Valid(t)
    ensures Find(t, key).Some? <==> key in Keys(t)
    ensures Find(t, key).Some? && Find(t, key).value.online <==> key in OnlineKeys(t)
  {
    var b := Bucket(key, |t.buckets|);
    var c := t.buckets[b];
    if key in Keys(t) {
      var i, j :| 0 <= i < |t.buckets| && 0 <= j < |t.buckets[i]| && t.buckets[i][j].key == key;
      assert i == b;
      LookupAt(c, j);
    } else {
      assert forall k :: 0 <= k < |c| ==> c[k].key in Keys(t);
      LookupMissing(c, key);
    }
    if key in OnlineKeys(t) {
      var i, j :| 0 <= i < |t.buckets| && 0 <= j < |t.buckets[i]| && t.buckets[i][j].online
                  && t.buckets[i][j].key == key;
      assert i == b;
      LookupAt(c, j);
    }
    if Find(t, key).Some? && Find(t, key).value.online {
      var j := IndexIn(c, key);
      assert c[j].online && c[j].key == key;
      assert key in OnlineKeys(t);
    }
  }

  // ---------------------------------------------------------------------------
  // the three ways the operations change a table

  lemma {:induction false} SizeUpdate(bs: seq<seq<Entry>>, i: int, c: seq<Entry>)
    requires 0 <= i < |bs|
    ensures Size(bs[i := c]) == Size(bs) - |bs[i]| + |c|
  {
    var n := |bs|;
    if i == n - 1 {
      assert bs[i := c][..n - 1] == bs[..n - 1];
    } else {
      SizeUpdate(bs[..n - 1], i, c);
      assert bs[i := c][..n - 1] == bs[..n - 1][i := c];
    }
  }

  /** The table with the entry at chain position `j` of bucket `i` replaced by `e`. */
  function ReplaceAt(t: Table, i: int, j: int, e: Entry): Table
    requires 0 <= i < |t.buckets| && 0 <= j < |t.buckets[i]|
  {
    t.(buckets := t.buckets[i := t.buckets[i][j := e]])
  }

  /** In a valid table, a key occurs at one position only. */
  lemma KeyAtOnePosition(t: Table, i: int, j: int, i': int, j': int)
    requires KeysPlaced(t)
    requires 0 <= i < |t.buckets| && 0 <= j < |t.buckets[i]|
    requires 0 <= i' < |t.buckets| && 0 <= j' < |t.buckets[i']|
    requires t.buckets[i'][j'].key == t.buckets[i][j].key
    ensures i' == i && j' == j
  {
    assert ChainUnique(t.buckets[i]);
  }

  lemma ReplaceAtValid(t: Table, i: int, j: int, e: Entry)
    requires Valid(t) && 0 <= i < |t.buckets| && 0 <= j < |t.buckets[i]|
    requires e.key == t.buckets[i][j].key && History.Valid(e.queue)
    ensures Valid(ReplaceAt(t, i, j, e))
  {
    var b: seq<seq<Entry>> := t.buckets;
    var b': seq<seq<Entry>> := ReplaceAt(t, i, j, e).buckets;
    SizeUpdate(b, i, b[i][j := e]);
    forall j1: int, j2: int | 0 <= j1 < j2 < |b'[i]| ensures b'[i][j1].key != b'[i][j2].key {
      assert b'[i][j1].key == b[i][j1].key && b'[i][j2].key == b[i][j2].key;
    }
  }

  lemma ReplaceAtKeys(t: Table, i: int, j: int, e: Entry)
    requires 0 <= i < |t.buckets| && 0 <= j < |t.buckets[i]|
    requires e.key == t.buckets[i][j].key
    ensures Keys(ReplaceAt(t, i, j, e)) == Keys(t)
  {
    var b: seq<seq<Entry>> := t.buckets;
    var b': seq<seq<Entry>> := ReplaceAt(t, i, j, e).buckets;
    forall x | x in Keys(ReplaceAt(t, i, j, e)) ensures x in Keys(t) {
      var i': int, j': int :| 0 <= i' < |b'| && 0 <= j' < |b'[i']| && b'[i'][j'].key == x;
      assert b[i'][j'].key == x;
    }
    forall x | x in Keys(t) ensures x in Keys(ReplaceAt(t, i, j, e)) {
      var i': int, j': int :| 0 <= i' < |b| && 0 <= j' < |b[i']| && b[i'][j'].key == x;
      assert b'[i'][j'].key == x;
    }
  }

  /** Replacing one entry leaves every other position as it was. */
  lemma ReplaceAtOther(t: Table, i: int, j: int, e: Entry, i': int, j': int)
    requires 0 <= i < |t.buckets| && 0 <= j < |t.buckets[i]|
    requires 0 <= i' < |t.buckets| && (i', j') != (i, j)
    ensures |ReplaceAt(t, i, j, e).buckets[i']| == |t.buckets[i']|
    ensures 0 <= j' < |t.buckets[i']| ==> ReplaceAt(t, i, j, e).buckets[i'][j'] == t.buckets[i'][j']
  {
  }

  lemma ReplaceAtOnlineOthers(t: Table, i: int, j: int, e: Entry)
    requires KeysPlaced(t) && 0 <= i < |t.buckets| && 0 <= j < |t.buckets[i]|
    requires e.key == t.buckets[i][j].key
    ensures OnlineKeys(ReplaceAt(t, i, j, e)) - {e.key} == OnlineKeys(t) - {e.key}
  {
    var r := ReplaceAt(t, i, j, e);
    forall x | x in OnlineKeys(r) - {e.key} ensures x in OnlineKeys(t) {
      var i': int, j': int :| 0 <= i' < |r.buckets| && 0 <= j' < |r.buckets[i']|
                             && r.buckets[i'][j'].online && r.buckets[i'][j'].key == x;
      ReplaceAtOther(t, i, j, e, i', j');
    }
    forall x | x in OnlineKeys(t) - {e.key} ensures x in OnlineKeys(r) {
      var i': int, j': int :| 0 <= i' < |t.buckets| && 0 <= j' < |t.buckets[i']|
                             && t.buckets[i'][j'].online && t.buckets[i'][j'].key == x;
      ReplaceAtOther(t, i, j, e, i', j');
      assert r.buckets[i'][j'].online && r.buckets[i'][j'].key == x;
    }
  }

  lemma ReplaceAtOnlineKey(t: Table, i: int, j: int, e: Entry)
    requires KeysPlaced(t) && 0 <= i < |t.buckets| && 0 <= j < |t.buckets[i]|
    requires e.key == t.buckets[i][j].key
    ensures e.key in OnlineKeys(ReplaceAt(t, i, j, e)) <==> e.online
  {
    var r := ReplaceAt(t, i, j, e);
    assert r.buckets[i][j] == e;
    if e.key in OnlineKeys(r) {
      var i': int, j': int :| 0 <= i' < |r.buckets| && 0 <= j' < |r.buckets[i']|
                             && r.buckets[i'][j'].online && r.buckets[i'][j'].key == e.key;
      if (i', j') != (i, j) {
        ReplaceAtOther(t, i, j, e, i', j');
        KeyAtOnePosition(t, i, j, i', j');
      }
    }
  }

  lemma ReplaceAtOnline(t: Table, i: int, j: int, e: Entry)
    requires KeysPlaced(t) && 0 <= i < |t.buckets| && 0 <= j < |t.buckets[i]|
    requires e.key == t.buckets[i][j].key
    ensures OnlineKeys(ReplaceAt(t, i, j, e))
              == (if e.online then OnlineKeys(t) + {e.key} else OnlineKeys(t) - {e.key})
  {
    ReplaceAtOnlineOthers(t, i, j, e);
    ReplaceAtOnlineKey(t, i, j, e);
    SetWithOrWithout(OnlineKeys(ReplaceAt(t, i, j, e)), OnlineKeys(t), e.key, e.online);
  }

  /** A set that agrees with `s` except at `k`, and holds `k` exactly when `with` is set. */
  lemma SetWithOrWithout<X>(s': set<X>, s: set<X>, k: X, with: bool)
    requires s' - {k} == s - {k} && (k in s' <==> with)
    ensures s' == if with then s + {k} else s - {k}
  {
    if with {
      assert forall x :: x in s' <==> x in s + {k} by {
        forall x ensures x in s' <==> x in s + {k} {
          if x != k {
            assert x in s' <==> x in s' - {k};
            assert x in s <==> x in s - {k};
          }
        }
      }
    } else {
      assert forall x :: x in s' <==> x in s - {k} by {
        forall x ensures x in s' <==> x in s - {k} {
          if x != k {
            assert x in s' <==> x in s' - {k};
          }
        }
      }
    }
  }

  lemma ReplaceAtFind(t: Table, i: int, j: int, e: Entry)
    requires KeysPlaced(t) && 0 <= i < |t.buckets| && 0 <= j < |t.buckets[i]|
    requires e.key == t.buckets[i][j].key
    ensures Find(ReplaceAt(t, i, j, e), e.key) == Some(e)
    ensures forall k :: k != e.key ==> Find(ReplaceAt(t, i, j, e), k) == Find(t, k)
  {
    var b: seq<seq<Entry>> := t.buckets;
    var b': seq<seq<Entry>> := ReplaceAt(t, i, j, e).buckets;
    forall j1: int, j2: int | 0 <= j1 < j2 < |b'[i]| ensures b'[i][j1].key != b'[i][j2].key {
      assert b'[i][j1].key == b[i][j1].key && b'[i][j2].key == b[i][j2].key;
    }
    LookupAt(b'[i], j);
    forall k | k != e.key ensures Find(ReplaceAt(t, i, j, e), k) == Find(t, k) {
      if Bucket(k, |b|) == i {
        IndexInReplace(b[i], j, e, k);
        var n := IndexIn(b[i], k);
        if n >= 0 {
          assert n != j;
        }
      }
    }
  }

  /** Replacing an entry by one with the same key changes only what `Find`
      returns for that key, and the key's online status. */
  lemma ReplaceAtSpec(t: Table, i: int, j: int, e: Entry)
    requires Valid(t) && 0 <= i < |t.buckets| && 0 <= j < |t.buckets[i]|
    requires e.key == t.buckets[i][j].key && History.Valid(e.queue)
    ensures var r := ReplaceAt(t, i, j, e);
            && Valid(r) && r.npartitions == t.npartitions && |r.buckets| == |t.buckets|
            && r.nentries == t.nentries
            && Keys(r) == Keys(t)
            && OnlineKeys(r) == (if e.online then OnlineKeys(t) + {e.key} else OnlineKeys(t) - {e.key})
            && Find(r, e.key) == Some(e)
            && forall k :: k != e.key ==> Find(r, k) == Find(t, k)
  {
    ReplaceAtValid(t, i, j, e);
    ReplaceAtKeys(t, i, j, e);
    ReplaceAtOnline(t, i, j, e);
    ReplaceAtFind(t, i, j, e);
  }

  /** Replacing an entry by one with the same key does not move any search. */
  lemma {:induction false} IndexInReplace(c: seq<Entry>, j: int, e: Entry, k: Name)
    requires 0 <= j < |c| && e.key == c[j].key
    ensures IndexIn(c[j := e], k) == IndexIn(c, k)
  {
    if j > 0 {
      IndexInReplace(c[1..], j - 1, e, k);
      assert c[j := e][1..] == c[1..][j - 1 := e];
    }
  }

  /** The table with `e` added at the head of its bucket. */
  function Prepend(t: Table, e: Entry): Table
    requires |t.buckets| >= 1
  {
    var b := Bucket(e.key, |t.buckets|);
    t.(buckets := t.buckets[b := [e] + t.buckets[b]], nentries := t.nentries + 1)
  }

  /** Where an entry of the table with `e` prepended came from. */
  lemma PrependSource(t: Table, e: Entry, i': int, j': int)
    requires |t.buckets| >= 1
    requires 0 <= i' < |Prepend(t, e).buckets| && 0 <= j' < |Prepend(t, e).buckets[i']|
    ensures var b := Bucket(e.key, |t.buckets|);
            if i' == b && j' == 0 then Prepend(t, e).buckets[i'][j'] == e
            else var jj := if i' == b then j' - 1 else j';
                 0 <= jj < |t.buckets[i']| && Prepend(t, e).buckets[i'][j'] == t.buckets[i'][jj]
  {
  }

  lemma PrependPlaced(t: Table, e: Entry)
    requires |t.buckets| >= 1 && Placed(t.buckets)
    ensures Placed(Prepend(t, e).buckets)
  {
    var b': seq<seq<Entry>> := Prepend(t, e).buckets;
    forall i': int, j': int | 0 <= i' < |b'| && 0 <= j' < |b'[i']| ensures Bucket(b'[i'][j'].key, |b'|) == i' {
      PrependSource(t, e, i', j');
    }
  }

  lemma PrependQueues(t: Table, e: Entry)
    requires |t.buckets| >= 1 && QueuesValid(t.buckets) && History.Valid(e.queue)
    ensures QueuesValid(Prepend(t, e).buckets)
  {
    var b': seq<seq<Entry>> := Prepend(t, e).buckets;
    forall i': int, j': int | 0 <= i' < |b'| && 0 <= j' < |b'[i']| ensures History.Valid(b'[i'][j'].queue) {
      PrependSource(t, e, i', j');
    }
  }

  lemma PrependUnique(t: Table, e: Entry)
    requires |t.buckets| >= 1 && ChainsUnique(t.buckets) && e.key !in Keys(t)
    ensures ChainsUnique(Prepend(t, e).buckets)
  {
    var b: seq<seq<Entry>> := t.buckets;
    var i := Bucket(e.key, |b|);
    var c := [e] + b[i];
    forall j: int | 0 <= j < |b[i]| ensures b[i][j].key != e.key {
      assert b[i][j].key in Keys(t);
    }
    assert ChainUnique(c) by {
      forall j1: int, j2: int | 0 <= j1 < j2 < |c| ensures c[j1].key != c[j2].key {
        assert c[j2] == b[i][j2 - 1];
        if j1 > 0 {
          assert c[j1] == b[i][j1 - 1];
        }
      }
    }
    assert Prepend(t, e).buckets == b[i := c];
  }

  lemma PrependValid(t: Table, e: Entry)
    requires Valid(t) && e.key !in Keys(t) && History.Valid(e.queue)
    ensures Valid(Prepend(t, e))
  {
    var b: seq<seq<Entry>> := t.buckets;
    var i := Bucket(e.key, |b|);
    SizeUpdate(b, i, [e] + b[i]);
    PrependPlaced(t, e);
    PrependUnique(t, e);
    PrependQueues(t, e);
  }

  /** Where an entry of `t` sits once `e` is prepended. */
  lemma PrependTarget(t: Table, e: Entry, i': int, j': int)
    requires |t.buckets| >= 1 && 0 <= i' < |t.buckets| && 0 <= j' < |t.buckets[i']|
    ensures var jj := if i' == Bucket(e.key, |t.buckets|) then j' + 1 else j';
            0 <= jj < |Prepend(t, e).buckets[i']| && Prepend(t, e).buckets[i'][jj] == t.buckets[i'][j']
  {
  }

  lemma PrependKeys(t: Table, e: Entry)
    requires |t.buckets| >= 1
    ensures Keys(Prepend(t, e)) == Keys(t) + {e.key}
  {
    var r := Prepend(t, e);
    var i := Bucket(e.key, |t.buckets|);
    assert r.buckets[i][0] == e;
    forall x | x in Keys(r) ensures x in Keys(t) + {e.key} {
      var i': int, j': int :| 0 <= i' < |r.buckets| && 0 <= j' < |r.buckets[i']| && r.buckets[i'][j'].key == x;
      PrependSource(t, e, i', j');
    }
    forall x | x in Keys(t) ensures x in Keys(r) {
      var i': int, j': int :| 0 <= i' < |t.buckets| && 0 <= j' < |t.buckets[i']| && t.buckets[i'][j'].key == x;
      PrependTarget(t, e, i', j');
    }
  }

  lemma PrependOnline(t: Table, e: Entry)
    requires |t.buckets| >= 1
    ensures OnlineKeys(Prepend(t, e)) == OnlineKeys(t) + (if e.online then {e.key} else {})
  {
    var r := Prepend(t, e);
    var i := Bucket(e.key, |t.buckets|);
    assert r.buckets[i][0] == e;
    forall x | x in OnlineKeys(r) ensures x in OnlineKeys(t) + (if e.online then {e.key} else {}) {
      var i': int, j': int :| 0 <= i' < |r.buckets| && 0 <= j' < |r.buckets[i']|
                             && r.buckets[i'][j'].online && r.buckets[i'][j'].key == x;
      PrependSource(t, e, i', j');
    }
    forall x | x in OnlineKeys(t) ensures x in OnlineKeys(r) {
      var i': int, j': int :| 0 <= i' < |t.buckets| && 0 <= j' < |t.buckets[i']|
                             && t.buckets[i'][j'].online && t.buckets[i'][j'].key == x;
      PrependTarget(t, e, i', j');
    }
  }

  lemma PrependFind(t: Table, e: Entry)
    requires |t.buckets| >= 1
    ensures Find(Prepend(t, e), e.key) == Some(e)
    ensures forall k :: k != e.key ==> Find(Prepend(t, e), k) == Find(t, k)
  {
    var b: seq<seq<Entry>> := t.buckets;
    var i := Bucket(e.key, |b|);
    forall k | k != e.key ensures Find(Prepend(t, e), k) == Find(t, k) {
      if Bucket(k, |b|) == i {
        assert ([e] + b[i])[1..] == b[i];
      }
    }
  }

  /** The table without the entry at chain position `j` of bucket `i`. */
  function RemoveAt(t: Table, i: int, j: int): Table
    requires 0 <= i < |t.buckets| && 0 <= j < |t.buckets[i]|
  {
    t.(buckets := t.buckets[i := t.buckets[i][..j] + t.buckets[i][j + 1..]], nentries := t.nentries - 1)
  }

  lemma RemoveAtValid(t: Table, i: int, j: int)
    requires Valid(t) && 0 <= i < |t.buckets| && 0 <= j < |t.buckets[i]|
    ensures Valid(RemoveAt(t, i, j))
  {
    SizeUpdate(t.buckets, i, t.buckets[i][..j] + t.buckets[i][j + 1..]);
    RemovePlaced(t, i, j);
    RemoveQueues(t, i, j);
    RemoveUnique(t, i, j);
  }

  lemma RemovePlaced(t: Table, i: int, j: int)
    requires |t.buckets| >= 1 && Placed(t.buckets) && 0 <= i < |t.buckets| && 0 <= j < |t.buckets[i]|
    ensures Placed(RemoveAt(t, i, j).buckets)
  {
    var b': seq<seq<Entry>> := RemoveAt(t, i, j).buckets;
    forall i2: int, j2: int | 0 <= i2 < |b'| && 0 <= j2 < |b'[i2]| ensures Bucket(b'[i2][j2].key, |b'|) == i2 {
      RemoveAtSource(t, i, j, i2, j2);
    }
  }

  lemma RemoveQueues(t: Table, i: int, j: int)
    requires QueuesValid(t.buckets) && 0 <= i < |t.buckets| && 0 <= j < |t.buckets[i]|
    ensures QueuesValid(RemoveAt(t, i, j).buckets)
  {
    var b': seq<seq<Entry>> := RemoveAt(t, i, j).buckets;
    forall i2: int, j2: int | 0 <= i2 < |b'| && 0 <= j2 < |b'[i2]| ensures History.Valid(b'[i2][j2].queue) {
      RemoveAtSource(t, i, j, i2, j2);
    }
  }

  lemma RemoveUnique(t: Table, i: int, j: int)
    requires ChainsUnique(t.buckets) && 0 <= i < |t.buckets| && 0 <= j < |t.buckets[i]|
    ensures ChainsUnique(RemoveAt(t, i, j).buckets)
  {
    var c := t.buckets[i];
    var c' := c[..j] + c[j + 1..];
    forall j1: int, j2: int | 0 <= j1 < j2 < |c'| ensures c'[j1].key != c'[j2].key {
      RemovedAt(c, j, j1);
      RemovedAt(c, j, j2);
    }
  }

  /** Where an entry of a chain with one entry removed came from. */
  lemma RemovedAt(c: seq<Entry>, j: int, n: int)
    requires 0 <= j < |c| && 0 <= n < |c| - 1
    ensures (c[..j] + c[j + 1..])[n] == c[if n < j then n else n + 1]
  {
  }

  /** Where an entry of the table with one entry removed came from. */
  lemma RemoveAtSource(t: Table, i: int, j: int, i': int, j': int)
    requires 0 <= i < |t.buckets| && 0 <= j < |t.buckets[i]|
    requires 0 <= i' < |RemoveAt(t, i, j).buckets| && 0 <= j' < |RemoveAt(t, i, j).buckets[i']|
    ensures var jj := if i' == i && j' >= j then j' + 1 else j';
            0 <= jj < |t.buckets[i']| && (i' == i ==> jj != j)
            && RemoveAt(t, i, j).buckets[i'][j'] == t.buckets[i'][jj]
  {
    if i' == i {
      RemovedAt(t.buckets[i], j, j');
    }
  }

  /** Where an entry of the table other than the removed one goes. */
  lemma RemoveAtTarget(t: Table, i: int, j: int, i': int, j': int)
    requires 0 <= i < |t.buckets| && 0 <= j < |t.buckets[i]|
    requires 0 <= i' < |t.buckets| && 0 <= j' < |t.buckets[i']| && (i', j') != (i, j)
    ensures var jj := if i' == i && j' > j then j' - 1 else j';
            0 <= jj < |RemoveAt(t, i, j).buckets[i']|
            && RemoveAt(t, i, j).buckets[i'][jj] == t.buckets[i'][j']
  {
    if i' == i {
      RemovedAt(t.buckets[i], j, if j' > j then j' - 1 else j');
    }
  }

  lemma RemoveAtKeys(t: Table, i: int, j: int)
    requires KeysPlaced(t) && 0 <= i < |t.buckets| && 0 <= j < |t.buckets[i]|
    ensures Keys(RemoveAt(t, i, j)) == Keys(t) - {t.buckets[i][j].key}
  {
    var r := RemoveAt(t, i, j);
    var key := t.buckets[i][j].key;
    forall x | x in Keys(r) ensures x in Keys(t) - {key} {
      var i': int, j': int :| 0 <= i' < |r.buckets| && 0 <= j' < |r.buckets[i']| && r.buckets[i'][j'].key == x;
      RemoveAtSource(t, i, j, i', j');
      var jj := if i' == i && j' >= j then j' + 1 else j';
      if x == key {
        KeyAtOnePosition(t, i, j, i', jj);
      }
    }
    forall x | x in Keys(t) - {key} ensures x in Keys(r) {
      var i': int, j': int :| 0 <= i' < |t.buckets| && 0 <= j' < |t.buckets[i']| && t.buckets[i'][j'].key == x;
      RemoveAtTarget(t, i, j, i', j');
    }
  }

  lemma RemoveAtOnline(t: Table, i: int, j: int)
    requires KeysPlaced(t) && 0 <= i < |t.buckets| && 0 <= j < |t.buckets[i]|
    ensures OnlineKeys(RemoveAt(t, i, j)) == OnlineKeys(t) - {t.buckets[i][j].key}
  {
    var r := RemoveAt(t, i, j);
    var key := t.buckets[i][j].key;
    forall x | x in OnlineKeys(r) ensures x in OnlineKeys(t) - {key} {
      var i': int, j': int :| 0 <= i' < |r.buckets| && 0 <= j' < |r.buckets[i']|
                             && r.buckets[i'][j'].online && r.buckets[i'][j'].key == x;
      RemoveAtSource(t, i, j, i', j');
      var jj := if i' == i && j' >= j then j' + 1 else j';
      if x == key {
        KeyAtOnePosition(t, i, j, i', jj);
      }
    }
    forall x | x in OnlineKeys(t) - {key} ensures x in OnlineKeys(r) {
      var i': int, j': int :| 0 <= i' < |t.buckets| && 0 <= j' < |t.buckets[i']|
                             && t.buckets[i'][j'].online && t.buckets[i'][j'].key == x;
      RemoveAtTarget(t, i, j, i', j');
    }
  }

  /** Removing an entry whose key is not `k` does not change what a search for `k` returns. */
  lemma {:induction false} LookupRemove(c: seq<Entry>, j: int, k: Name)
    requires 0 <= j < |c| && c[j].key != k
    ensures Lookup(c[..j] + c[j + 1..], k) == Lookup(c, k)
  {
    if j == 0 {
      assert c[..0] + c[1..] == c[1..];
    } else if c[0].key != k {
      LookupRemove(c[1..], j - 1, k);
      assert (c[..j] + c[j + 1..])[1..] == c[1..][..j - 1] + c[1..][j..];
    }
  }

  lemma RemoveAtFind(t: Table, i: int, j: int)
    requires KeysPlaced(t) && 0 <= i < |t.buckets| && 0 <= j < |t.buckets[i]|
    ensures Find(RemoveAt(t, i, j), t.buckets[i][j].key) == None
    ensures forall k :: k != t.buckets[i][j].key ==> Find(RemoveAt(t, i, j), k) == Find(t, k)
  {
    var b: seq<seq<Entry>> := t.buckets;
    var key := b[i][j].key;
    var c := b[i][..j] + b[i][j + 1..];
    forall n: int | 0 <= n < |c| ensures c[n].key != key {
      var jj := if n < j then n else n + 1;
      assert c[n] == b[i][jj];
      assert jj != j;
    }
    LookupMissing(c, key);
    forall k | k != key ensures Find(RemoveAt(t, i, j), k) == Find(t, k) {
      if Bucket(k, |b|) == i {
        LookupRemove(b[i], j, k);
      }
    }
  }

  lemma PrependSpec(t: Table, e: Entry)
    requires Valid(t) && e.key !in Keys(t) && History.Valid(e.queue)
    ensures var r := Prepend(t, e);
            && Valid(r) && r.npartitions == t.npartitions && |r.buckets| == |t.buckets|
            && r.nentries == t.nentries + 1
            && Keys(r) == Keys(t) + {e.key}
            && OnlineKeys(r) == OnlineKeys(t) + (if e.online then {e.key} else {})
            && Find(r, e.key) == Some(e)
            && forall k :: k != e.key ==> Find(r, k) == Find(t, k)
  {
    PrependValid(t, e);
    PrependKeys(t, e);
    PrependOnline(t, e);
    PrependFind(t, e);
  }

  lemma RemoveAtSpec(t: Table, i: int, j: int)
    requires Valid(t) && 0 <= i < |t.buckets| && 0 <= j < |t.buckets[i]|
    ensures var r := RemoveAt(t, i, j);
            var key := t.buckets[i][j].key;
            && Valid(r) && r.npartitions == t.npartitions && |r.buckets| == |t.buckets|
            && r.nentries == t.nentries - 1
            && Keys(r) == Keys(t) - {key}
            && OnlineKeys(r) == OnlineKeys(t) - {key}
            && Find(r, key) == None
            && forall k :: k != key ==> Find(r, k) == Find(t, k)
  {
    RemoveAtValid(t, i, j);
    RemoveAtKeys(t, i, j);
    RemoveAtOnline(t, i, j);
    RemoveAtFind(t, i, j);
  }

  /** Where the search for a registered key stops. */
  lemma FindPosition(t: Table, key: Name)
    requires Valid(t) && key in Keys(t)
    ensures var i := Bucket(key, |t.buckets|);
            var j := IndexIn(t.buckets[i], key);
            0 <= j && Find(t, key) == Some(t.buckets[i][j])
  {
    FindMatchesView(t, key);
  }

  // ---------------------------------------------------------------------------
  // the operations of icl_hash.c

  /** `n` empty buckets. */
  function EmptyBuckets(n: nat): (bs: seq<seq<Entry>>)
    ensures |bs| == n && forall i :: 0 <= i < n ==> bs[i] == []
  {
    seq(n, _ => [])
  }

  lemma {:induction false} SizeOfEmpty(n: nat)
    ensures Size(EmptyBuckets(n)) == 0
  {
    if n > 0 {
      SizeOfEmpty(n - 1);
      assert EmptyBuckets(n)[..n - 1] == EmptyBuckets(n - 1);
    }
  }

  /** `icl_hash_create` with the default hash and key comparison: NULL unless
      `1 <= npartitions <= nbuckets`, otherwise an empty table. */
  function Create(nbuckets: int, npartitions: int): (r: Option<Table>)
    ensures r.Some? <==> 1 <= npartitions <= nbuckets
    ensures r.Some? ==> && Valid(r.value) && Keys(r.value) == {}
                        && |r.value.buckets| == nbuckets && r.value.npartitions == npartitions
  {
    if npartitions < 1 || npartitions > nbuckets then None
    else
      SizeOfEmpty(nbuckets);
      Some(Table(EmptyBuckets(nbuckets), npartitions, 0))
  }

  /** `icl_hash_insert`: NULL when the key is already registered; otherwise a
      new online entry for `fd` with an empty history of capacity `qmax`,
      at the head of the key's bucket. */
  function Insert(t: Table, key: Name, fd: int, qmax: u32): (r: (Table, Option<Entry>))
    requires Valid(t)
    ensures key in Keys(t) ==> r.0 == t && r.1 == None
    ensures key !in Keys(t) ==>
              var e := Entry(key, fd, true, History.InitQueue(qmax));
              && r.1 == Some(e)
              && Valid(r.0) && r.0.npartitions == t.npartitions && |r.0.buckets| == |t.buckets|
              && r.0.nentries == t.nentries + 1
              && Keys(r.0) == Keys(t) + {key}
              && OnlineKeys(r.0) == OnlineKeys(t) + {key}
              && Find(r.0, key) == Some(e)
              && forall k :: k != key ==> Find(r.0, k) == Find(t, k)
  {
    FindMatchesView(t, key);
    if Find(t, key).Some? then (t, None)
    else
      var e := Entry(key, fd, true, History.InitQueue(qmax));
      PrependSpec(t, e);
      (Prepend(t, e), Some(e))
  }

  /** `icl_hash_delete`: -1 when the key is not registered, otherwise 0 after
      unlinking its entry. */
  function Delete(t: Table, key: Name): (r: (Table, int))
    requires Valid(t)
    ensures key !in Keys(t) ==> r == (t, -1)
    ensures key in Keys(t) ==>
              && r.1 == 0
              && Valid(r.0) && r.0.npartitions == t.npartitions && |r.0.buckets| == |t.buckets|
              && r.0.nentries == t.nentries - 1
              && Keys(r.0) == Keys(t) - {key}
              && OnlineKeys(r.0) == OnlineKeys(t) - {key}
              && Find(r.0, key) == None
              && forall k :: k != key ==> Find(r.0, k) == Find(t, k)
  {
    FindMatchesView(t, key);
    var i := Bucket(key, |t.buckets|);
    var j := IndexIn(t.buckets[i], key);
    if j < 0 then (t, -1)
    else
      RemoveAtSpec(t, i, j);
      (RemoveAt(t, i, j), 0)
  }

  /** `icl_hash_get_partition`: the partition of the key's bucket. */
  function GetPartition(t: Table, key: Name): (p: int)
    requires Valid(t)
    ensures 0 <= p < t.npartitions
  {
    Bucket(key, |t.buckets|) % t.npartitions
  }

  /** The partition a lookup of a registered key locks is the one a scan of
      the buckets locks when it reaches that key's entry. */
  lemma PartitionOfEntry(t: Table, i: int, j: int)
    requires Valid(t) && 0 <= i < |t.buckets| && 0 <= j < |t.buckets[i]|
    ensures GetPartition(t, t.buckets[i][j].key) == i % t.npartitions
  {
  }

  /** `icl_hash_isRegistered`: 1 for a registered nickname, 0 otherwise. */
  function IsRegistered(t: Table, key: Name): (r: int)
    requires Valid(t)
    ensures r == 1 <==> key in Keys(t)
    ensures r == 0 <==> key !in Keys(t)
  {
    FindMatchesView(t, key);
    if Find(t, key).None? then 0 else 1
  }

  /** `icl_hash_isOnline`: -1 for an unknown nickname, else the online flag. */
  function IsOnline(t: Table, key: Name): (r: int)
    requires Valid(t)
    ensures r == -1 <==> key !in Keys(t)
    ensures r == 1 <==> key in OnlineKeys(t)
    ensures r == 0 <==> key in Keys(t) - OnlineKeys(t)
  {
    FindMatchesView(t, key);
    match Find(t, key)
    case None => -1
    case Some(e) => if e.online then 1 else 0
  }

  /** `icl_hash_set_online`: -1 for a negative descriptor or an unknown
      nickname; otherwise the entry becomes online and is rebound to `fd`. */
  function SetOnline(t: Table, key: Name, fd: int): (r: (Table, int))
    requires Valid(t)
    ensures fd < 0 || key !in Keys(t) ==> r == (t, -1)
    ensures fd >= 0 && key in Keys(t) ==>
              && r.1 == 0
              && Valid(r.0) && r.0.npartitions == t.npartitions && |r.0.buckets| == |t.buckets|
              && r.0.nentries == t.nentries
              && Keys(r.0) == Keys(t)
              && OnlineKeys(r.0) == OnlineKeys(t) + {key}
              && Find(r.0, key) == Some(Find(t, key).value.(online := true, fd := fd))
              && forall k :: k != key ==> Find(r.0, k) == Find(t, k)
  {
    FindMatchesView(t, key);
    if fd < 0 then (t, -1)
    else
      var i := Bucket(key, |t.buckets|);
      var j := IndexIn(t.buckets[i], key);
      if j < 0 then (t, -1)
      else
        var e := t.buckets[i][j].(online := true, fd := fd);
        ReplaceAtSpec(t, i, j, e);
        (ReplaceAt(t, i, j, e), 0)
  }

  /** `icl_hash_addMessage`: -1 for an unknown nickname, otherwise the result
      of pushing `m` onto that user's history (always 0). */
  function AddMessage(t: Table, key: Name, m: Message): (r: (Table, int))
    requires Valid(t)
    requires Find(t, key).Some? ==> Find(t, key).value.queue.qmax >= 1
    ensures key !in Keys(t) ==> r == (t, -1)
    ensures key in Keys(t) ==>
              var e := Find(t, key).value;
              && r.1 == 0
              && Valid(r.0) && r.0.npartitions == t.npartitions && |r.0.buckets| == |t.buckets|
              && r.0.nentries == t.nentries
              && Keys(r.0) == Keys(t) && OnlineKeys(r.0) == OnlineKeys(t)
              && Find(r.0, key) == Some(e.(queue := History.Push(e.queue, m)))
              && forall k :: k != key ==> Find(r.0, k) == Find(t, k)
  {
    FindMatchesView(t, key);
    var i := Bucket(key, |t.buckets|);
    var j := IndexIn(t.buckets[i], key);
    if j < 0 then (t, -1)
    else
      var e := t.buckets[i][j];
      var e' := e.(queue := History.Push(e.queue, m));
      ReplaceAtSpec(t, i, j, e');
      (ReplaceAt(t, i, j, e'), 0)
  }

  /** Some entry of the table is bound to `fd`. */
  predicate HasFd(t: Table, fd: int) {
    exists i, j :: 0 <= i < |t.buckets| && 0 <= j < |t.buckets[i]| && t.buckets[i][j].fd == fd
  }

  /** Position in chain `c` of the first entry bound to `fd`, or -1. */
  function FdIndex(c: seq<Entry>, fd: int): (j: int)
    ensures -1 <= j < |c|
    ensures j >= 0 ==> c[j].fd == fd && forall k :: 0 <= k < j ==> c[k].fd != fd
    ensures j == -1 ==> forall k :: 0 <= k < |c| ==> c[k].fd != fd
  {
    if c == [] then -1
    else if c[0].fd == fd then 0
    else
      var j := FdIndex(c[1..], fd);
      if j < 0 then -1 else j + 1
  }

  /** The first position bound to `fd`, scanning the buckets upward from
      `from` and each chain from its head. */
  function FirstWithFd(bs: seq<seq<Entry>>, fd: int, from: nat): (r: Option<(int, int)>)
    requires from <= |bs|
    ensures r.Some? ==> && from <= r.value.0 < |bs| && 0 <= r.value.1 < |bs[r.value.0]|
                        && bs[r.value.0][r.value.1].fd == fd
                        && (forall i, j :: from <= i < r.value.0 && 0 <= j < |bs[i]| ==> bs[i][j].fd != fd)
                        && (forall j :: 0 <= j < r.value.1 ==> bs[r.value.0][j].fd != fd)
    ensures r.None? ==> forall i, j :: from <= i < |bs| && 0 <= j < |bs[i]| ==> bs[i][j].fd != fd
    decreases |bs| - from
  {
    if from == |bs| then None
    else
      var j := FdIndex(bs[from], fd);
      if j >= 0 then Some((from, j)) else FirstWithFd(bs, fd, from + 1)
  }

  /** The nickname `icl_hash_set_offline` takes offline for `fd`: the first
      entry bound to `fd` in bucket order, then chain order. */
  function OfflineTarget(t: Table, fd: int): (k: Option<Name>)
    requires Valid(t)
    ensures k.None? <==> !HasFd(t, fd)
    ensures k.Some? ==> Find(t, k.value).Some? && Find(t, k.value).value.fd == fd
  {
    match FirstWithFd(t.buckets, fd, 0)
    case None => None
    case Some(p) =>
      var key := t.buckets[p.0][p.1].key;
      FindMatchesView(t, key);
      FindPosition(t, key);
      KeyAtOnePosition(t, p.0, p.1, Bucket(key, |t.buckets|), IndexIn(t.buckets[Bucket(key, |t.buckets|)], key));
      Some(key)
  }

  /** When exactly one registered user is bound to `fd`, that user is the one taken offline. */
  lemma OfflineTargetUnique(t: Table, fd: int, key: Name)
    requires Valid(t) && Find(t, key).Some? && Find(t, key).value.fd == fd
    requires forall k :: k != key && Find(t, k).Some? ==> Find(t, k).value.fd != fd
    ensures OfflineTarget(t, fd) == Some(key)
  {
    var i := Bucket(key, |t.buckets|);
    var j := IndexIn(t.buckets[i], key);
    assert t.buckets[i][j].fd == fd;
    var k := OfflineTarget(t, fd);
    assert k.Some?;
  }

  /** `icl_hash_set_offline`: -1 for a negative descriptor or when no entry
      is bound to `fd`; otherwise the first entry bound to it becomes offline
      and unbound (`fd == -1`), and the result is 0. */
  function SetOffline(t: Table, fd: int): (r: (Table, int))
    requires Valid(t)
    ensures fd < 0 || !HasFd(t, fd) ==> r == (t, -1)
    ensures fd >= 0 && HasFd(t, fd) ==>
              var key := OfflineTarget(t, fd).value;
              && r.1 == 0
              && Valid(r.0) && r.0.npartitions == t.npartitions && |r.0.buckets| == |t.buckets|
              && r.0.nentries == t.nentries
              && Keys(r.0) == Keys(t)
              && OnlineKeys(r.0) == OnlineKeys(t) - {key}
              && Find(r.0, key) == Some(Find(t, key).value.(online := false, fd := -1))
              && forall k :: k != key ==> Find(r.0, k) == Find(t, k)
  {
    if fd < 0 then (t, -1)
    else
      match FirstWithFd(t.buckets, fd, 0)
      case None => (t, -1)
      case Some(p) =>
        var e := t.buckets[p.0][p.1].(online := false, fd := -1);
        ReplaceAtSpec(t, p.0, p.1, e);
        FindPosition(t, e.key);
        KeyAtOnePosition(t, p.0, p.1, Bucket(e.key, |t.buckets|), IndexIn(t.buckets[Bucket(e.key, |t.buckets|)], e.key));
        (ReplaceAt(t, p.0, p.1, e), 0)
  }

  // ---------------------------------------------------------------------------
  // icl_hash_get_onlineusers

  predicate Distinct<X(==)>(s: seq<X>) {
    forall a, b :: 0 <= a < b < |s| ==> s[a] != s[b]
  }

  /** The online entries with a non-empty nickname in chain `c`, from its head. */
  function ChainOnline(c: seq<Entry>): seq<Name> {
    if c == [] then []
    else (if c[0].online && c[0].key != [] then [c[0].key] else []) + ChainOnline(c[1..])
  }

  /** `ChainOnline` of buckets `0 .. n - 1`, in bucket order. */
  function OnlineUpTo(bs: seq<seq<Entry>>, n: nat): seq<Name>
    requires n <= |bs|
  {
    if n == 0 then [] else OnlineUpTo(bs, n - 1) + ChainOnline(bs[n - 1])
  }

  /** The nicknames `icl_hash_get_onlineusers` lists, in the order it lists them. */
  function OnlineUsers(t: Table): seq<Name> {
    OnlineUpTo(t.buckets, |t.buckets|)
  }

  lemma {:induction false} ChainOnlineMembers(c: seq<Entry>, x: Name)
    ensures x in ChainOnline(c) <==> x != [] && exists j :: 0 <= j < |c| && c[j].online && c[j].key == x
  {
    if c != [] {
      ChainOnlineMembers(c[1..], x);
      if x != [] && exists j :: 0 <= j < |c| && c[j].online && c[j].key == x {
        var j :| 0 <= j < |c| && c[j].online && c[j].key == x;
        if j > 0 {
          assert c[1..][j - 1] == c[j];
        }
      }
      if exists j :: 0 <= j < |c[1..]| && c[1..][j].online && c[1..][j].key == x {
        var j :| 0 <= j < |c[1..]| && c[1..][j].online && c[1..][j].key == x;
        assert c[j + 1] == c[1..][j];
      }
    }
  }

  lemma {:induction false} ChainOnlineDistinct(c: seq<Entry>)
    requires ChainUnique(c)
    ensures Distinct(ChainOnline(c))
  {
    if c != [] {
      assert ChainUnique(c[1..]);
      ChainOnlineDistinct(c[1..]);
      if c[0].online && c[0].key != [] {
        assert forall j :: 0 <= j < |c[1..]| ==> c[1..][j].key != c[0].key;
        ChainOnlineMembers(c[1..], c[0].key);
        DistinctCons(c[0].key, ChainOnline(c[1..]));
      } else {
        assert ChainOnline(c) == ChainOnline(c[1..]);
      }
    }
  }

  lemma DistinctCons<X>(x: X, s: seq<X>)
    requires Distinct(s) && x !in s
    ensures Distinct([x] + s)
  {
    var s' := [x] + s;
    forall a, b | 0 <= a < b < |s'| ensures s'[a] != s'[b] {
      assert s'[b] == s[b - 1];
      if a > 0 {
        assert s'[a] == s[a - 1];
      }
    }
  }

  lemma DistinctAppend<X>(s: seq<X>, u: seq<X>)
    requires Distinct(s) && Distinct(u) && forall x :: x in s ==> x !in u
    ensures Distinct(s + u)
  {
    var w := s + u;
    forall a, b | 0 <= a < b < |w| ensures w[a] != w[b] {
      if b < |s| {
        assert w[a] == s[a] && w[b] == s[b];
      } else if a >= |s| {
        assert w[a] == u[a - |s|] && w[b] == u[b - |s|];
      } else {
        assert w[a] == s[a] && w[b] == u[b - |s|];
        assert w[a] in s;
      }
    }
  }

  lemma {:induction false} OnlineUpToMembers(bs: seq<seq<Entry>>, n: nat, x: Name)
    requires n <= |bs|
    ensures x in OnlineUpTo(bs, n) <==>
              x != [] && exists i, j :: 0 <= i < n && 0 <= j < |bs[i]| && bs[i][j].online && bs[i][j].key == x
  {
    if n > 0 {
      OnlineUpToMembers(bs, n - 1, x);
      ChainOnlineMembers(bs[n - 1], x);
    }
  }

  /** A nickname listed from the buckets before `n` is not in bucket `n`. */
  lemma EarlierBucket(bs: seq<seq<Entry>>, n: nat, x: Name)
    requires n < |bs| && Placed(bs) && x in OnlineUpTo(bs, n)
    ensures x !in ChainOnline(bs[n])
  {
    OnlineUpToMembers(bs, n, x);
    ChainOnlineMembers(bs[n], x);
    var i, j :| 0 <= i < n && 0 <= j < |bs[i]| && bs[i][j].online && bs[i][j].key == x;
    assert Bucket(x, |bs|) == i;
  }

  lemma OnlineUpToStep(bs: seq<seq<Entry>>, n: nat)
    requires 0 < n <= |bs| && Placed(bs)
    requires Distinct(OnlineUpTo(bs, n - 1)) && Distinct(ChainOnline(bs[n - 1]))
    ensures Distinct(OnlineUpTo(bs, n))
  {
    BucketsDisjoint(bs, n - 1);
    DistinctAppend(OnlineUpTo(bs, n - 1), ChainOnline(bs[n - 1]));
  }

  lemma BucketsDisjoint(bs: seq<seq<Entry>>, m: nat)
    requires m < |bs| && Placed(bs)
    ensures forall x :: x in OnlineUpTo(bs, m) ==> x !in ChainOnline(bs[m])
  {
    forall x | x in OnlineUpTo(bs, m) ensures x !in ChainOnline(bs[m]) {
      EarlierBucket(bs, m, x);
    }
  }

  lemma {:induction false} OnlineUpToDistinct(bs: seq<seq<Entry>>, n: nat)
    requires n <= |bs| && |bs| >= 1 && Placed(bs) && ChainsUnique(bs)
    ensures Distinct(OnlineUpTo(bs, n))
  {
    if n > 0 {
      OnlineUpToDistinct(bs, n - 1);
      ChainOnlineDistinct(bs[n - 1]);
      OnlineUpToStep(bs, n);
    }
  }

  /** The listing names every online user with a non-empty nickname, each once. */
  lemma OnlineUsersMatchView(t: Table)
    requires KeysPlaced(t)
    ensures forall x :: x in OnlineUsers(t) <==> x in OnlineKeys(t) && x != []
    ensures Distinct(OnlineUsers(t))
  {
    forall x ensures x in OnlineUsers(t) <==> x in OnlineKeys(t) && x != [] {
      OnlineUpToMembers(t.buckets, |t.buckets|, x);
    }
    OnlineUpToDistinct(t.buckets, |t.buckets|);
  }

  /** Every registered nickname fits a name field. */
  predicate NamesFit(t: Table) {
    forall i, j :: 0 <= i < |t.buckets| && 0 <= j < |t.buckets[i]| ==> IsName(t.buckets[i][j].key)
  }

  lemma OnlineUsersFit(t: Table)
    requires NamesFit(t)
    ensures forall k :: 0 <= k < |OnlineUsers(t)| ==> IsName(OnlineUsers(t)[k])
  {
    forall k | 0 <= k < |OnlineUsers(t)| ensures IsName(OnlineUsers(t)[k]) {
      OnlineUpToMembers(t.buckets, |t.buckets|, OnlineUsers(t)[k]);
    }
  }

  /** A nickname in a zero-filled name field. */
  function Slot(name: Name): (r: seq<byte>)
    requires IsName(name)
    ensures FieldOk(r) && NameOf(r) == name
  {
    CStrOfTerminated(name, Zeros(NAME_FIELD - |name| - 1));
    name + [0] + Zeros(NAME_FIELD - |name| - 1)
  }

  /** `size` name fields, zeroed as `calloc` leaves them, with `names` copied
      into the first ones by `strncat`. */
  function Pack(names: seq<Name>, size: nat): (r: seq<byte>)
    requires |names| <= size && forall k :: 0 <= k < |names| ==> IsName(names[k])
    ensures |r| == size * NAME_FIELD
  {
    if size == 0 then []
    else if names == [] then Zeros(NAME_FIELD) + Pack([], size - 1)
    else Slot(names[0]) + Pack(names[1..], size - 1)
  }

  /** The first `count` names of a buffer of name fields, as a client reads them. */
  function Unpack(buf: seq<byte>, count: nat): (r: seq<Name>)
    requires count * NAME_FIELD <= |buf|
    ensures |r| == count
  {
    if count == 0 then [] else [CStr(buf[..NAME_FIELD])] + Unpack(buf[NAME_FIELD..], count - 1)
  }

  lemma {:induction false} PackNothing(size: nat)
    ensures Pack([], size) == Zeros(size * NAME_FIELD)
  {
    if size > 0 {
      PackNothing(size - 1);
    }
  }

  /** The first field of a buffer holding at least one name holds that name;
      the rest is the buffer for the remaining names. */
  lemma PackFirst(names: seq<Name>, size: nat)
    requires 1 <= |names| <= size && forall k :: 0 <= k < |names| ==> IsName(names[k])
    ensures Pack(names, size)[..NAME_FIELD] == Slot(names[0])
    ensures Pack(names, size)[NAME_FIELD..] == Pack(names[1..], size - 1)
  {
  }

  /** Reading the listed number of names back from the buffer gives the names. */
  lemma {:induction false} UnpackPack(names: seq<Name>, size: nat)
    requires |names| <= size && forall k :: 0 <= k < |names| ==> IsName(names[k])
    ensures Unpack(Pack(names, size), |names|) == names
  {
    if names != [] {
      UnpackPack(names[1..], size - 1);
      PackFirst(names, size);
    }
  }

  /** The fields after the listed names are all zero. */
  lemma {:induction false} PackTail(names: seq<Name>, size: nat)
    requires |names| <= size && forall k :: 0 <= k < |names| ==> IsName(names[k])
    ensures Pack(names, size)[|names| * NAME_FIELD..] == Zeros((size - |names|) * NAME_FIELD)
  {
    if names == [] {
      PackNothing(size);
    } else {
      PackTail(names[1..], size - 1);
      PackFirst(names, size);
      var buf := Pack(names, size);
      var n := |names|;
      assert n * NAME_FIELD == NAME_FIELD + (n - 1) * NAME_FIELD;
      assert (size - n) * NAME_FIELD == (size - 1 - (n - 1)) * NAME_FIELD;
      assert buf[n * NAME_FIELD..] == buf[NAME_FIELD..][(n - 1) * NAME_FIELD..];
    }
  }

  /** What `icl_hash_get_onlineusers` hands back: NULL, a buffer, or a write
      outside the buffer it allocated (undefined behaviour in C). */
  datatype Listing = NoListing | Overrun | Listing(buf: seq<byte>)

  /** `icl_hash_get_onlineusers` as written: NULL for a negative size;
      otherwise `size` zeroed name fields filled with the online users in
      bucket order, after which a terminator is stored at offset
      `n * (MAX_NAME_LENGTH+1)` for `n` listed names. That offset lies inside
      the buffer only when `n < size`; with more names than fields the names
      themselves already overrun it. */
  function GetOnlineUsers(t: Table, size: int): (r: Listing)
    requires Valid(t) && NamesFit(t)
    ensures r.NoListing? <==> size < 0
    ensures r.Overrun? <==> size >= 0 && |OnlineUsers(t)| >= size
    ensures r.Listing? ==> r == OnlineListing(t, size)
  {
    if size < 0 then NoListing
    else if |OnlineUsers(t)| >= size then Overrun
    else OnlineListing(t, size)
  }

  /** The listing without the stray terminator: `size` name fields, zeroed as
      `calloc` leaves them, holding the online users in bucket order, and an
      overrun only when there are more of them than fields. Reading the listed
      number of names back gives the online users, and the unused fields stay
      zero. */
  function OnlineListing(t: Table, size: int): (r: Listing)
    requires Valid(t) && NamesFit(t)
    ensures r.NoListing? <==> size < 0
    ensures r.Overrun? <==> size >= 0 && |OnlineUsers(t)| > size
    ensures r.Listing? ==> var n := |OnlineUsers(t)|;
                           && |r.buf| == size * NAME_FIELD
                           && Unpack(r.buf, n) == OnlineUsers(t)
                           && r.buf[n * NAME_FIELD..] == Zeros((size - n) * NAME_FIELD)
  {
    if size < 0 then NoListing
    else if |OnlineUsers(t)| > size then Overrun
    else
      OnlineUsersFit(t);
      UnpackPack(OnlineUsers(t), size);
      PackTail(OnlineUsers(t), size);
      Listing(Pack(OnlineUsers(t), size))
  }

  /** The off-by-one: one online user and a buffer of one field, which the
      names fill exactly, and the terminator is written one byte past it. */
  lemma ExactFitOverruns()
    ensures var e := Entry([97], 3, true, History.InitQueue(1));
            var t := Table([[e]], 1, 1);
            && Valid(t) && NamesFit(t) && OnlineUsers(t) == [[97]]
            && GetOnlineUsers(t, 1) == Overrun
            && OnlineListing(t, 1).Listing?
  {
    var e := Entry([97], 3, true, History.InitQueue(1));
    var t := Table([[e]], 1, 1);
    assert Bucket([97], 1) == 0;
    assert Size(t.buckets) == 1 by {
      assert t.buckets[..0] == [];
    }
    assert ChainOnline([e]) == [[97]] by {
      assert [e][1..] == [];
    }
    assert OnlineUpTo(t.buckets, 1) == OnlineUpTo(t.buckets, 0) + ChainOnline(t.buckets[0]);
  }
}

=== FILE: history.dfy ===
/**
  The bounded per-user message history (queue.c). The C queue is a singly
  linked list with a `head`, a `tail`, a length `qlen`, a capacity `qmax` and
  an overwrite cursor `qcurr`. Here the list is the sequence `slots` in list
  order from `head`, `qlen` is `|slots|`, and `tail` is slot `qcurr - 1`.

  Below capacity a push appends. At capacity a push overwrites slot `qcurr`,
  or slot 0 once `qcurr` has reached `qmax`, so after a wrap-around the list
  order from `head` is not arrival order.

  The queue is generic in what it stores; the server stores messages.
 */
module History {
  import opened Bytes

  datatype Queue<T> = Queue(slots: seq<T>, qcurr: nat, qmax: nat)

  /** The shape every queue built by `initQueue` and `push` keeps. */
  predicate Valid<T>(q: Queue<T>) {
    && |q.slots| <= q.qmax
    && (|q.slots| == 0 ==> q.qcurr == 0)
    && (|q.slots| > 0 ==> 1 <= q.qcurr <= |q.slots|)
    && (|q.slots| < q.qmax ==> q.qcurr == |q.slots|)
  }

  /** `initQueue`: an empty queue of capacity `qmax`. */
  function InitQueue<T>(qmax: u32): (q: Queue<T>)
    ensures Valid(q)
    ensures |q.slots| == 0 && q.qcurr == 0 && q.qmax == qmax
  {
    Queue([], 0, qmax)
  }

  /** `push`: stores `m`; it never fails and always reports 0. The C code
      dereferences the empty list's head when `qmax` is 0, hence the precondition. */
  function Push<T>(q: Queue<T>, m: T): (r: Queue<T>)
    requires Valid(q) && q.qmax >= 1
    ensures Valid(r) && r.qmax == q.qmax
    ensures |r.slots| == if |q.slots| < q.qmax then |q.slots| + 1 else q.qmax
    ensures |q.slots| < q.qmax ==> r.slots == q.slots + [m]
    ensures |q.slots| == q.qmax ==>
              var k := if q.qcurr == q.qmax then 0 else q.qcurr;
              r.slots == q.slots[k := m] && r.qcurr == k + 1
  {
    if q.qcurr == q.qmax then
      // full and the cursor is at the end: overwrite the head, restart the cursor
      Queue(q.slots[0 := m], 1, q.qmax)
    else if |q.slots| == 0 then
      Queue([m], 1, q.qmax)
    else if q.qcurr < |q.slots| then
      // the tail has a successor: overwrite it
      Queue(q.slots[q.qcurr := m], q.qcurr + 1, q.qmax)
    else
      Queue(q.slots + [m], q.qcurr + 1, q.qmax)
  }

  /** `pop` (not used by the server): removes and returns the head message. */
  function Pop<T>(q: Queue<T>): (r: (T, Queue<T>))
    requires Valid(q) && |q.slots| > 0
    ensures r.0 == q.slots[0]
    ensures r.1.slots == q.slots[1..] && r.1.qmax == q.qmax
    ensures r.1.qcurr == |q.slots| - 1 && Valid(r.1)
  {
    (q.slots[0], Queue(q.slots[1..], |q.slots| - 1, q.qmax))
  }

  /** `queueLength`: `qlen`, the number of messages the list holds. */
  function QueueLength<T>(q: Queue<T>): (n: nat)
    ensures n == |q.slots|
    ensures Valid(q) ==> n <= q.qmax
  {
    |q.slots|
  }

  /** A fresh queue that was sent `ms` reports the number of pushes, capped
      at its capacity. */
  lemma QueueLengthCountsPushes<T>(qmax: u32, ms: seq<T>)
    requires qmax >= 1
    ensures QueueLength(PushAll(InitQueue(qmax), ms)) == Min(|ms|, qmax)
  {
    LastPushesKept(qmax, ms);
  }

  /** The queue after pushing `ms` in order. */
  function PushAll<T>(q: Queue<T>, ms: seq<T>): (r: Queue<T>)
    requires Valid(q) && q.qmax >= 1
    ensures Valid(r) && r.qmax == q.qmax
    decreases |ms|
  {
    if ms == [] then q else Push(PushAll(q, ms[..|ms| - 1]), ms[|ms| - 1])
  }

  /** The slots read from the cursor to the end, then from the head up to the
      cursor: the order in which the messages arrived. */
  function ArrivalOrder<T>(q: Queue<T>): seq<T>
    requires q.qcurr <= |q.slots|
  {
    q.slots[q.qcurr..] + q.slots[..q.qcurr]
  }

  function Min(a: nat, b: nat): nat {
    if a <= b then a else b
  }

  /** A push into a full queue drops the oldest message and adds `m` as the newest. */
  lemma PushFullRotates<T>(p: Queue<T>, m: T)
    requires Valid(p) && p.qmax >= 1 && |p.slots| == p.qmax
    ensures ArrivalOrder(Push(p, m)) == ArrivalOrder(p)[1..] + [m]
  {
    var q := Push(p, m);
    var c := p.qcurr;
    if c == p.qmax {
      assert ArrivalOrder(p) == p.slots;
      assert q.slots[1..] == p.slots[1..];
      assert ArrivalOrder(q) == q.slots[1..] + q.slots[..1];
    } else {
      assert q.slots[c + 1..] == p.slots[c + 1..];
      assert q.slots[..c] == p.slots[..c];
      assert q.slots[..c + 1] == p.slots[..c] + [m];
      assert ArrivalOrder(p)[1..] == p.slots[c + 1..] + p.slots[..c];
    }
  }

  /** Fewer pushes than the capacity: every message kept, in arrival order. */
  lemma {:induction false} PushAllBelowCapacity<T>(qmax: u32, ms: seq<T>)
    requires 1 <= |ms| <= qmax
    ensures PushAll(InitQueue(qmax), ms).slots == ms
    ensures PushAll(InitQueue(qmax), ms).qcurr == |ms|
  {
    var init := ms[..|ms| - 1];
    if init != [] {
      PushAllBelowCapacity(qmax, init);
    }
    assert init + [ms[|ms| - 1]] == ms;
  }

  /** Exactly as many pushes as the capacity: the cursor is back at the end. */
  lemma PushAllToCapacity<T>(qmax: u32, ms: seq<T>)
    requires 1 <= qmax == |ms|
    ensures |PushAll(InitQueue(qmax), ms).slots| == qmax
    ensures ArrivalOrder(PushAll(InitQueue(qmax), ms)) == ms
  {
    PushAllBelowCapacity(qmax, ms);
    assert ms[qmax..] + ms[..qmax] == ms;
  }

  /** Pushing `a` and then `b` is pushing `a + b`. */
  lemma {:induction false} PushAllAppend<T>(q: Queue<T>, a: seq<T>, b: seq<T>)
    requires Valid(q) && q.qmax >= 1
    ensures PushAll(q, a + b) == PushAll(PushAll(q, a), b)
    decreases |b|
  {
    if b == [] {
      assert a + b == a;
    } else {
      PushAllAppend(q, a, b[..|b| - 1]);
      assert (a + b)[..|a + b| - 1] == a + b[..|b| - 1];
    }
  }

  lemma WindowStep<T>(w: seq<T>, xs: seq<T>)
    requires |xs| >= 1 && |w| >= 1
    ensures (w + xs)[|xs|..] == (w + xs[..|xs| - 1])[|xs| - 1..][1..] + [xs[|xs| - 1]]
  {
  }

  /** Pushes into a full queue keep it full and slide its window over the
      arrivals: the oldest messages drop out, one per push. */
  lemma {:induction false} FullPushAll<T>(p: Queue<T>, xs: seq<T>)
    requires Valid(p) && 1 <= p.qmax == |p.slots|
    ensures |PushAll(p, xs).slots| == p.qmax
    ensures ArrivalOrder(PushAll(p, xs)) == (ArrivalOrder(p) + xs)[|xs|..]
    decreases |xs|
  {
    if xs == [] {
      assert ArrivalOrder(p) + xs == ArrivalOrder(p);
    } else {
      var n := |xs|;
      FullPushAll(p, xs[..n - 1]);
      PushFullRotates(PushAll(p, xs[..n - 1]), xs[n - 1]);
      WindowStep(ArrivalOrder(p), xs);
    }
  }

  /** At least as many pushes as the capacity: the last `qmax` messages, in
      arrival order when read from the cursor. */
  lemma PushAllAtCapacity<T>(qmax: u32, ms: seq<T>)
    requires 1 <= qmax <= |ms|
    ensures |PushAll(InitQueue(qmax), ms).slots| == qmax
    ensures ArrivalOrder(PushAll(InitQueue(qmax), ms)) == ms[|ms| - qmax..]
  {
    var q0: Queue<T> := InitQueue(qmax);
    var a, b := ms[..qmax], ms[qmax..];
    assert ms == a + b;
    PushAllToCapacity(qmax, a);
    PushAllAppend(q0, a, b);
    FullPushAll(PushAll(q0, a), b);
  }

  /** After any number of pushes into a fresh queue of capacity `qmax`, the
      queue holds the last `qmax` messages (all of them when there were fewer);
      read from the head they are in slot order, and read from the cursor
      (`ArrivalOrder`) they are in arrival order. */
  lemma LastPushesKept<T>(qmax: u32, ms: seq<T>)
    requires qmax >= 1
    ensures var q := PushAll(InitQueue(qmax), ms);
            && |q.slots| == Min(|ms|, qmax)
            && (|ms| <= qmax ==> q.slots == ms)
            && (|ms| >= qmax ==> ArrivalOrder(q) == ms[|ms| - qmax..])
  {
    if |ms| >= qmax {
      PushAllAtCapacity(qmax, ms);
    }
    if 1 <= |ms| <= qmax {
      PushAllBelowCapacity(qmax, ms);
    }
  }

  /** After a wrap-around the list order from the head is not arrival order:
      with capacity 2, pushing a, b, c leaves the list c, b. */
  lemma SlotOrderAfterWrap<T>(a: T, b: T, c: T)
    ensures PushAll(InitQueue(2), [a, b, c]).slots == [c, b]
  {
    var q0: Queue<T> := InitQueue(2);
    var q1 := Push(q0, a);
    var q2 := Push(q1, b);
    var q3 := Push(q2, c);
    assert [a, b, c][..2] == [a, b];
    assert [a, b][..1] == [a];
    assert [a][..0] == [];
    assert PushAll(q0, [a]) == q1;
    assert PushAll(q0, [a, b]) == q2;
    assert PushAll(q0, [a, b, c]) == q3;
    assert q3.slots == [c, b];
  }
}

=== FILE: messages.dfy ===
/**
  The message format exchanged by clients and server (message.h): a header
  with the operation code and the sender's nickname, and a data part with
  the receiver's nickname, a length and a payload buffer.
 */
module Messages {
  import opened Bytes

  /** Longest nickname; every nickname field holds one more byte for the terminator. */
  const MAX_NAME_LENGTH: nat := 32
  const NAME_FIELD: nat := MAX_NAME_LENGTH + 1

  // Operation and reply codes. The header that numbers them (ops.h) is not
  // part of this model: the values below are distinct placeholders, and the
  // model only ever compares codes for equality.
  const REGISTER_OP: u32 := 0
  const CONNECT_OP: u32 := 1
  const POSTTXT_OP: u32 := 2
  const POSTTXTALL_OP: u32 := 3
  const POSTFILE_OP: u32 := 4
  const GETFILE_OP: u32 := 5
  const GETPREVMSGS_OP: u32 := 6
  const USRLIST_OP: u32 := 7
  const UNREGISTER_OP: u32 := 8
  const DISCONNECT_OP: u32 := 9
  const OP_OK: u32 := 20
  const OP_FAIL: u32 := 21
  const OP_NICK_ALREADY: u32 := 22
  const OP_NICK_UNKNOWN: u32 := 23
  const OP_MSG_TOOLONG: u32 := 24
  const OP_NO_SUCH_FILE: u32 := 25
  const TXT_MESSAGE: u32 := 30
  const FILE_MESSAGE: u32 := 31

  /** `message_hdr_t`: `sender` is the raw `MAX_NAME_LENGTH+1`-byte field. */
  datatype Header = Header(op: u32, sender: seq<byte>)

  /** `message_data_hdr_t`: `receiver` is the raw name field, `len` the buffer length. */
  datatype DataHeader = DataHeader(receiver: seq<byte>, len: u32)

  /** `message_data_t`; `buf` stands for the bytes the C pointer refers to. */
  datatype Data = Data(hdr: DataHeader, buf: seq<byte>)

  datatype Message = Message(hdr: Header, data: Data)

  /** A nickname as the C code handles it: a string that fits its field with its terminator. */
  predicate IsName(s: seq<byte>) {
    NoNul(s) && |s| <= MAX_NAME_LENGTH
  }

  /** A name field of the right size that holds a terminator. */
  predicate FieldOk(f: seq<byte>) {
    |f| == NAME_FIELD && 0 in f
  }

  predicate WellFormed(m: Message) {
    FieldOk(m.hdr.sender) && FieldOk(m.data.hdr.receiver)
  }

  /** The nickname a field holds. */
  function NameOf(f: seq<byte>): (r: seq<byte>)
    requires FieldOk(f)
    ensures IsName(r)
  {
    CStr(f)
  }

  /** "server", the sender name of every reply the server makes up itself. */
  const SERVER: seq<byte> := [115, 101, 114, 118, 101, 114]

  /** The contents of a never-written header or data part (a fresh local in the C code). */
  const BlankHeader: Header := Header(0, Zeros(NAME_FIELD))
  const BlankData: Data := Data(DataHeader(Zeros(NAME_FIELD), 0), [])

  /** Copies `sender` with its terminator into a field, leaving the bytes after it as they were. */
  function CopyName(field: seq<byte>, name: seq<byte>): (r: seq<byte>)
    requires |field| == NAME_FIELD && IsName(name)
    ensures FieldOk(r) && NameOf(r) == name
    ensures r[|name| + 1..] == field[|name| + 1..]
  {
    CStrOfTerminated(name, field[|name| + 1..]);
    name + [0] + field[|name| + 1..]
  }

  /** `setHeader`: sets the operation code and copies the sender's name into the header. */
  function SetHeader(hdr: Header, op: u32, sender: seq<byte>): (r: Header)
    requires |hdr.sender| == NAME_FIELD && IsName(sender)
    ensures r.op == op
    ensures FieldOk(r.sender) && NameOf(r.sender) == sender
    ensures r.sender[|sender| + 1..] == hdr.sender[|sender| + 1..]
  {
    Header(op, CopyName(hdr.sender, sender))
  }

  /** `setData`: copies the receiver's name, records `len` and keeps `buf` itself, uncopied. */
  function SetData(data: Data, rcv: seq<byte>, buf: seq<byte>, len: u32): (r: Data)
    requires |data.hdr.receiver| == NAME_FIELD && IsName(rcv)
    ensures FieldOk(r.hdr.receiver) && NameOf(r.hdr.receiver) == rcv
    ensures r.hdr.receiver[|rcv| + 1..] == data.hdr.receiver[|rcv| + 1..]
    ensures r.hdr.len == len && r.buf == buf
  {
    Data(DataHeader(CopyName(data.hdr.receiver, rcv), len), buf)
  }

  /** A message built by the server: `setHeader` and `setData` applied to fresh parts. */
  function Build(op: u32, sender: seq<byte>, rcv: seq<byte>, buf: seq<byte>, len: u32): (r: Message)
    requires IsName(sender) && IsName(rcv)
    ensures WellFormed(r)
    ensures r.hdr.op == op && NameOf(r.hdr.sender) == sender
    ensures NameOf(r.data.hdr.receiver) == rcv && r.data.hdr.len == len && r.data.buf == buf
  {
    Message(SetHeader(BlankHeader, op, sender), SetData(BlankData, rcv, buf, len))
  }
}

=== FILE: threadpool.dfy ===
/**
  The task ring of the worker pool (threadpool.c). Tasks wait in a circular
  buffer of `queue_size` slots: `head` is the next task to run, `tail` the
  next free slot and `count` the number of waiting tasks. Worker threads are
  modelled by their dequeue steps; locks and condition variables are read as
  making each operation atomic.

  A task (a function pointer with its argument) is an opaque `T`; `None`
  stands for a NULL function pointer or a slot never written.
 */
module ThreadPool {
  import opened Wrappers

  const MAX_THREADS: int := 64
  const MAX_QUEUE: int := 65536

  // threadpool_error_t
  const INVALID: int := -1
  const LOCK_FAILURE: int := -2
  const QUEUE_FULL: int := -3
  const SHUTDOWN: int := -4
  const THREAD_FAILURE: int := -5

  /** `threadpool_graceful`, the only flag `threadpool_destroy` reads. */
  const GRACEFUL_FLAG: int := 1

  /** The `shutdown` field: 0, `immediate_shutdown` (1) or `graceful_shutdown` (2). */
  datatype Shutdown = Running | Immediate | Graceful

  /** `threadpool_t` without its lock, condition variable and thread handles;
      `queue_size` is `|queue|`. */
  datatype Pool<T> = Pool(queue: seq<Option<T>>, head: int, tail: int, count: int,
                          shutdown: Shutdown, threadCount: int, started: int)

  /** The slot `k` places after `head` in a ring of `size` slots, for `k <= size`. */
  function Slot(head: int, k: int, size: int): (s: int)
    requires 0 <= head < size && 0 <= k <= size
    ensures 0 <= s < size
  {
    if head + k < size then head + k else head + k - size
  }

  /** `Slot` is `(head + k) % size`, the index the C code computes. */
  lemma SlotIsMod(head: int, k: int, size: int)
    requires 0 <= head < size && 0 <= k <= size
    ensures Slot(head, k, size) == (head + k) % size
  {
    var a := head + k;
    if a < size {
      ModOfSmall(a, size);
    } else {
      ModOfRange(a, size);
    }
  }

  lemma ModOfSmall(a: int, n: int)
    requires 0 <= a < n
    ensures a % n == a
  {
  }

  lemma ModOfRange(a: int, n: int)
    requires n <= a < 2 * n
    ensures a % n == a - n
  {
  }

  /** The ring invariant: `tail == (head + count) % queue_size`, the count
      within the capacity, and every waiting task stored. */
  predicate Valid<T>(p: Pool<T>) {
    && 1 <= |p.queue| <= MAX_QUEUE
    && 0 <= p.head < |p.queue|
    && 0 <= p.count <= |p.queue|
    && p.tail == Slot(p.head, p.count, |p.queue|)
    && (forall k :: 0 <= k < p.count ==> p.queue[Slot(p.head, k, |p.queue|)].Some?)
    && 0 <= p.started <= p.threadCount <= MAX_THREADS
  }

  /** The waiting tasks, oldest first. */
  function Contents<T>(p: Pool<T>): (ts: seq<T>)
    requires Valid(p)
    ensures |ts| == p.count
  {
    seq(p.count, k requires 0 <= k < p.count => p.queue[Slot(p.head, k, |p.queue|)].value)
  }

  /** `threadpool_create`: NULL unless `1 <= thread_count <= MAX_THREADS` and
      `1 <= queue_size <= MAX_QUEUE`; otherwise an empty ring with every
      thread started. */
  function Create<T>(threadCount: int, queueSize: int): (r: Option<Pool<T>>)
    ensures r.Some? <==> 1 <= threadCount <= MAX_THREADS && 1 <= queueSize <= MAX_QUEUE
    ensures r.Some? ==> && Valid(r.value) && Contents(r.value) == []
                        && |r.value.queue| == queueSize
                        && r.value.head == 0 && r.value.tail == 0
                        && r.value.shutdown == Running
                        && r.value.threadCount == threadCount && r.value.started == threadCount
  {
    if threadCount <= 0 || threadCount > MAX_THREADS || queueSize <= 0 || queueSize > MAX_QUEUE then None
    else Some(Pool(seq(queueSize, _ => None), 0, 0, 0, Running, threadCount, threadCount))
  }

  /** `threadpool_add`: `INVALID` for a NULL pool or function; otherwise
      `QUEUE_FULL` when the ring is full, checked before `SHUTDOWN` during a
      shutdown; both leave the pool as it was. Otherwise the task is stored
      at `tail`, which moves one slot on, and the result is 0. */
  function Add<T>(p: Option<Pool<T>>, task: Option<T>): (r: (Option<Pool<T>>, int))
    requires p.Some? ==> Valid(p.value)
    ensures p.None? || task.None? ==> r == (p, INVALID)
    ensures p.Some? && task.Some? ==>
              var q := p.value;
              && (q.count == |q.queue| ==> r == (p, QUEUE_FULL))
              && (q.count < |q.queue| && q.shutdown != Running ==> r == (p, SHUTDOWN))
              && (q.count < |q.queue| && q.shutdown == Running ==>
                    && r.1 == 0 && r.0.Some? && Valid(r.0.value)
                    && Contents(r.0.value) == Contents(q) + [task.value]
                    && r.0.value.head == q.head && r.0.value.count == q.count + 1
                    && |r.0.value.queue| == |q.queue|
                    && r.0.value.shutdown == q.shutdown && r.0.value.started == q.started
                    && r.0.value.threadCount == q.threadCount)
  {
    if p.None? || task.None? then (p, INVALID)
    else
      var q := p.value;
      var next := (q.tail + 1) % |q.queue|;
      if q.count == |q.queue| then (p, QUEUE_FULL)
      else if q.shutdown != Running then (p, SHUTDOWN)
      else
        var q' := q.(queue := q.queue[q.tail := task], tail := next, count := q.count + 1);
        AddKeepsOrder(q, task.value);
        (Some(q'), 0)
  }

  lemma AddKeepsOrder<T>(q: Pool<T>, t: T)
    requires Valid(q) && q.count < |q.queue|
    ensures var q' := q.(queue := q.queue[q.tail := Some(t)], tail := (q.tail + 1) % |q.queue|,
                         count := q.count + 1);
            Valid(q') && Contents(q') == Contents(q) + [t]
  {
    var n := |q.queue|;
    var q' := q.(queue := q.queue[q.tail := Some(t)], tail := (q.tail + 1) % n, count := q.count + 1);
    SlotIsMod(q.tail, 1, n);
    assert q'.tail == Slot(q.head, q.count + 1, n);
    assert forall k :: 0 <= k < q.count ==> Slot(q.head, k, n) != q.tail;
    assert Contents(q') == Contents(q) + [t];
  }

  /** What a worker does once it holds the lock. */
  datatype Step<T> =
    | Wait                     // no task and no shutdown: sleep on the condition variable
    | Exit(after: Pool<T>)     // leave the loop, one thread fewer started
    | Run(task: T, after: Pool<T>)  // dequeue the task at `head` and run it

  /** One pass of the loop in `threadpool_thread`. */
  function WorkerStep<T>(p: Pool<T>): (s: Step<T>)
    requires Valid(p)
    ensures s.Wait? <==> p.count == 0 && p.shutdown == Running
    ensures s.Exit? <==> p.shutdown == Immediate || (p.shutdown == Graceful && p.count == 0)
    ensures s.Exit? ==> s.after == p.(started := p.started - 1)
    ensures s.Run? ==> && p.count > 0 && Valid(s.after)
                       && s.task == Contents(p)[0] && Contents(s.after) == Contents(p)[1..]
                       && s.after.shutdown == p.shutdown && s.after.started == p.started
  {
    match p.shutdown
    case Immediate => Exit(p.(started := p.started - 1))
    case Graceful => if p.count == 0 then Exit(p.(started := p.started - 1)) else Dequeue(p)
    case Running => if p.count == 0 then Wait else Dequeue(p)
  }

  /** Takes the task at `head`: `head` moves one slot on and `count` drops by one. */
  function Dequeue<T>(p: Pool<T>): (s: Step<T>)
    requires Valid(p) && p.count > 0
    ensures s.Run? && Valid(s.after)
    ensures s.task == Contents(p)[0] && Contents(s.after) == Contents(p)[1..]
    ensures s.after.shutdown == p.shutdown && s.after.started == p.started
  {
    var p' := p.(head := (p.head + 1) % |p.queue|, count := p.count - 1);
    DequeueKeepsOrder(p);
    Run(p.queue[p.head].value, p')
  }

  lemma DequeueKeepsOrder<T>(p: Pool<T>)
    requires Valid(p) && p.count > 0
    ensures var p' := p.(head := (p.head + 1) % |p.queue|, count := p.count - 1);
            && Valid(p') && p.queue[p.head].Some?
            && p.queue[p.head].value == Contents(p)[0] && Contents(p') == Contents(p)[1..]
  {
    var n := |p.queue|;
    var p' := p.(head := (p.head + 1) % n, count := p.count - 1);
    SlotIsMod(p.head, 1, n);
    assert Slot(p.head, 0, n) == p.head;
    assert forall k :: 0 <= k <= p.count - 1 ==> Slot(p'.head, k, n) == Slot(p.head, k + 1, n);
    assert Contents(p') == Contents(p)[1..];
  }

  /** A worker that keeps stepping after a graceful shutdown: the tasks it
      runs, in order, and the pool when it exits. */
  function GracefulRun<T>(p: Pool<T>): (r: (seq<T>, Pool<T>))
    requires Valid(p) && p.shutdown == Graceful
    ensures r.0 == Contents(p)
    ensures r.1.count == 0 && r.1.started == p.started - 1
    decreases p.count
  {
    match WorkerStep(p)
    case Run(t, p') =>
      var rest := GracefulRun(p');
      ([t] + rest.0, rest.1)
    case Exit(p') => ([], p')
    case Wait => ([], p)
  }

  /** `threadpool_destroy` up to waking the workers: `INVALID` for a NULL pool,
      `SHUTDOWN` when a shutdown is already under way (the pool is left as it
      was), otherwise 0 with a graceful shutdown when `flags` has the
      `threadpool_graceful` bit and an immediate one otherwise. */
  function Destroy<T>(p: Option<Pool<T>>, flags: int): (r: (Option<Pool<T>>, int))
    ensures p.None? ==> r == (p, INVALID)
    ensures p.Some? && p.value.shutdown != Running ==> r == (p, SHUTDOWN)
    ensures p.Some? && p.value.shutdown == Running ==>
              && r.1 == 0
              && r.0 == Some(p.value.(shutdown := if flags % 2 == GRACEFUL_FLAG then Graceful else Immediate))
  {
    if p.None? then (p, INVALID)
    else if p.value.shutdown != Running then (p, SHUTDOWN)
    else
      // `flags & threadpool_graceful` on a two's-complement `int` is its low bit
      (Some(p.value.(shutdown := if flags % 2 == 1 then Graceful else Immediate)), 0)
  }

  /** After a graceful destroy every queued task still runs, oldest first, before the worker exits. */
  lemma GracefulDestroyDrains<T>(p: Pool<T>)
    requires Valid(p) && p.shutdown == Running
    ensures var d := Destroy(Some(p), GRACEFUL_FLAG).0.value;
            d.shutdown == Graceful && Valid(d) && GracefulRun(d).0 == Contents(p)
  {
    var d := Destroy(Some(p), GRACEFUL_FLAG).0.value;
    assert Contents(d) == Contents(p);
  }

  /** After a destroy without the graceful bit a worker exits at its next
      step and every queued task is left behind, unrun. */
  lemma ImmediateDestroyDrops<T>(p: Pool<T>, flags: int)
    requires Valid(p) && p.shutdown == Running && flags % 2 == 0
    ensures var d := Destroy(Some(p), flags).0.value;
            && d.shutdown == Immediate && Valid(d)
            && Contents(d) == Contents(p)
            && WorkerStep(d).Exit?
            && WorkerStep(d).after.(started := p.started, shutdown := Running) == p
  {
    var d := Destroy(Some(p), flags).0.value;
    assert Contents(d) == Contents(p);
  }

  /** `threadpool_free`: -1 for a NULL pool or while some thread is still started, else 0. */
  function Free<T>(p: Option<Pool<T>>): (r: int)
    ensures r == -1 <==> p.None? || p.value.started > 0
    ensures r == 0 <==> p.Some? && p.value.started <= 0
  {
    if p.None? || p.value.started > 0 then -1 else 0
  }
}

=== FILE: wire.dfy ===
/**
  The byte layout of a message on a connection (connections.c): the 4-byte
  operation code, the 33-byte sender field, the 33-byte receiver field, the
  4-byte length and then, only when the length is not 0, that many payload
  bytes. Integers travel least significant byte first (the byte order of the
  host is assumed to be little-endian).

  A connection is a byte sequence. Sending appends bytes to it; reading takes
  bytes from its front, and a connection closed by the peer is a sequence that
  runs out. `readn` copies whatever bytes arrive before the end into its
  buffer, so a read cut short leaves the field's earlier contents behind the
  bytes that did arrive.
 */
module Wire {
  import opened Bytes
  import opened Messages

  /** Offsets of the fields in an encoded message. */
  const OP_SIZE: nat := 4
  const LEN_SIZE: nat := 4
  const LEN_OFFSET: nat := OP_SIZE + 2 * NAME_FIELD
  const PAYLOAD_OFFSET: nat := LEN_OFFSET + LEN_SIZE

  /** The bytes a send wrote and its result (1 on success, 0 on failure). */
  datatype Sent = Sent(status: int, bytes: seq<byte>)

  /** A read's result (1 on success, 0 on failure), what it left in the
      caller's structure, and the bytes still unread. */
  datatype Read<V> = Read(status: int, value: V, rest: seq<byte>)

  /** `sendHeader`: the operation code, then the sender field. */
  function SendHeader(fd: int, h: Header): (r: Sent)
    requires |h.sender| == NAME_FIELD
    ensures fd < 0 ==> r == Sent(0, [])
    ensures fd >= 0 ==> r.status == 1 && |r.bytes| == OP_SIZE + NAME_FIELD
  {
    if fd < 0 then Sent(0, []) else Sent(1, LE(h.op, OP_SIZE) + h.sender)
  }

  /** `sendData`: the receiver field and the length, then exactly `len`
      payload bytes unless `len` is 0. */
  function SendData(fd: int, d: Data): (r: Sent)
    requires |d.hdr.receiver| == NAME_FIELD && d.hdr.len <= |d.buf|
    ensures fd < 0 ==> r == Sent(0, [])
    ensures fd >= 0 ==> r.status == 1 && |r.bytes| == NAME_FIELD + LEN_SIZE + d.hdr.len
  {
    if fd < 0 then Sent(0, [])
    else
      var payload := if d.hdr.len == 0 then [] else d.buf[..d.hdr.len];
      Sent(1, d.hdr.receiver + LE(d.hdr.len, LEN_SIZE) + payload)
  }

  /** A message whose fields have their fixed sizes and whose buffer holds `len` bytes. */
  predicate Sendable(m: Message) {
    |m.hdr.sender| == NAME_FIELD && |m.data.hdr.receiver| == NAME_FIELD && m.data.hdr.len <= |m.data.buf|
  }

  /** `sendRequest`: the header, then the data; 1 only when both parts were sent. */
  function SendRequest(fd: int, m: Message): (r: Sent)
    requires Sendable(m)
    ensures fd < 0 ==> r == Sent(0, [])
    ensures fd >= 0 ==> r.status == 1 && |r.bytes| == PAYLOAD_OFFSET + m.data.hdr.len
  {
    if fd < 0 then Sent(0, [])
    else
      var h := SendHeader(fd, m.hdr);
      var d := SendData(fd, m.data);
      Sent(if h.status != 0 && d.status != 0 then 1 else 0, h.bytes + d.bytes)
  }

  /** `readn` into a buffer holding `field`: whether all `|field|` bytes
      arrived, the buffer afterwards, and the unread bytes. */
  function ReadN(field: seq<byte>, s: seq<byte>): (r: (bool, seq<byte>, seq<byte>))
    ensures |r.1| == |field|
    ensures r.0 <==> |s| >= |field|
    ensures r.0 ==> r.1 == s[..|field|] && r.2 == s[|field|..]
    ensures !r.0 ==> r.1[..|s|] == s && r.1[|s|..] == field[|s|..] && r.2 == []
  {
    if |s| >= |field| then (true, s[..|field|], s[|field|..])
    else (false, s + field[|s|..], [])
  }

  /** `readHeader`: the operation code, then the sender field; 0 as soon as
      the stream runs out. */
  function ReadHeader(fd: int, prior: Header, s: seq<byte>): (r: Read<Header>)
    requires |prior.sender| == NAME_FIELD
    ensures |r.value.sender| == NAME_FIELD
    ensures r.status == 1 <==> fd >= 0 && |s| >= OP_SIZE + NAME_FIELD
    ensures r.status == 0 && fd >= 0 ==> r.rest == []
  {
    if fd < 0 then Read(0, prior, s)
    else
      var (okOp, op, s1) := ReadN(LE(prior.op, OP_SIZE), s);
      if !okOp then Read(0, Header(FromLE(op), prior.sender), [])
      else
        var (okSender, sender, s2) := ReadN(prior.sender, s1);
        if !okSender then Read(0, Header(FromLE(op), sender), [])
        else Read(1, Header(FromLE(op), sender), s2)
  }

  /** `readData`: the receiver field, then the length, whose read is not
      checked; with a length of 0 it succeeds at once and keeps the earlier
      buffer, otherwise it reads `len` bytes into a fresh buffer (whose
      unread part is modelled as zero). */
  function ReadData(fd: int, prior: Data, s: seq<byte>): (r: Read<Data>)
    requires |prior.hdr.receiver| == NAME_FIELD
    ensures |r.value.hdr.receiver| == NAME_FIELD
    ensures r.status == 0 && fd >= 0 ==> r.rest == []
    ensures prior.hdr.len <= |prior.buf| ==> r.value.hdr.len <= |r.value.buf|
    ensures r.status == 1 ==> r.value.hdr.len <= |r.value.buf|
  {
    if fd < 0 then Read(0, prior, s)
    else
      var (okRcv, rcv, s1) := ReadN(prior.hdr.receiver, s);
      if !okRcv then Read(0, Data(DataHeader(rcv, prior.hdr.len), prior.buf), [])
      else
        var (_, lenBytes, s2) := ReadN(LE(prior.hdr.len, LEN_SIZE), s1);
        var len := FromLE(lenBytes);
        if len == 0 then Read(1, Data(DataHeader(rcv, 0), prior.buf), s2)
        else
          var (okBuf, buf, s3) := ReadN(Zeros(len), s2);
          Read(if okBuf then 1 else 0, Data(DataHeader(rcv, len), buf), s3)
  }

  /** `readMsg`: reads the header and then, whatever happened, the data; 1
      only when both succeeded. */
  function ReadMsg(fd: int, prior: Message, s: seq<byte>): (r: Read<Message>)
    requires Sendable(prior)
    ensures r.status == 0 || r.status == 1
  {
    if fd < 0 then Read(0, prior, s)
    else
      var h := ReadHeader(fd, prior.hdr, s);
      var d := ReadData(fd, prior.data, h.rest);
      Read(if h.status != 0 && d.status != 0 then 1 else 0, Message(h.value, d.value), d.rest)
  }

  // ---------------------------------------------------------------------------
  // properties

  /** Reading back what `sendRequest` wrote gives the sent header, receiver,
      length and payload, and leaves what followed unread; with a length of 0
      the reader keeps its earlier buffer. */
  lemma RoundTrip(fd: int, m: Message, prior: Message, rest: seq<byte>)
    requires fd >= 0 && Sendable(m) && Sendable(prior)
    ensures var r := ReadMsg(fd, prior, SendRequest(fd, m).bytes + rest);
            && r.status == 1 && r.rest == rest
            && r.value.hdr == m.hdr && r.value.data.hdr == m.data.hdr
            && r.value.data.buf == if m.data.hdr.len == 0 then prior.data.buf else m.data.buf[..m.data.hdr.len]
  {
    var s := SendRequest(fd, m).bytes + rest;
    assert s == SendHeader(fd, m.hdr).bytes + (SendData(fd, m.data).bytes + rest);
    HeaderRoundTrip(fd, m.hdr, prior.hdr, SendData(fd, m.data).bytes + rest);
    DataRoundTrip(fd, m.data, prior.data, rest);
  }

  /** Reading back what `sendHeader` wrote gives the sent header. */
  lemma HeaderRoundTrip(fd: int, h: Header, prior: Header, rest: seq<byte>)
    requires fd >= 0 && |h.sender| == NAME_FIELD && |prior.sender| == NAME_FIELD
    ensures ReadHeader(fd, prior, SendHeader(fd, h).bytes + rest) == Read(1, h, rest)
  {
    var s := SendHeader(fd, h).bytes + rest;
    FromLEOfLE(h.op, OP_SIZE);
    assert s[..OP_SIZE] == LE(h.op, OP_SIZE);
    assert s[OP_SIZE..][..NAME_FIELD] == h.sender;
    assert s[OP_SIZE..][NAME_FIELD..] == rest;
  }

  /** Reading back what `sendData` wrote gives the sent receiver, length and
      payload; with a length of 0 the reader keeps its earlier buffer. */
  lemma DataRoundTrip(fd: int, d: Data, prior: Data, rest: seq<byte>)
    requires fd >= 0 && |d.hdr.receiver| == NAME_FIELD && d.hdr.len <= |d.buf| && |prior.hdr.receiver| == NAME_FIELD
    ensures var r := ReadData(fd, prior, SendData(fd, d).bytes + rest);
            && r.status == 1 && r.rest == rest && r.value.hdr == d.hdr
            && r.value.buf == if d.hdr.len == 0 then prior.buf else d.buf[..d.hdr.len]
  {
    var len := d.hdr.len;
    var payload := if len == 0 then [] else d.buf[..len];
    var s := SendData(fd, d).bytes + rest;
    FromLEOfLE(len, LEN_SIZE);
    assert s[..NAME_FIELD] == d.hdr.receiver;
    assert s[NAME_FIELD..][..LEN_SIZE] == LE(len, LEN_SIZE);
    assert s[NAME_FIELD..][LEN_SIZE..] == payload + rest;
    if len > 0 {
      assert (payload + rest)[..len] == payload;
      assert (payload + rest)[len..] == rest;
    }
  }

  /** A stream that ends anywhere before the end of an encoded message, except
      inside the length field, makes `readMsg` fail. */
  lemma TruncatedFails(fd: int, m: Message, prior: Message, c: nat)
    requires fd >= 0 && Sendable(m) && Sendable(prior)
    requires c < |SendRequest(fd, m).bytes| && !(LEN_OFFSET <= c < PAYLOAD_OFFSET)
    ensures ReadMsg(fd, prior, SendRequest(fd, m).bytes[..c]).status == 0
  {
    var s := SendRequest(fd, m).bytes[..c];
    var h := ReadHeader(fd, prior.hdr, s);
    if c >= OP_SIZE + NAME_FIELD {
      var d := ReadData(fd, prior.data, h.rest);
      var e := SendRequest(fd, m).bytes;
      assert h.rest == e[OP_SIZE + NAME_FIELD..c];
      if c >= PAYLOAD_OFFSET {
        var len := m.data.hdr.len;
        FromLEOfLE(len, LEN_SIZE);
        assert e[LEN_OFFSET..PAYLOAD_OFFSET] == LE(len, LEN_SIZE);
        assert h.rest[NAME_FIELD..][..LEN_SIZE] == LE(len, LEN_SIZE);
      }
    }
  }

  /** The length read is never checked: a stream that ends inside the length
      field (or right before it) is accepted exactly when the length bytes that
      did arrive, over the length the structure held before, spell 0. */
  lemma TruncatedInLength(fd: int, m: Message, prior: Message, c: nat)
    requires fd >= 0 && Sendable(m) && Sendable(prior)
    requires LEN_OFFSET <= c < PAYLOAD_OFFSET
    ensures var e := SendRequest(fd, m).bytes;
            var partial := e[LEN_OFFSET..c] + LE(prior.data.hdr.len, LEN_SIZE)[c - LEN_OFFSET..];
            ReadMsg(fd, prior, e[..c]).status == 1 <==> FromLE(partial) == 0
  {
    var e := SendRequest(fd, m).bytes;
    var s := e[..c];
    var h := ReadHeader(fd, prior.hdr, s);
    assert h.status == 1;
    assert h.rest == e[OP_SIZE + NAME_FIELD..c];
    assert h.rest[NAME_FIELD..] == e[LEN_OFFSET..c];
  }

  /** An instance: a stream cut right after the receiver field, read into a
      structure whose length was 0, is reported as a complete message. */
  lemma CutBeforeLengthAccepted(fd: int, m: Message, prior: Message)
    requires fd >= 0 && Sendable(m) && Sendable(prior) && prior.data.hdr.len == 0
    ensures ReadMsg(fd, prior, SendRequest(fd, m).bytes[..LEN_OFFSET]).status == 1
  {
    var e := SendRequest(fd, m).bytes;
    TruncatedInLength(fd, m, prior, LEN_OFFSET);
    assert e[LEN_OFFSET..LEN_OFFSET] + LE(prior.data.hdr.len, LEN_SIZE)[0..] == LE(0, LEN_SIZE);
    FromLEOfLE(0, LEN_SIZE);
  }
}

=== FILE: wrappers.dfy ===
/** The optional value used wherever the C code returns a pointer that may be NULL. */
module Wrappers {

  datatype Option<+T> = None | Some(value: T) {

    /** The wrapped value, or `default` when there is none. */
    function GetOr(default: T): T {
      match this
      case Some(v) => v
      case None => default
    }
  }
}
